=== FILE: README.md ===
# Platformer rules, modelled and proved in Dafny

This project models the discrete, integer-valued rules of four small pygame platformers:

- `ultrasmb4k.py`: a tile-grid game.
- `geminiultramario1.x.py`: an object-list game.
- `ultra_mario_forever_1_0a.py`: a game with an overworld map of unlockable nodes.
- `ultramario4k1.x.py`: a game with a world/stage selection screen.

Each is modelled as immutable datatypes and pure functions, and the properties the games rely on are proved about them.

Modules follow the programs:

- `Geometry` (`geometry.dfy`): integer rectangles with the pygame conventions every variant uses. `colliderect` is modelled as strict overlap of the open intervals on both axes.
- Tile-grid game:
  - `TileGrid` (`tile_grid.dfy`): the character grid of class `Level`.
  - `Collision` (`collision.dfy`): `move_and_collide`, which resolves the horizontal axis, then the vertical axis, then lets a head bump turn a `?` block into a brick that drops a coin. It also holds the Goomba's wall flip.
  - `Smb4kPlay` (`smb4k_play.dfy`): coin collection, the rest of the player step, and the stomp-or-hurt pass with the removal of dead enemies.
- `Common` (`common.dfy`): the tier enumeration and the 100-coins-for-a-life counter, shared by the object-list and map games.
- Object-list game:
  - `GeminiPlayer` (`gemini_player.dfy`): tier transitions, enemy contacts, coin and item pickups.
  - `GeminiWorld` (`gemini_world.dfy`): blocks, one-shot spawning, stomped-enemy countdown, camera, level outcome, overworld cursor.
- Map game:
  - `ForeverPlayer` (`forever_player.dfy`): tier transitions, the frame counters (invincibility, P-meter, coyote time, jump buffer), falls, enemies, coins and items.
  - `ForeverMap` (`forever_map.dfy`): the 15-node zig-zag map, the cursor, and the game-mode machine (menu, map, playing, level clear, death, restart). Its invariant: unlocked nodes form a prefix.
- `Mario4k` (`mario4k.dfy`), the stage-select game: clamp, theme and width, camera, the selection screen, the death test, the victory and death debounce counters, the successor stage, and the frame dispatch.

Conventions:

- Displacements that the source computes in floating point arrive as parameters. For example, `Collision.Delta` carries the sign of the float distance and its `int(round(..))`.
- Vertical speeds are integers: pixels per second in the tile-grid game, hundredths of a pixel per frame in the other two.
- Python's `//` by a positive tile size is Dafny's `/`.
- The frame rate of 60 makes the float thresholds `FPS*0.5` and `FPS*0.3` exactly 30 and 18.

Where the code departs from the usual platformer rules, the model follows the code:

- A hit drops any larger tier straight to small (`geminiultramario1.x.py:196`, `ultra_mario_forever_1_0a.py:204`), not one tier down.
- In the object-list game a touched flower is always used up, even by a fire-tier player. In the map game it is used only below fire tier, and then it sets the tier without resizing the body or scoring.
- In the map game coyote time never lets a buffered jump through. This is a finding, below.
- In the tile-grid game the head-bump lookup misses the `?` block above. This is a finding, below.

The stage-select game handles every key of a frame in order, and the model keeps that:

- Arrow keys that follow ENTER on the selection screen in the same frame still change the world or stage, without rebuilding the level ENTER started.
- Two ENTERs in one frame on the victory screen advance two stages.
- On a frame where both debounce counters fire, the death check runs last and wins over victory.

For both findings the as-written behaviour is modelled and its defect exhibited, next to a corrected definition:

- `Smb4kPlay.PlayerStep` and `Collision.GoombaUpdate` use the as-written `Collision.MoveAndCollide`, as `Player.update` and `Goomba.update` do. `Smb4kPlay.PlayerStepIntended` is the same step over the corrected move. The two agree on every move without a head bump (`Smb4kPlay.PlayerStepsAgreeWithoutBump`).
- The map game's frame counters are modelled both ways: `ForeverPlayer.TimersAsWritten` and the corrected `ForeverPlayer.Timers`.

## Model

| member | source | states |
|---|---|---|
| Geometry.Clamp | ultrasmb4k.py:80-81 | The result lies in [lo, hi] for a non-empty range, is v inside it, lo below it and hi above it; the lower bound is tested first. |
| Geometry.Sign | ultrasmb4k.py:84-85 | The result is -1, 0 or 1 and has the sign of x, in both directions. |
| TileGrid.Level.IsSolid | ultrasmb4k.py:125-126 | A cell blocks if and only if it lies in the grid and its code is a blocking one; nothing outside the grid blocks. |
| TileGrid.Level.Get | ultrasmb4k.py:116-119 | A read inside the grid yields the cell's code, and a read outside it yields a blank. |
| TileGrid.Level.Set | ultrasmb4k.py:121-123 | A write outside the grid changes nothing; inside, exactly the one cell changes and every other cell, the size and the coin list stay. |
| TileGrid.Level.AddCoin | ultrasmb4k.py:142-144 | Exactly one coin (the tile shrunk by 3 pixels per side) is appended; the grid is untouched. |
| TileGrid.Level.TilesInRect | ultrasmb4k.py:131-139 | Every enumerated cell is inside the grid, and the cells come in strictly increasing row-major order. |
| TileGrid.TileRect | ultrasmb4k.py:128-129 | The square of cell (tx, ty) is one tile wide and tall, with its top-left corner at (tx * 20, ty * 20). |
| TileGrid.TileRectCells | ultrasmb4k.py:128-136 | A pixel lies in the square of cell (tx, ty) if and only if floor division of its coordinates by the tile size gives that cell, so the cell ranges `tiles_in_rect` computes and the squares `tile_rect` returns describe the same pixels. |
| TileGrid.EmptyLevel | ultrasmb4k.py:103-110 | A new level is a valid grid of the given size, blank everywhere, with no coins. |
| TileGrid.Span | ultrasmb4k.py:138-139 | One row's cells are exactly the columns of the range, left to right. |
| TileGrid.Rows | ultrasmb4k.py:137-139 | The nested loops yield exactly the cells of the clipped row and column ranges, in row-major order. |
| TileGrid.TileSpan | ultrasmb4k.py:133-136 | Floor division picks exactly the tiles whose pixel span meets the rectangle's half-open span. |
| TileGrid.TilesInRectExact | ultrasmb4k.py:131-139 | A cell is enumerated if and only if it lies in the grid and its tile overlaps the rectangle, so resolution sees every tile the rectangle touches. |
| TileGrid.SolidityByCode | ultrasmb4k.py:101-126 | A cell blocks if and only if it is inside the grid and its code is one of X B ? H L; off-grid cells, blanks, the flag pole and coins never block. |
| Collision.ResolveX | ultrasmb4k.py:390-396 | The horizontal pass never changes y or the size and only pushes against the direction of travel; with no direction it changes nothing. |
| Collision.ResolveXFree | ultrasmb4k.py:390-396 | When no enumerated solid tile overlaps the rectangle, the horizontal pass leaves it where it is. |
| Collision.ResolveY | ultrasmb4k.py:399-412 | The vertical pass keeps x and the size and only pushes against the direction of travel. Only a downward pass can set the landing flag, and only an upward pass the head-bump flag. An upward pass that records a bump leaves the rectangle directly under a solid tile. |
| Collision.Horizontal | ultrasmb4k.py:386-396 | After the horizontal move the rectangle is no further than the rounded distance in the direction of travel, and y and size are unchanged. |
| Collision.Resolve | ultrasmb4k.py:386-412 | The vertical pass keeps the x the horizontal pass produced and the size; with no vertical motion the result is the horizontal one with no contacts. |
| Collision.PopQuestion | ultrasmb4k.py:417-420 | A `?` cell becomes `B` and exactly one coin is appended one row above it; any other code leaves the level unchanged, and no other cell ever changes. |
| Collision.PopOnlyConverts | ultrasmb4k.py:417-420 | A pop either changes nothing or turns a `?` into `B` and appends one coin a row above; it never creates a `?`. |
| Collision.MoveAndCollide | ultrasmb4k.py:381-422 | As written: no motion returns the rectangle unchanged and not grounded; ground contact needs downward motion; each axis ends no further than its rounded move; the level only changes on upward motion. |
| Collision.MoveOnlyPopsQuestionBlocks | ultrasmb4k.py:413-420 | As written, a move changes the level at most by one `?` turned `B` plus one coin above it, and never creates a `?`, so a converted cell cannot pop again. |
| Collision.MoveAndCollideIntended | ultrasmb4k.py:413-420 | With the corrected lookup, the move has the same rectangle, the same size, the same no-motion result, and the same rule that the level changes only on upward motion. |
| Collision.MoveIntendedOnlyPopsQuestionBlocks | ultrasmb4k.py:413-420 | With the corrected lookup, the only possible level change is still one `?` turned `B` plus one coin, and no `?` is ever created. |
| Collision.MovesAgreeWithoutBump | ultrasmb4k.py:381-422 | When the resolved move records no head bump, the as-written and the corrected move give the same result. |
| Collision.QuestionBlockOneShot | ultrasmb4k.py:417-420 | Popping the same cell twice is the same as popping it once, and adds at most one coin. |
| Collision.BumpProbeAsWritten | ultrasmb4k.py:409-416 | As written, any cell a move converts lies in the resolved rectangle's own top row, never in the row of the tile that stopped it. |
| Collision.BumpProbeIntended | ultrasmb4k.py:409-416 | With the corrected lookup, a converted cell is a `?` directly above the resolved rectangle, in the column of its centre, and the rectangle rests under a solid tile. |
| Collision.BumpDemoResolve | ultrasmb4k.py:399-412 | A 14x18 body rising 10 pixels into a `?` block is stopped at the block's bottom edge and records a head bump. |
| Collision.BumpFromBelowMissesQuestionBlock | ultrasmb4k.py:413-420 | As written, that head bump leaves the level unchanged: the probe reads the blank cell under the block. |
| Collision.MoveAndCollideAfterBump | ultrasmb4k.py:413-420 | As written, after a head bump the move pops the cell at the resolved rectangle's centre column and its own top row. |
| Collision.MoveIntendedAfterBump | ultrasmb4k.py:413-420 | With the corrected lookup, after a head bump the move pops the cell one row above the resolved rectangle's top. |
| Collision.BumpDemoProbes | ultrasmb4k.py:413-420 | In the demonstration, the as-written probe names the blank cell under the block, where popping changes nothing; the corrected probe names the block itself, which turns into a brick with a coin above. |
| Collision.BumpFromBelowPopsIntended | ultrasmb4k.py:413-420 | With the corrected lookup, the same bump turns the block into a brick and drops its coin in the row above. |
| Collision.TurnAtWall | ultrasmb4k.py:359-362 | The speed's magnitude is kept; a moving walker reverses exactly when its left edge stayed put, and keeps its velocity otherwise. |
| Collision.GoombaUpdate | ultrasmb4k.py:347-369 | A dead walker is unchanged. A live one has its speed clamped to [-90, 90]; it reverses exactly when its x did not change, and stays alive exactly while it is at most 200 pixels below the grid. |
| Collision.FreeMoveKeepsX | ultrasmb4k.py:386-396 | A horizontal move onto a spot no solid tile overlaps lands exactly at x plus the rounded distance. |
| Collision.GoombaTurnsOnlyAtWalls | ultrasmb4k.py:358-362 | A live walker that moves at least a pixel into free space keeps its clamped velocity and advances by its move. |
| Smb4kPlay.CollectCoins | ultrasmb4k.py:314-321 | The loop adds exactly the number of touched coins to the count and keeps exactly the untouched coins in order (loop invariants over the prefix). |
| Smb4kPlay.Kept | ultrasmb4k.py:314-321 | Collection never lengthens the coin list. |
| Geometry.Touching | ultrasmb4k.py:314-321 | At most every coin is counted. |
| Geometry.TouchingFront | geminiultramario1.x.py:151-156 | Counting touched coins front to back, as the object-list and map games' loops do, gives the same number as the back-to-front count. |
| Smb4kPlay.KeptAndTouchingPartition | ultrasmb4k.py:314-321 | Kept and counted coins together account for every coin exactly once. |
| Smb4kPlay.KeptExactly | ultrasmb4k.py:314-321 | A coin survives if and only if it was in the list and the body does not touch it. |
| Smb4kPlay.KeptAppend | ultrasmb4k.py:314-321 | Collection distributes over concatenation, so the survivors keep their original order. |
| Smb4kPlay.CollectIdempotent | ultrasmb4k.py:314-321 | A second collection from the same place finds nothing and keeps everything. |
| Smb4kPlay.StompBounce | ultrasmb4k.py:310-312 | The player moves upward and leaves the ground; rect, coins and life are untouched, and a rising body cannot stomp any enemy. |
| Smb4kPlay.CollectAndFallOutcome | ultrasmb4k.py:303-308 | After a move, the rect and ground flag are the move's. The count rises by exactly the coins removed. A coin remains if and only if the move left it and the player does not touch it. The player lives exactly when its top is within 200 pixels below the grid. |
| Smb4kPlay.PlayerStep | ultrasmb4k.py:300-308 | With the as-written move, the level stays a valid grid of the same size, and a dead player changes nothing. |
| Smb4kPlay.PlayerStepIntended | ultrasmb4k.py:300-308 | With the corrected move, the level stays a valid grid of the same size, and a dead player changes nothing. |
| Smb4kPlay.PlayerStepOutcome | ultrasmb4k.py:300-308 | After a live player's step with the as-written move: the rect, ground flag and grid are the move's; the count rises by exactly the coins removed; a coin remains if and only if the move left it and the player does not touch it; the player is alive exactly when its top is within 200 pixels below the grid. |
| Smb4kPlay.PlayerStepsAgreeWithoutBump | ultrasmb4k.py:300-308 | Without a head bump, the as-written step and the corrected step are identical. |
| Smb4kPlay.PlayerStepMissesQuestionBlock | ultrasmb4k.py:301 | In the head-bump demonstration, the as-written step leaves the grid unchanged, while the corrected step turns the `?` block into a brick. |
| Smb4kPlay.Meet | ultrasmb4k.py:557-567 | An untouched or dead enemy changes nothing. A touched live enemy dies if and only if the player stomps it; then the player bounces up at 360 px/s and leaves the ground, and it survives exactly when it was alive and stomped. Otherwise speed and ground flag are kept. The player is never revived, and its rect and coins never change. Nothing is stomped at 50 px/s or less. |
| Smb4kPlay.ContactPass | ultrasmb4k.py:557-567 | Every enemy is either unchanged or a touched live one now dead. The player's rect and coins are unchanged and it is never revived. Slow falls stomp nothing. The live count drops by at most one, and exactly when the player bounced. |
| Smb4kPlay.FirstStomp | ultrasmb4k.py:557-567 | The index of the first live touched enemy the body stomps, or the list's length when there is none; never below the length at 50 px/s or less. |
| Smb4kPlay.ContactPassExact | ultrasmb4k.py:557-567 | The exact result of the loop. Only the first stompable touched live enemy dies, and every other enemy is unchanged. The player bounces if and only if there is such an enemy, and is otherwise unchanged apart from its life. It lives if and only if it was alive and every touched live enemy is that one. |
| Smb4kPlay.ContactEnemiesExact | ultrasmb4k.py:557-565 | Exactly the first stompable touched live enemy dies; the rest are unchanged. |
| Smb4kPlay.ContactPlayerExact | ultrasmb4k.py:557-565 | The player bounces if and only if some enemy was stomped, and is otherwise unchanged apart from its life. |
| Smb4kPlay.ContactAliveExact | ultrasmb4k.py:557-567 | The player lives if and only if it was alive and the only touched live enemy, if any, is the one it stomps. |
| Smb4kPlay.Survivors | ultrasmb4k.py:570 | The filter keeps exactly the live enemies, as many as are alive. |
| Smb4kPlay.StompPhase | ultrasmb4k.py:557-570 | After the pass and the filter only live enemies remain. |
| Smb4kPlay.StompPhaseRemovesAtMostOne | ultrasmb4k.py:557-570 | The phase removes at most one live enemy, and only together with a stomp bounce. |
| Smb4kPlay.NoStompWhenSlow | ultrasmb4k.py:561-568 | Without a downward speed above 50 the player survives if and only if it was alive and touched no live enemy. |
| Smb4kPlay.NoContactNoChange | ultrasmb4k.py:557-561 | With no live enemy touching the player the pass changes nothing. |
| Smb4kPlay.SingleContact | ultrasmb4k.py:557-570 | A single touched enemy met feet-first while falling fast is removed and the player bounces; met any other way the player dies and the enemy stays. |
| Common.AddCoin | geminiultramario1.x.py:154-155 | From a count below 100 the count stays below 100 and coins plus 100 per life grow by exactly one; a life is only ever added with the count reset to 0. |
| Common.Rollover | geminiultramario1.x.py:151-156 | n coins from a count below 100 leave the count at the sum modulo 100 and add one life per completed hundred. |
| GeminiPlayer.Die | geminiultramario1.x.py:200-204 | A life is lost; the player is small and sized, at (100, 330) at rest; coins, score and invincibility are kept. |
| GeminiPlayer.Hit | geminiultramario1.x.py:192-198 | A small player dies; any larger tier drops to small, feet in place, lives kept, 120 frames of invincibility. |
| GeminiPlayer.PowerUp | geminiultramario1.x.py:206-211 | The tier becomes the higher of the two. 1000 points are scored exactly when it rises. The feet and x are kept. A non-increase changes nothing. |
| GeminiPlayer.TransitionsKeepSize | geminiultramario1.x.py:108-110 | Every transition keeps the rect 20 tall when small and 40 otherwise. |
| GeminiPlayer.PowerUpLaws | geminiultramario1.x.py:192-211 | Power-ups never lower the tier and repeat harmlessly; a hit after any real tier brings the player back to small without losing a life. |
| GeminiPlayer.EnemyPass | geminiultramario1.x.py:141-148 | Enemies are only ever marked stomped. The score rises by at most 100, and only together with an upward rebound. Without downward speed no enemy is marked and nothing is scored. While invincible, tier, lives and rect are kept. Coins are kept, the body stays sized, and tier and lives never rise. |
| GeminiPlayer.SingleEnemy | geminiultramario1.x.py:143-148 | An untouched enemy changes nothing. A touched one is stomped (marked, rebound, 100 points), or hurts the player, or (while invincible) is ignored. |
| GeminiPlayer.EnemyPassAppend | geminiultramario1.x.py:142-148 | The pass over a list is the pass over its front, then over its back from the player the front left. With `SingleEnemy`, this fixes the result of every pass enemy by enemy. |
| GeminiPlayer.TakeCoin | geminiultramario1.x.py:152-156 | One coin scores 50 and feeds the shared coin counter. |
| GeminiPlayer.CoinPass | geminiultramario1.x.py:151-156 | A coin remains if and only if it was there and the player does not touch it; rect and tier are kept. |
| GeminiPlayer.CoinPassRollover | geminiultramario1.x.py:151-156 | n touched coins from a count below 100: the count ends at the sum modulo 100, a life per hundred, 50 points each, exactly those coins removed. |
| GeminiPlayer.CoinPassAddsCoins | geminiultramario1.x.py:151-156 | The coin loop is the shared counter applied once per touched coin. |
| GeminiPlayer.CoinPassMonotone | geminiultramario1.x.py:151-156 | The coin loop never lowers score or lives and never lengthens the coin list. |
| GeminiPlayer.ItemPass | geminiultramario1.x.py:157-162 | Items are only removed. Coins and lives are kept. The tier never drops and the body stays sized. Above small no mushroom is used. The tier changes exactly when the score does, which rises by at most 1000 per tier left to climb. |
| GeminiPlayer.SingleItem | geminiultramario1.x.py:157-162 | A touched mushroom powers a small player up to super, and a touched flower powers anyone up to fire; either is then gone. Anything else stays and changes nothing. |
| GeminiPlayer.ItemPassGrows | geminiultramario1.x.py:157-162 | For a correctly sized player, the final rect contains the starting one. |
| GeminiPlayer.ItemPassOutcome | geminiultramario1.x.py:157-162 | For a correctly sized player, every flower it touches is gone and leaves it at fire tier. A small player touching a mushroom ends at least super. An item the final rect does not touch is still there. |
| GeminiPlayer.FireTierOnlyEatsFlowers | geminiultramario1.x.py:157-162 | A fire-tier player is unchanged by items and removes exactly the flowers it touches. |
| GeminiPlayer.CollectItems | geminiultramario1.x.py:150-162 | Coins then items: tier and score never drop, size is kept, no list grows. |
| GeminiWorld.BlockHit | geminiultramario1.x.py:255-262 | A used block ignores hits. A brick breaks into a used block under a big player and only bounces for 6 frames under a small one. A question block bounces and is used up. Other kinds are untouched. |
| GeminiWorld.BlockHitOnce | geminiultramario1.x.py:255-262 | A hit question block, or a brick broken by a big player, ignores every later hit. |
| GeminiWorld.BlockTick | geminiultramario1.x.py:248-253 | A bouncing block counts down and stops exactly when its timer reaches 0; other blocks are unchanged. |
| GeminiWorld.BumpLasts | geminiultramario1.x.py:248-253 | A bounce started with timer t lasts exactly t ticks. |
| GeminiWorld.SpawnPass | geminiultramario1.x.py:356-361 | Every block keeps its kind and place and is left unloaded. Unused blocks keep their contents. Exactly one coin or item is appended per loaded block, after the existing ones. |
| GeminiWorld.SpawnOnce | geminiultramario1.x.py:358-361 | A second pass over the blocks the first one left spawns nothing. |
| GeminiWorld.NothingLoadedSpawnsNothing | geminiultramario1.x.py:358-361 | With no used block holding contents, the pass appends nothing. |
| GeminiWorld.QuestionCoinAppears | geminiultramario1.x.py:356-361 | Hitting a coin question block and one pass yield exactly one coin 30 pixels above its resting rect, and an empty block. |
| GeminiWorld.EnemyTick | geminiultramario1.x.py:225-228 | A stomped enemy only counts down; the modelled state of a live one is unchanged. |
| GeminiWorld.EnemyPassTick | geminiultramario1.x.py:368-370 | Every enemy is ticked, and the kept enemies are exactly the ticked ones whose timer is still positive: each kept enemy is the tick of an input enemy with a positive timer, and every input enemy whose tick leaves a positive timer is kept, ticked. Live enemies with a positive timer are kept unchanged. |
| GeminiWorld.StompedEnemyLifetime | geminiultramario1.x.py:368-370 | A stomped enemy with timer t survives t - 1 frames and is gone after the t-th. |
| GeminiWorld.CameraX | geminiultramario1.x.py:308-314 | For a level at least as wide as the screen the offset lies in [-(width - 640), 0] and centres the target away from the edges; near the left edge it is pinned. |
| GeminiWorld.CameraMonotone | geminiultramario1.x.py:308-312 | The offset never increases as the target moves right. |
| GeminiWorld.LevelOutcome | geminiultramario1.x.py:380-386 | The level is left to the overworld if and only if the player is past 60 pixels before the end; otherwise it is game over if and only if no lives or no time remain. |
| GeminiWorld.MapUpdate | geminiultramario1.x.py:410-425 | The cursor stays on a node. A running delay only counts down. With no delay, the frame is the key loop, and a level is entered if and only if a confirm key was pressed; it is the node under the cursor. |
| GeminiWorld.HandleKeys | geminiultramario1.x.py:415-425 | The key loop keeps the cursor on a node and enters a level if and only if a confirm key was pressed, the level of the node then under the cursor. With no usable key it changes nothing. |
| GeminiWorld.SingleKey | geminiultramario1.x.py:416-424 | An arrow with an exit that way moves the cursor there and restarts the 15-frame delay. A confirm key enters the current node's level. Any other key leaves the cursor alone. |
| GeminiWorld.HandleKeysAppend | geminiultramario1.x.py:415-425 | Keys after a confirm are ignored; otherwise the later keys start from the cursor the earlier ones left. With `SingleKey`, this fixes the result of every key sequence. |
| GeminiWorld.ConfirmEntersCurrent | geminiultramario1.x.py:423-424 | A confirm key first enters the current node's level without moving. |
| ForeverPlayer.ResetPosition | ultra_mario_forever_1_0a.py:220-225 | The player is put at (50, 300) at rest with an empty meter; size, tier, lives, coins, score and the other counters are kept. |
| ForeverPlayer.Die | ultra_mario_forever_1_0a.py:208-212 | A life is lost; small, 16 tall, at (50, 300), at rest, meter empty; coins, score and invincibility kept. |
| ForeverPlayer.Hit | ultra_mario_forever_1_0a.py:200-206 | A small player dies; any larger tier drops to small keeping its top edge and lives, with 120 frames of invincibility. |
| ForeverPlayer.PowerUp | ultra_mario_forever_1_0a.py:214-218 | Super tier, 32 tall, grown upward by 16 (feet kept from a small body), 1000 points. |
| ForeverPlayer.PMeterStep | ultra_mario_forever_1_0a.py:102-107 | The meter moves +2 up to 100 when running and -1 down to 0 otherwise, and stays within [0, 100]. |
| ForeverPlayer.PMeterRunFormula | ultra_mario_forever_1_0a.py:102-107 | n frames of running fill the meter to min(m + 2n, 100); n frames of walking drain it to max(m - n, 0). |
| ForeverPlayer.CoyoteStep | ultra_mario_forever_1_0a.py:125-128 | Coyote time is 6 after a frame begun on the ground and otherwise counts down to 0. |
| ForeverPlayer.BufferStep | ultra_mario_forever_1_0a.py:134-138 | As written, a pending press fires if and only if the frame ends on the ground, emptying the buffer; otherwise it counts down to 0. |
| ForeverPlayer.BufferStepIntended | ultra_mario_forever_1_0a.py:194-198 | A pending press fires if and only if the frame ends on the ground or coyote time runs, emptying the buffer; otherwise it counts down. |
| ForeverPlayer.BufferWindow | ultra_mario_forever_1_0a.py:134-138 | A press stored with b frames fires if and only if one of the next b frames ends on the ground. |
| ForeverPlayer.TimersAsWritten | ultra_mario_forever_1_0a.py:96-138 | As written: invincibility down to 0, meter and coyote stepped. The speed changes only when a pending press fires on landing, and then it is the jump speed (the faster one with a full meter). The buffer fires and empties exactly when a press is pending and the frame lands; otherwise it counts down by one, stopping at 0. |
| ForeverPlayer.Timers | ultra_mario_forever_1_0a.py:96-138 | As corrected: the same counters, but a pending press also fires within coyote time, emptying the buffer and setting the jump speed. The buffer fires exactly when a press is pending and the frame lands or coyote time runs; otherwise it counts down by one, stopping at 0. |
| ForeverPlayer.CoyoteIgnored | ultra_mario_forever_1_0a.py:133-138 | As written, the coyote counter never affects the jump. |
| ForeverPlayer.LedgeJumpLost | ultra_mario_forever_1_0a.py:124-138 | A press on the first airborne frame after a ledge: coyote time is 6 yet as written nothing happens, while the corrected counters jump. |
| ForeverPlayer.TimersAgreeOffCoyote | ultra_mario_forever_1_0a.py:133-138 | The correction only adds coyote jumps: on landing, or once coyote time is out, both versions agree. |
| ForeverPlayer.FallCheck | ultra_mario_forever_1_0a.py:141-142 | Below the screen's bottom the player dies, otherwise nothing changes. |
| ForeverPlayer.EnemyPass | ultra_mario_forever_1_0a.py:145-152 | At most one enemy is removed, and only with a rebound and 100 points. Without downward speed none is removed. While invincible, tier, lives and rect are kept. Coins are kept and lives never rise. |
| ForeverPlayer.SingleEnemy | ultra_mario_forever_1_0a.py:145-152 | An untouched enemy stays. A stomped one is removed, and the player rebounds at -8 and scores 100. A touched one not stomped stays and hits the player, unless it is invincible. |
| ForeverPlayer.EnemyPassAppend | ultra_mario_forever_1_0a.py:145-152 | The pass over a list is the pass over its front, then over its back from the player the front left. With `SingleEnemy`, this fixes the result of every pass enemy by enemy. |
| ForeverPlayer.TakeCoin | ultra_mario_forever_1_0a.py:157-161 | One coin scores 50 and feeds the shared coin counter; rect and tier are kept. |
| ForeverPlayer.CoinPass | ultra_mario_forever_1_0a.py:155-162 | A coin remains if and only if it was there and untouched; rect and tier are kept. |
| ForeverPlayer.CoinPassRollover | ultra_mario_forever_1_0a.py:155-162 | n touched coins from a count below 100: the count ends at the sum modulo 100, a life per hundred, 50 points each, exactly those removed. |
| ForeverPlayer.CoinPassAddsCoins | ultra_mario_forever_1_0a.py:155-162 | The coin loop is the shared counter applied once per touched coin. |
| ForeverPlayer.ItemPass | ultra_mario_forever_1_0a.py:165-172 | Items are only removed. The tier never drops. Only a small player scores (1000). A fire-tier player changes nothing. Above small no mushroom is used. |
| ForeverPlayer.SingleItem | ultra_mario_forever_1_0a.py:165-172 | A touched mushroom powers a small player up, and a touched flower turns a player below fire into fire; either is then gone. Anything else stays and changes nothing. |
| ForeverPlayer.ItemPassGrows | ultra_mario_forever_1_0a.py:165-172 | When a small body is 16 tall, the final rect contains the starting one. |
| ForeverPlayer.ItemPassOutcome | ultra_mario_forever_1_0a.py:165-172 | When a small body is 16 tall: touching a flower leaves the player at fire tier. A small player touching a mushroom ends at least super. An item the final rect does not touch is still there. |
| ForeverPlayer.FlowerKeepsBody | ultra_mario_forever_1_0a.py:170-172 | A small player taking a flower becomes fire tier with its small body and no points. |
| ForeverPlayer.AfterMove | ultra_mario_forever_1_0a.py:140-172 | After the fall, enemy, coin and item rules: at most one enemy is removed and no list grows. A fall respawns the player at x = 50 with a life lost, which only the coins taken that frame can make up, one life per coin at most. An invincible player on screen keeps its x and loses no life. |
| ForeverPlayer.ItemPassKeepsX | ultra_mario_forever_1_0a.py:214-218 | Power-ups never move the player sideways. |
| ForeverPlayer.AddCoinsLives | ultra_mario_forever_1_0a.py:159-161 | Adding n coins never loses a life and adds at most one life per coin. |
| ForeverMap.BuildOverworldMap | ultra_mario_forever_1_0a.py:297-321 | 15 nodes, only the first unlocked, none cleared. |
| ForeverMap.MapOrder | ultra_mario_forever_1_0a.py:299-302 | The nodes list every stage of worlds 1-5, levels 1-3, in strictly increasing order, so each exactly once. |
| ForeverMap.NodeStep | ultra_mario_forever_1_0a.py:304-316 | Consecutive nodes are 80 pixels apart on the same row, or, where the zig-zag turns, in the same column with the next one 60 pixels higher. |
| ForeverMap.NodeDistinct | ultra_mario_forever_1_0a.py:304-316 | No two nodes share a position. |
| ForeverMap.MapPath | ultra_mario_forever_1_0a.py:304-316 | The positions form a zig-zag path of unit steps with no repeated position. |
| ForeverMap.AheadFrom | ultra_mario_forever_1_0a.py:676-681 | From a locked or missing node i the scan returns its start value. From an unlocked node it returns the end of the unbroken run of unlocked nodes from i: every node up to it is unlocked, and the next is locked or missing. |
| ForeverMap.MoveRight | ultra_mario_forever_1_0a.py:674-684 | RIGHT moves to sel + 1 if and only if that node exists and is unlocked, and otherwise stays. |
| ForeverMap.MoveLeft | ultra_mario_forever_1_0a.py:685-687 | LEFT moves back one, never below 0. |
| ForeverMap.NewSession | ultra_mario_forever_1_0a.py:640-649 | A new game is on the menu with the cursor on node 0 and satisfies the invariant. |
| ForeverMap.OnKey | ultra_mario_forever_1_0a.py:664-722 | The cursor stays on the map. Menu: RETURN/SPACE opens the map, ESC quits. Map: RIGHT and LEFT move the cursor by their rules, ESC returns to the menu, and RETURN/SPACE starts the selected stage if and only if its node is unlocked. Nothing else starts a level. R after game over or completion starts a fresh game. Every other key, and any key while playing, changes nothing. Menu, map and playing keys never change the map. |
| ForeverMap.LevelClear | ultra_mario_forever_1_0a.py:766-779 | The node is marked cleared, and only it and the next node change. Before the last node, the next is unlocked and selected, and play returns to the map on its stage. At the last node the game is complete. |
| ForeverMap.Death | ultra_mario_forever_1_0a.py:781-789 | Game over if and only if no lives remain, otherwise the map; map and cursor unchanged. |
| ForeverMap.PlayingFrame | ultra_mario_forever_1_0a.py:726-789 | A time-up alone is a death judged on the lives after the clock. A clear alone is a level clear. A death alone is a death. After any death the game is over if and only if no lives remain, and otherwise back on the map. A clear always marks the node cleared; without one, map and cursor are kept. Leaving a level needs one of the three, and the game completes only by clearing the last node. |
| ForeverMap.InvPreserved | ultra_mario_forever_1_0a.py:664-789 | Every key, playing frame and death keeps the invariant: unlocked nodes are a prefix, cleared nodes are unlocked, the cursor is on an unlocked node, and the stage played is the selected one. |
| ForeverMap.LevelClearKeepsInv | ultra_mario_forever_1_0a.py:766-779 | A level clear keeps the invariant. |
| ForeverMap.ClearAllInOrder | ultra_mario_forever_1_0a.py:766-779 | n clears in a row advance the cursor by n and unlock every node up to it, keeping the invariant. |
| ForeverMap.ClearN | ultra_mario_forever_1_0a.py:766-779 | n clears advance the cursor by exactly n on a map of the same size. |
| Mario4k.ClampUpperFirst | ultramario4k1.x.py:56 | The result lies in [lo, hi] for a non-empty range and is v inside it; an empty range yields lo. |
| Mario4k.ClampsAgree | ultramario4k1.x.py:56 | On a non-empty range this clamp equals the tile-grid game's. |
| Mario4k.ChooseTheme | ultramario4k1.x.py:135-136 | Overworld if and only if stage mod 4 is 1, castle if and only if it is 0. |
| Mario4k.ThemePeriodic | ultramario4k1.x.py:135-136 | The theme ignores the world and repeats every four stages. |
| Mario4k.ThemesDistinct | ultramario4k1.x.py:135-136 | The four stages of a world have four different themes. |
| Mario4k.WidthPx | ultramario4k1.x.py:143 | The width is a whole number of tiles, and every selectable stage is wider than the screen. |
| Mario4k.WidthBounds | ultramario4k1.x.py:143 | Every selectable stage is 128 to 196 tiles wide. |
| Mario4k.WidthMonotone | ultramario4k1.x.py:143 | Later worlds and stages are never narrower. |
| Mario4k.CameraX | ultramario4k1.x.py:193-195 | The offset lies in [0, width - 640] for a level at least as wide as the screen and is 0 otherwise; inside that range it keeps Mario's centre 256 pixels from the left edge. |
| Mario4k.CameraMonotone | ultramario4k1.x.py:193-195 | The camera never moves left as Mario moves right. |
| Mario4k.HitsHazard | ultramario4k1.x.py:254 | True if and only if Mario overlaps some hazard. |
| Mario4k.CheckDeath | ultramario4k1.x.py:252-254 | Dead if and only if the top edge is below 530 or Mario overlaps a hazard. |
| Mario4k.Debounce | ultramario4k1.x.py:264-272 | A counter fires if and only if there is contact and it already counted the limit. Firing or a frame without contact resets it; otherwise it counts one up, staying within the limit. |
| Mario4k.Trailing | ultramario4k1.x.py:264-267 | The count covers exactly the unbroken run of contact frames at the end. |
| Mario4k.RunCountsTrailing | ultramario4k1.x.py:264-267 | Until it fires, a counter started at 0 equals the length of the current contact run. |
| Mario4k.FiresOnConsecutiveFrame | ultramario4k1.x.py:264-272 | A counter fires exactly on the (limit + 1)-th consecutive contact frame. |
| Mario4k.Next | ultramario4k1.x.py:289-292 | The successor of a selectable stage is selectable. |
| Mario4k.NextIsTourStep | ultramario4k1.x.py:290-291 | The successor is one step along the cyclic tour of 32 stages. |
| Mario4k.LastStageWraps | ultramario4k1.x.py:290-291 | After 8-4 comes 1-1. |
| Mario4k.StartLevel | ultramario4k1.x.py:221-228 | Starting a stage selects it, builds it, puts the camera at 0, clears both counters and enters the level. |
| Mario4k.NewGame | ultramario4k1.x.py:209-218 | A new game is on the menu at World 1-1 with no level, the camera at 0 and both counters cleared. |
| Mario4k.NewGameInv | ultramario4k1.x.py:210-219 | A new game satisfies the invariant. |
| Mario4k.StartLevelInv | ultramario4k1.x.py:221-228 | Starting a selectable stage satisfies the invariant. |
| Mario4k.MenuFrame | ultramario4k1.x.py:231-237 | The menu moves to the selection screen exactly when the frame holds an ENTER, and changes nothing else; without ENTER the game is unchanged. |
| Mario4k.MapKey | ultramario4k1.x.py:243-249 | Each key keeps the invariant, so world stays in 1-8 and stage in 1-4. Arrows and ESC leave the level and camera alone. ENTER starts the selected stage. ESC returns to the menu and changes nothing else. |
| Mario4k.MapFrame | ultramario4k1.x.py:239-249 | A frame of selection keys keeps the invariant. |
| Mario4k.MapFrameAppend | ultramario4k1.x.py:242-249 | Handling keys a then b is handling a, then b. |
| Mario4k.PressLeft | ultramario4k1.x.py:244 | n LEFT presses lower the world by n, stopping at 1. |
| Mario4k.PressRight | ultramario4k1.x.py:245 | n RIGHT presses raise the world by n, stopping at 8. |
| Mario4k.PressUp | ultramario4k1.x.py:246 | n UP presses raise the stage by n, stopping at 4. |
| Mario4k.PressDown | ultramario4k1.x.py:247 | n DOWN presses lower the stage by n, stopping at 1. |
| Mario4k.EveryStageSelectable | ultramario4k1.x.py:239-249 | From any valid game, every one of the 32 stages can be selected and started. |
| Mario4k.LevelCommand | ultramario4k1.x.py:257-260 | The command is the first R or ESC of the frame, and none exactly when neither occurs. |
| Mario4k.LevelFrame | ultramario4k1.x.py:256-272 | R restarts the stage and ESC returns to selection. Otherwise the stage is kept and the game ends dead exactly when the death counter fires. It ends in victory exactly when the flag counter fires and the death counter does not. The stored flag and death counters are their debounced values for this frame's contacts. The camera is clamped to Mario's centre and the stage width. The invariant is kept. |
| Mario4k.VictoryKey | ultramario4k1.x.py:287-293 | ENTER starts the successor stage. ESC returns to the selection screen and changes nothing else. Other keys change nothing. The invariant is kept. |
| Mario4k.VictoryFrame | ultramario4k1.x.py:283-293 | A frame on the victory screen keeps the invariant. |
| Mario4k.DeadKey | ultramario4k1.x.py:299-302 | ENTER retries the stage. ESC returns to the selection screen and changes nothing else. Other keys change nothing. The invariant is kept. |
| Mario4k.DeadFrame | ultramario4k1.x.py:295-302 | A frame on the death screen keeps the invariant. |
| Mario4k.Frame | ultramario4k1.x.py:304-316 | Every frame, whatever the screen, keeps the invariant. |
| Mario4k.ClearAdvancesTour | ultramario4k1.x.py:283-293 | From the victory screen, ENTER moves the game one step along the tour. |

## Left out

- Drawing, text, sound and `pygame.display` are presentation and are not modelled. The event and key polling is reduced to sequences of abstract keys.
- Float motion is not modelled, so positions and speeds arrive as inputs:
  - velocity integration, gravity, friction, acceleration and speed caps, in all four games;
  - Mario's own motion in `ultramario4k1.x.py` (a level frame takes his rectangle as an input);
  - enemy walking, items falling, and fireballs in the object-list and map games.
- The fixed-step accumulator and main loop of the tile-grid game are left out as clock plumbing. With them go the flag check, the respawn, and the smoothed camera lerp.
- The level clock of the object-list and map games counts float seconds. It is reduced to a `timeUp` input.
- The bounce offset of a bumped block in the object-list game follows a sine curve. The model keeps the block's rectangle in place.
- GeminiWorld.QuestionCoinAppears: the spawn reads the block's rect after `block.update()` has started the bounce, about 2 pixels above rest on the hit frame. The model places the coin 30 pixels (an item 25) above the resting rect instead.
- Level generation depends on Python's random generator or on layout tables, so it is not modelled. This covers `gen_level1`/`gen_level2`, `build_level`'s layout and `generate_level`. The level data file of the object-list game is also left out: the overworld nodes are a parameter with valid exits.
- Process plumbing is not modelled: quitting the map game's menu is a `Quit` mode, and QUIT/`q` in the stage-select game, the priority tweak, and `demo1--ultramario.py` are left out.
- Playing-mode keys of the map game and the `running` flag are inputs. Restarting after game over rebuilds the map but does not model the fresh `Player`'s lives.
- GeminiPlayer.Die: `set_size` also sets the attribute width to 20, but that never reaches the rect; only the height is modelled.
- The stage-select game creates its camera only when a stage starts. `Mario4k.NewGame` gives the offset the value 0 until then, which no screen before a level reads.
- Mario4k.Frame: states invariant preservation only. The per-screen members carry the key-by-key behaviour.
- Smb4kPlay.ContactPass: its own contract gives bounds only. The exact result, enemy by enemy, is stated by `Smb4kPlay.ContactPassExact`.
- GeminiPlayer.EnemyPass: its own contract gives bounds only. The exact result is stated by `GeminiPlayer.SingleEnemy` together with `GeminiPlayer.EnemyPassAppend`.
- ForeverPlayer.EnemyPass: its own contract gives bounds only. The exact result is stated by `ForeverPlayer.SingleEnemy` together with `ForeverPlayer.EnemyPassAppend`.
- GeminiPlayer.ItemPass: its own contract gives bounds only. What happens to touched flowers and mushrooms is stated by `GeminiPlayer.SingleItem` and `GeminiPlayer.ItemPassOutcome`. That outcome assumes a body sized to its tier, as every transition keeps it.
- ForeverPlayer.ItemPass: its own contract gives bounds only. What happens to touched flowers and mushrooms is stated by `ForeverPlayer.SingleItem` and `ForeverPlayer.ItemPassOutcome`. That outcome assumes a small body 16 pixels tall, as `hit` and `die` leave it.
- Smb4kPlay.PlayerStep: the integer speed and rounded moves stand for the float integration of `Player.update` up to the move.
- Collision.GoombaUpdate: the caller passes the rounded moves of the float speed and the gravity drop.

## Findings

| source | as written | input that shows it | evidently intended | confidence | as-written member | corrected member |
|---|---|---|---|---|---|---|
| ultrasmb4k.py:413-420 | After a head bump `r.top` already equals the struck tile's bottom edge, so `r.top // TILE` names the row below the tile, and a `?` block hit from below is never popped. | The grid `[" ? ", "   ", "   "]`, with a 14x18 body at (20, 25) rising 10 pixels. It stops at y = 20 with a head bump; the probe reads blank cell (1, 1), and the level is unchanged. | Probe row `(r.top - 1) // TILE`, the struck tile's row, so the block becomes a brick and drops its coin above. | high; not executed | Collision.BumpFromBelowMissesQuestionBlock | Collision.BumpFromBelowPopsIntended |
| ultra_mario_forever_1_0a.py:134-138 | A buffered jump fires only when the move ends on the ground, so the coyote counter kept at lines 125-128 and tested in `jump` never matters. | A small player on the ground walks off a ledge with a press buffered (6): coyote time becomes 6, yet the buffer only counts down to 5 and no jump happens. | Fire when on the ground or while coyote time runs, as `jump` itself tests and as `geminiultramario1.x.py:132-135` does. | high; not executed | ForeverPlayer.LedgeJumpLost | ForeverPlayer.Timers |

=== FILE: collision.dfy ===
/** Axis-separated movement against the tile grid (`move_and_collide` of ultrasmb4k.py):
    move horizontally and resolve, then move vertically and resolve, then let an upward
    collision turn a question block into a brick that drops one coin. The lookup of that
    block is modelled as written (MoveAndCollide, which probes one row too low) and as
    evidently intended (MoveAndCollideIntended). The two differ only after a head bump.
    Also the Goomba walker, which reverses when the horizontal pass leaves it where it
    started. */
module Collision {
  import opened Geometry
  import opened TileGrid

  /** A displacement along one axis. `dir` is the sign of the unrounded distance (the
      source tests `dx != 0.0`, `dx > 0`, `dx < 0` on the float), `px` is the whole-pixel
      move `int(round(dx))`. Rounding may lose the sign (a tiny move rounds to 0 but is
      still resolved) and never flips it. */
  datatype Delta = Delta(dir: int, px: int) {
    predicate Valid() {
      -1 <= dir <= 1 && (px > 0 ==> dir == 1) && (px < 0 ==> dir == -1)
    }
  }

  /** One cell of the horizontal pass: a solid tile the rectangle overlaps pushes its
      leading edge back to the tile's near edge. */
  function PushX(l: Level, c: Cell, r: Rect, dir: int): Rect
    requires l.Valid()
  {
    if l.IsSolid(c.0, c.1) then
      var t := TileRect(c.0, c.1);
      if dir > 0 && Overlaps(r, t) then r.WithRight(t.Left())
      else if dir < 0 && Overlaps(r, t) then r.WithLeft(t.Right())
      else r
    else r
  }

  /** The horizontal pass over the cells, in order, each tested against the rectangle
      as the earlier cells left it. It only ever pushes against the direction of travel. */
  function ResolveX(l: Level, cells: seq<Cell>, r: Rect, dir: int): (r': Rect)
    requires l.Valid()
    ensures r'.y == r.y && r'.w == r.w && r'.h == r.h
    ensures dir > 0 ==> r'.x <= r.x
    ensures dir < 0 ==> r'.x >= r.x
    ensures dir == 0 ==> r' == r
  {
    if cells == [] then r
    else ResolveX(l, cells[1..], PushX(l, cells[0], r, dir), dir)
  }

  /** Cells that do not block the rectangle leave it where it is. */
  lemma {:induction false} ResolveXFree(l: Level, cells: seq<Cell>, r: Rect, dir: int)
    requires l.Valid()
    requires forall c :: c in cells ==> !(l.IsSolid(c.0, c.1) && Overlaps(r, TileRect(c.0, c.1)))
    ensures ResolveX(l, cells, r, dir) == r
    decreases |cells|
  {
    if cells != [] {
      assert cells[0] in cells;
      assert PushX(l, cells[0], r, dir) == r;
      assert forall c :: c in cells[1..] ==> c in cells;
      ResolveXFree(l, cells[1..], r, dir);
    }
  }

  /** State of the vertical pass: the rectangle, whether it landed, whether it bumped
      its head. */
  datatype Vertical = Vertical(rect: Rect, onGround: bool, hitAbove: bool)

  /** The rectangle's top edge rests on the bottom edge of a solid tile in a column the
      rectangle spans: the situation right after a head bump. */
  ghost predicate UnderSolid(l: Level, r: Rect)
    requires l.Valid()
  {
    r.Top() % TILE == 0 &&
    exists tx :: l.IsSolid(tx, r.Top() / TILE - 1) && r.Left() < (tx + 1) * TILE && tx * TILE < r.Right()
  }

  /** One cell of the vertical pass. */
  function PushY(l: Level, c: Cell, v: Vertical, dir: int): Vertical
    requires l.Valid()
  {
    if l.IsSolid(c.0, c.1) then
      var t := TileRect(c.0, c.1);
      if dir > 0 && Overlaps(v.rect, t) then Vertical(v.rect.WithBottom(t.Top()), true, v.hitAbove)
      else if dir < 0 && Overlaps(v.rect, t) then Vertical(v.rect.WithTop(t.Bottom()), v.onGround, true)
      else v
    else v
  }

  /** The vertical pass: falling onto a solid tile lands, rising into one bumps the head. */
  function ResolveY(l: Level, cells: seq<Cell>, v: Vertical, dir: int): (v': Vertical)
    requires l.Valid()
    ensures v'.rect.x == v.rect.x && v'.rect.w == v.rect.w && v'.rect.h == v.rect.h
    ensures dir >= 0 ==> v'.rect.y <= v.rect.y && v'.hitAbove == v.hitAbove
    ensures dir <= 0 ==> v'.rect.y >= v.rect.y && v'.onGround == v.onGround
    ensures dir == 0 ==> v' == v
    ensures dir <= 0 && (v.hitAbove ==> UnderSolid(l, v.rect)) ==> (v'.hitAbove ==> UnderSolid(l, v'.rect))
  {
    if cells == [] then v
    else
      var c := cells[0];
      var v1 := PushY(l, c, v, dir);
      if dir < 0 && l.IsSolid(c.0, c.1) && Overlaps(v.rect, TileRect(c.0, c.1)) then
        assert v1.rect.Top() == (c.1 + 1) * TILE;
        assert v1.rect.Top() / TILE - 1 == c.1;
        assert l.IsSolid(c.0, v1.rect.Top() / TILE - 1);
        assert v1.rect.Left() < (c.0 + 1) * TILE && c.0 * TILE < v1.rect.Right();
        assert UnderSolid(l, v1.rect);
        ResolveY(l, cells[1..], v1, dir)
      else
        ResolveY(l, cells[1..], v1, dir)
  }

  /** The horizontal pass: shift by the whole-pixel distance, then resolve against the
      cells the shifted rectangle covers. No motion, no pass. */
  function Horizontal(l: Level, rect: Rect, dx: Delta): (r: Rect)
    requires l.Valid()
    ensures r.y == rect.y && r.w == rect.w && r.h == rect.h
    ensures dx.dir == 0 ==> r == rect
    ensures dx.dir > 0 ==> r.x <= rect.x + dx.px
    ensures dx.dir < 0 ==> r.x >= rect.x + dx.px
  {
    if dx.dir != 0 then
      var r1 := rect.(x := rect.x + dx.px);
      ResolveX(l, l.TilesInRect(r1), r1, dx.dir)
    else rect
  }

  /** Both passes. The cells of each pass are enumerated once, from the rectangle just
      after that axis' whole-pixel move. */
  function Resolve(l: Level, rect: Rect, dx: Delta, dy: Delta): (v: Vertical)
    requires l.Valid()
    ensures v.rect.x == Horizontal(l, rect, dx).x && v.rect.w == rect.w && v.rect.h == rect.h
    ensures dy.dir == 0 ==> v == Vertical(Horizontal(l, rect, dx), false, false)
  {
    var rx := Horizontal(l, rect, dx);
    if dy.dir != 0 then
      var r2 := rx.(y := rx.y + dy.px);
      ResolveY(l, l.TilesInRect(r2), Vertical(r2, false, false), dy.dir)
    else Vertical(rx, false, false)
  }

  /** A question block at (tx, ty) becomes a brick and drops a coin one row above it;
      any other code leaves the level alone. */
  function PopQuestion(l: Level, tx: int, ty: int): (l': Level)
    requires l.Valid()
    ensures l'.Valid() && l'.wt == l.wt && l'.ht == l.ht
    ensures l.Get(tx, ty) == '?' ==> l'.Get(tx, ty) == 'B' && l'.coins == l.coins + [CoinRect(tx, ty - 1)]
    ensures l.Get(tx, ty) != '?' ==> l' == l
    ensures forall a, b :: (a, b) != (tx, ty) ==> l'.Get(a, b) == l.Get(a, b)
  {
    if l.Get(tx, ty) == '?' then l.Set(tx, ty, 'B').AddCoin(tx, ty - 1) else l
  }

  /** Popping changes at most one `?` into `B` plus one coin above it, and never creates
      a `?`. */
  lemma PopOnlyConverts(l: Level, tx: int, ty: int)
    requires l.Valid()
    ensures var l' := PopQuestion(l, tx, ty);
      l' == l || (l.Get(tx, ty) == '?' && l' == l.Set(tx, ty, 'B').AddCoin(tx, ty - 1))
    ensures var l' := PopQuestion(l, tx, ty);
      forall a, b :: l'.Get(a, b) == '?' ==> l.Get(a, b) == '?'
  {
  }

  /** Result of a move: the (possibly mutated) level, the resolved rectangle, ground contact. */
  datatype Moved = Moved(level: Level, rect: Rect, onGround: bool)

  /** `move_and_collide` as written: after a head bump it looks up the cell under the
      rectangle's centre in row `top // TILE`, where `top` has just been set to the struck
      tile's bottom edge, i.e. the row below the struck tile. */
  function MoveAndCollide(l: Level, rect: Rect, dx: Delta, dy: Delta): (m: Moved)
    requires l.Valid() && dx.Valid() && dy.Valid()
    ensures m.level.Valid() && m.level.wt == l.wt && m.level.ht == l.ht
    ensures m.rect == Resolve(l, rect, dx, dy).rect && m.rect.w == rect.w && m.rect.h == rect.h
    ensures dx.dir == 0 && dy.dir == 0 ==> m == Moved(l, rect, false)
    ensures m.onGround ==> dy.dir > 0
    ensures dx.dir > 0 ==> m.rect.x <= rect.x + dx.px
    ensures dx.dir < 0 ==> m.rect.x >= rect.x + dx.px
    ensures dy.dir > 0 ==> m.rect.y <= rect.y + dy.px
    ensures dy.dir < 0 ==> m.rect.y >= rect.y + dy.px
    ensures m.level != l ==> dy.dir < 0
  {
    var v := Resolve(l, rect, dx, dy);
    var lvl := if v.hitAbove then PopQuestion(l, v.rect.CenterX() / TILE, v.rect.Top() / TILE) else l;
    Moved(lvl, v.rect, v.onGround)
  }

  /** The only change a move makes to the level is one question block
      turned into a brick together with one coin appended one row above it; question blocks
      are never created, so a converted cell can never pop again. */
  lemma MoveOnlyPopsQuestionBlocks(l: Level, rect: Rect, dx: Delta, dy: Delta)
    requires l.Valid() && dx.Valid() && dy.Valid()
    ensures var l' := MoveAndCollide(l, rect, dx, dy).level;
      l' == l || exists tx, ty :: l.Get(tx, ty) == '?' && l' == l.Set(tx, ty, 'B').AddCoin(tx, ty - 1)
    ensures var l' := MoveAndCollide(l, rect, dx, dy).level;
      forall a, b :: l'.Get(a, b) == '?' ==> l.Get(a, b) == '?'
    ensures |MoveAndCollide(l, rect, dx, dy).level.coins| <= |l.coins| + 1
  {
    var v := Resolve(l, rect, dx, dy);
    if v.hitAbove {
      var tx, ty := v.rect.CenterX() / TILE, v.rect.Top() / TILE;
      assert MoveAndCollide(l, rect, dx, dy).level == PopQuestion(l, tx, ty);
      PopOnlyConverts(l, tx, ty);
    }
  }

  /** The same holds with the intended lookup. */
  lemma MoveIntendedOnlyPopsQuestionBlocks(l: Level, rect: Rect, dx: Delta, dy: Delta)
    requires l.Valid() && dx.Valid() && dy.Valid()
    ensures var l' := MoveAndCollideIntended(l, rect, dx, dy).level;
      l' == l || exists tx, ty :: l.Get(tx, ty) == '?' && l' == l.Set(tx, ty, 'B').AddCoin(tx, ty - 1)
    ensures var l' := MoveAndCollideIntended(l, rect, dx, dy).level;
      forall a, b :: l'.Get(a, b) == '?' ==> l.Get(a, b) == '?'
  {
    var v := Resolve(l, rect, dx, dy);
    if v.hitAbove {
      var tx, ty := v.rect.CenterX() / TILE, (v.rect.Top() - 1) / TILE;
      assert MoveAndCollideIntended(l, rect, dx, dy).level == PopQuestion(l, tx, ty);
      PopOnlyConverts(l, tx, ty);
    }
  }

  /** The evidently intended head-bump lookup: the row of the struck tile,
      `(top - 1) // TILE`. Everything else is as in MoveAndCollide. */
  function MoveAndCollideIntended(l: Level, rect: Rect, dx: Delta, dy: Delta): (m: Moved)
    requires l.Valid() && dx.Valid() && dy.Valid()
    ensures m.level.Valid() && m.level.wt == l.wt && m.level.ht == l.ht
    ensures m.rect == Resolve(l, rect, dx, dy).rect && m.rect.w == rect.w && m.rect.h == rect.h
    ensures dx.dir == 0 && dy.dir == 0 ==> m == Moved(l, rect, false)
    ensures m.level != l ==> dy.dir < 0
  {
    var v := Resolve(l, rect, dx, dy);
    var lvl := if v.hitAbove then PopQuestion(l, v.rect.CenterX() / TILE, (v.rect.Top() - 1) / TILE) else l;
    Moved(lvl, v.rect, v.onGround)
  }

  /** Without a head bump the two lookups are never consulted, so the moves agree. */
  lemma MovesAgreeWithoutBump(l: Level, rect: Rect, dx: Delta, dy: Delta)
    requires l.Valid() && dx.Valid() && dy.Valid()
    requires !Resolve(l, rect, dx, dy).hitAbove
    ensures MoveAndCollide(l, rect, dx, dy) == MoveAndCollideIntended(l, rect, dx, dy)
  {
  }

  /** A question block pops once: hitting the same cell again changes nothing. */
  lemma QuestionBlockOneShot(l: Level, tx: int, ty: int)
    requires l.Valid()
    ensures PopQuestion(PopQuestion(l, tx, ty), tx, ty) == PopQuestion(l, tx, ty)
    ensures |PopQuestion(l, tx, ty).coins| <= |l.coins| + 1
  {
  }

  /** As written, the cell the head bump converts lies in the rectangle's own top row
      (the tile's top edge is the rectangle's top edge), never in the row of the tile
      that stopped it. */
  lemma BumpProbeAsWritten(l: Level, rect: Rect, dx: Delta, dy: Delta, tx: int, ty: int)
    requires l.Valid() && dx.Valid() && dy.Valid()
    requires MoveAndCollide(l, rect, dx, dy).level.Get(tx, ty) != l.Get(tx, ty)
    ensures TileRect(tx, ty).Top() == MoveAndCollide(l, rect, dx, dy).rect.Top()
  {
    var v := Resolve(l, rect, dx, dy);
    assert v.hitAbove;
    assert UnderSolid(l, v.rect);
  }

  /** With the intended lookup, the converted cell sits directly on top of the resolved
      rectangle, in the row of a solid tile the rectangle was pushed down from, and in the
      column of the rectangle's centre. */
  lemma BumpProbeIntended(l: Level, rect: Rect, dx: Delta, dy: Delta, tx: int, ty: int)
    requires l.Valid() && dx.Valid() && dy.Valid()
    requires MoveAndCollideIntended(l, rect, dx, dy).level.Get(tx, ty) != l.Get(tx, ty)
    ensures var r := MoveAndCollideIntended(l, rect, dx, dy).rect;
      TileRect(tx, ty).Bottom() == r.Top() && TileRect(tx, ty).Left() <= r.CenterX() < TileRect(tx, ty).Right()
    ensures l.Get(tx, ty) == '?' && UnderSolid(l, MoveAndCollideIntended(l, rect, dx, dy).rect)
  {
    var v := Resolve(l, rect, dx, dy);
    assert v.hitAbove;
    assert UnderSolid(l, v.rect);
    assert tx == v.rect.CenterX() / TILE;
    assert ty == (v.rect.Top() - 1) / TILE;
  }

  /** A 3x3 level with a question block at (1, 0) and a 14x18 body just below it. */
  function BumpDemoLevel(): (l: Level)
    ensures l.Valid()
  {
    Level(3, 3, [" ? ", "   ", "   "], [])
  }

  /** The cells the demo body covers after rising: the question block and the blank below. */
  lemma BumpDemoCells()
    ensures BumpDemoLevel().TilesInRect(Rect(20, 15, 14, 18)) == [(1, 0), (1, 1)]
  {
    assert Span(0, 2, 1) == [];
    assert Span(0, 1, 1) == [(1, 0)];
    assert Span(1, 2, 1) == [];
    assert Span(1, 1, 1) == [(1, 1)];
    assert Rows(2, 1, 1, 1) == [];
    assert Rows(1, 1, 1, 1) == [(1, 1)];
    assert Rows(0, 1, 1, 1) == [(1, 0), (1, 1)];
  }

  /** The body rises 10 pixels straight into the question block: the vertical pass stops
      it at the block's bottom edge (y = 20) and records the head bump. */
  lemma BumpDemoResolve()
    ensures Resolve(BumpDemoLevel(), Rect(20, 25, 14, 18), Delta(0, 0), Delta(-1, -10))
      == Vertical(Rect(20, 20, 14, 18), false, true)
  {
    var l := BumpDemoLevel();
    var r2 := Rect(20, 15, 14, 18);
    BumpDemoCells();
    var v0 := Vertical(r2, false, false);
    assert l.IsSolid(1, 0) && !l.IsSolid(1, 1);
    var v1 := Vertical(Rect(20, 20, 14, 18), false, true);
    assert PushY(l, (1, 0), v0, -1) == v1;
    assert PushY(l, (1, 1), v1, -1) == v1;
    assert ResolveY(l, [(1, 1)], v1, -1) == v1;
    assert ResolveY(l, [(1, 0), (1, 1)], v0, -1) == v1;
  }

  /** As written, the bump looks at the blank cell (1, 1) under the block: nothing pops. */
  lemma BumpFromBelowMissesQuestionBlock(l: Level, body: Rect)
    requires l == BumpDemoLevel() && body == Rect(20, 25, 14, 18)
    ensures MoveAndCollide(l, body, Delta(0, 0), Delta(-1, -10)) == Moved(l, Rect(20, 20, 14, 18), false)
  {
    BumpDemoResolve();
    var v := Vertical(Rect(20, 20, 14, 18), false, true);
    BumpDemoProbes(l, v);
    MoveAndCollideAfterBump(l, body, Delta(0, 0), Delta(-1, -10), v);
  }

  /** After the demo bump the as-written probe reads the blank (1, 1), the intended one
      the question block (1, 0). */
  lemma BumpDemoProbes(l: Level, v: Vertical)
    requires l == BumpDemoLevel() && v == Vertical(Rect(20, 20, 14, 18), false, true)
    ensures v.rect.CenterX() / TILE == 1 && v.rect.Top() / TILE == 1 && (v.rect.Top() - 1) / TILE == 0
    ensures PopQuestion(l, 1, 1) == l
    ensures PopQuestion(l, 1, 0) == Level(3, 3, [" B ", "   ", "   "], [CoinRect(1, -1)])
  {
    assert l.Get(1, 1) == ' ';
    assert l.Get(1, 0) == '?';
    var row := " ? "[1 := 'B'];
    assert row == " B " by {
      assert |row| == 3 && row[0] == ' ' && row[1] == 'B' && row[2] == ' ';
    }
    assert l.Set(1, 0, 'B') == Level(3, 3, [" B ", "   ", "   "], []);
  }

  /** A move whose passes end in a head bump probes the cell under the centre of the
      resolved rectangle's top edge. */
  lemma MoveAndCollideAfterBump(l: Level, rect: Rect, dx: Delta, dy: Delta, v: Vertical)
    requires l.Valid() && dx.Valid() && dy.Valid()
    requires Resolve(l, rect, dx, dy) == v && v.hitAbove
    ensures MoveAndCollide(l, rect, dx, dy) == Moved(PopQuestion(l, v.rect.CenterX() / TILE, v.rect.Top() / TILE), v.rect, v.onGround)
  {
  }

  /** The same move with the intended lookup probes the cell above that edge. */
  lemma MoveIntendedAfterBump(l: Level, rect: Rect, dx: Delta, dy: Delta, v: Vertical)
    requires l.Valid() && dx.Valid() && dy.Valid()
    requires Resolve(l, rect, dx, dy) == v && v.hitAbove
    ensures MoveAndCollideIntended(l, rect, dx, dy) == Moved(PopQuestion(l, v.rect.CenterX() / TILE, (v.rect.Top() - 1) / TILE), v.rect, v.onGround)
  {
  }

  /** With the intended lookup the same bump turns the block into a brick and drops its
      coin in row -1, just above the grid. */
  lemma BumpFromBelowPopsIntended(l: Level, body: Rect)
    requires l == BumpDemoLevel() && body == Rect(20, 25, 14, 18)
    ensures MoveAndCollideIntended(l, body, Delta(0, 0), Delta(-1, -10)).level
      == Level(3, 3, [" B ", "   ", "   "], [CoinRect(1, -1)])
  {
    BumpDemoResolve();
    var v := Vertical(Rect(20, 20, 14, 18), false, true);
    BumpDemoProbes(l, v);
    MoveIntendedAfterBump(l, body, Delta(0, 0), Delta(-1, -10), v);
  }

  /** No solid tile of the grid overlaps the rectangle. */
  ghost predicate NoSolidOverlap(l: Level, r: Rect)
    requires l.Valid()
  {
    forall c :: c in l.TilesInRect(r) ==> !(l.IsSolid(c.0, c.1) && Overlaps(r, TileRect(c.0, c.1)))
  }

  /** The walker of the tile-grid variant: 16x16, horizontal speed in pixels per second. */
  datatype Goomba = Goomba(x: int, y: int, vx: int, alive: bool, onGround: bool) {
    function Box(): Rect { Rect(x, y, 16, 16) }
  }

  /** The reversal rule: a walker whose left edge did not move turns to face the other
      way at the same speed; otherwise it keeps its velocity. */
  function TurnAtWall(vx: int, stayed: bool): (vx': int)
    ensures Abs(vx') == Abs(vx)
    ensures vx != 0 ==> (vx' == -vx <==> stayed)
    ensures !stayed ==> vx' == vx
  {
    if stayed && vx < 0 then Abs(vx)
    else if stayed && vx > 0 then -(Abs(vx) as int)
    else vx
  }

  /** `Goomba.update`: clamp the speed to [-90, 90], move (always downward by gravity),
      reverse when the horizontal pass left the box's left edge where it was, and die when
      fallen more than 200 pixels below the grid. The caller passes the rounded moves of
      `vx * dt` and of the one-frame gravity drop. */
  function GoombaUpdate(l: Level, g: Goomba, dx: Delta, dy: Delta): (g': Goomba)
    requires l.Valid() && dx.Valid() && dy.Valid()
    requires dx.dir == Sign(Clamp(g.vx, -90, 90)) && dy.dir == 1
    ensures !g.alive ==> g' == g
    ensures g.alive ==> Abs(g'.vx) == Abs(Clamp(g.vx, -90, 90)) && -90 <= g'.vx <= 90
    ensures g.alive && g.vx != 0 ==> (g'.vx == -Clamp(g.vx, -90, 90) <==> g'.x == g.x)
    ensures g.alive ==> (g'.alive <==> g'.y <= l.ht * TILE + 200)
  {
    if !g.alive then g
    else
      var m := MoveAndCollide(l, g.Box(), dx, dy);
      Goomba(m.rect.x, m.rect.y, TurnAtWall(Clamp(g.vx, -90, 90), m.rect.Left() == g.Box().Left()),
             !(m.rect.y > l.ht * TILE + 200), m.onGround)
  }

  /** A horizontal move onto a spot where no solid tile overlaps is not pushed back. */
  lemma FreeMoveKeepsX(l: Level, rect: Rect, dx: Delta)
    requires l.Valid() && dx.dir != 0
    requires NoSolidOverlap(l, rect.(x := rect.x + dx.px))
    ensures Horizontal(l, rect, dx).x == rect.x + dx.px
  {
    var r1 := rect.(x := rect.x + dx.px);
    ResolveXFree(l, l.TilesInRect(r1), r1, dx.dir);
  }

  /** A walker that moves at least one pixel and meets no solid tile there keeps its
      heading: only a wall turns it around. */
  lemma GoombaTurnsOnlyAtWalls(l: Level, g: Goomba, dx: Delta, dy: Delta)
    requires l.Valid() && dx.Valid() && dy.Valid()
    requires dx.dir == Sign(Clamp(g.vx, -90, 90)) && dy.dir == 1
    requires g.alive && dx.px != 0 && NoSolidOverlap(l, Rect(g.x + dx.px, g.y, 16, 16))
    ensures GoombaUpdate(l, g, dx, dy).vx == Clamp(g.vx, -90, 90)
    ensures GoombaUpdate(l, g, dx, dy).x == g.x + dx.px
  {
    assert g.Box().(x := g.x + dx.px) == Rect(g.x + dx.px, g.y, 16, 16);
    FreeMoveKeepsX(l, g.Box(), dx);
    var m := MoveAndCollide(l, g.Box(), dx, dy);
    assert m.rect.x == g.x + dx.px;
    assert GoombaUpdate(l, g, dx, dy).vx == TurnAtWall(Clamp(g.vx, -90, 90), m.rect.Left() == g.Box().Left());
  }
}

=== FILE: common.dfy ===
/** Rules the object-list variant (geminiultramario1.x.py) and the map variant
    (ultra_mario_forever_1_0a.py) share word for word: the three power tiers and the
    coin counter that trades 100 coins for a life. */
module Common {

  /** Coins that buy an extra life. */
  const COINS_PER_LIFE: nat := 100

  /** `PlayerState`, ordered by its enum value. */
  datatype Tier = Small | Super | Fire {
    function Rank(): nat {
      match this
      case Small => 0
      case Super => 1
      case Fire => 2
    }
  }

  /** The coin counter and the lives it feeds. */
  datatype Purse = Purse(coins: nat, lives: int)

  /** One coin: count it, and once the count reaches 100 reset it and add a life. */
  function AddCoin(p: Purse): (q: Purse)
    ensures p.coins < COINS_PER_LIFE ==> q.coins < COINS_PER_LIFE
    ensures p.coins < COINS_PER_LIFE ==> q.coins + COINS_PER_LIFE * q.lives == p.coins + 1 + COINS_PER_LIFE * p.lives
    ensures q.lives == p.lives || (q.lives == p.lives + 1 && q.coins == 0)
  {
    var c := p.coins + 1;
    if c >= COINS_PER_LIFE then Purse(0, p.lives + 1) else Purse(c, p.lives)
  }

  /** n coins one after another. */
  function AddCoins(p: Purse, n: nat): Purse
    decreases n
  {
    if n == 0 then p else AddCoins(AddCoin(p), n - 1)
  }

  /** From a count below 100, n coins leave the count at the sum modulo 100 and add one
      life per completed hundred. */
  lemma {:induction false} Rollover(p: Purse, n: nat)
    requires p.coins < COINS_PER_LIFE
    ensures AddCoins(p, n) == Purse((p.coins + n) % COINS_PER_LIFE, p.lives + (p.coins + n) / COINS_PER_LIFE)
    decreases n
  {
    if n > 0 {
      var q := AddCoin(p);
      Rollover(q, n - 1);
      if p.coins + 1 >= COINS_PER_LIFE {
        assert p.coins + n == COINS_PER_LIFE + (n - 1);
      } else {
        assert q.coins + (n - 1) == p.coins + n;
      }
    }
  }
}

=== FILE: forever_map.dfy ===
/** The overworld and the game-mode machine of the map variant
    (ultra_mario_forever_1_0a.py): the 15-node zig-zag map, the cursor rules, starting
    a level, clearing it (which unlocks the next node), and the return to the map or to
    game over after a death. */
module ForeverMap {
  import opened Geometry

  const NODE_COUNT: nat := 15

  datatype MapNode = MapNode(x: int, y: int, world: int, level: int, unlocked: bool, cleared: bool)

  /** `cols_x`, left to right. */
  function ColX(col: int): int {
    80 * (col + 1)
  }

  /** `rows_y`, bottom to top. */
  function RowY(row: int): int {
    300 - 60 * row
  }

  /** Position of node i: row i // 5, column i % 5 on even rows and mirrored on odd rows. */
  function NodeX(i: nat): int {
    var row, col := i / 5, i % 5;
    if row % 2 == 0 then ColX(col) else ColX(4 - col)
  }

  function NodeY(i: nat): int {
    RowY(i / 5)
  }

  /** `build_overworld_map`: the pairs (1,1) .. (5,3) in order, on the zig-zag
      positions, only the first unlocked and none cleared. */
  function BuildOverworldMap(): (m: seq<MapNode>)
    ensures |m| == NODE_COUNT
    ensures forall i :: 0 <= i < |m| ==> (m[i].unlocked <==> i == 0) && !m[i].cleared
  {
    seq(NODE_COUNT, i requires 0 <= i => MapNode(NodeX(i), NodeY(i), i / 3 + 1, i % 3 + 1, i == 0, false))
  }

  /** (world, level) pairs in lexicographic order. */
  predicate PairBefore(a: MapNode, b: MapNode) {
    a.world < b.world || (a.world == b.world && a.level < b.level)
  }

  /** The map lists every stage of worlds 1-5, levels 1-3, each once, in play order. */
  lemma MapOrder()
    ensures var m := BuildOverworldMap();
      forall i, j :: 0 <= i < j < |m| ==> PairBefore(m[i], m[j])
    ensures var m := BuildOverworldMap();
      forall w, l :: 1 <= w <= 5 && 1 <= l <= 3 ==> StageIndex(w, l) < |m| && m[StageIndex(w, l)].world == w && m[StageIndex(w, l)].level == l
  {
    var m := BuildOverworldMap();
    forall i, j | 0 <= i < j < |m|
      ensures PairBefore(m[i], m[j])
    {
      assert m[i].world == i / 3 + 1 && m[j].world == j / 3 + 1;
      assert m[i].level == i % 3 + 1 && m[j].level == j % 3 + 1;
      assert i == 3 * (i / 3) + i % 3 && j == 3 * (j / 3) + j % 3;
    }
    forall w, l | 1 <= w <= 5 && 1 <= l <= 3
      ensures StageIndex(w, l) < |m| && m[StageIndex(w, l)].world == w && m[StageIndex(w, l)].level == l
    {
      var i := StageIndex(w, l);
      assert i / 3 == w - 1 && i % 3 == l - 1;
    }
  }

  /** Where stage w-l sits in the play order. */
  function StageIndex(w: int, l: int): int {
    3 * (w - 1) + (l - 1)
  }

  /** Node i + 1 is the next column of node i's row, or stacked on top of it where the
      zig-zag turns. */
  lemma NodeStep(i: nat)
    requires i + 1 < NODE_COUNT
    ensures (NodeY(i) == NodeY(i + 1) && (NodeX(i + 1) - NodeX(i) == 80 || NodeX(i) - NodeX(i + 1) == 80))
      || (NodeX(i) == NodeX(i + 1) && NodeY(i) - NodeY(i + 1) == 60)
  {
    if i % 5 < 4 {
      assert (i + 1) / 5 == i / 5 && (i + 1) % 5 == i % 5 + 1;
    } else {
      assert (i + 1) / 5 == i / 5 + 1 && (i + 1) % 5 == 0;
    }
  }

  /** Different nodes sit at different positions. */
  lemma NodeDistinct(i: nat, j: nat)
    requires i < j < NODE_COUNT
    ensures (NodeX(i), NodeY(i)) != (NodeX(j), NodeY(j))
  {
    if i / 5 == j / 5 {
      assert i % 5 != j % 5;
    }
  }

  /** The path is unbroken: consecutive nodes are 80 pixels apart on a row, or stacked
      60 pixels apart where the zig-zag turns, and no two nodes share a position. */
  lemma MapPath()
    ensures var m := BuildOverworldMap();
      forall i :: 0 <= i < |m| - 1 ==>
        (m[i].y == m[i + 1].y && (m[i + 1].x - m[i].x == 80 || m[i].x - m[i + 1].x == 80))
        || (m[i].x == m[i + 1].x && m[i].y - m[i + 1].y == 60)
    ensures var m := BuildOverworldMap();
      forall i, j :: 0 <= i < j < |m| ==> (m[i].x, m[i].y) != (m[j].x, m[j].y)
  {
    var m := BuildOverworldMap();
    forall i | 0 <= i < |m| - 1
      ensures (m[i].y == m[i + 1].y && (m[i + 1].x - m[i].x == 80 || m[i].x - m[i + 1].x == 80))
        || (m[i].x == m[i + 1].x && m[i].y - m[i + 1].y == 60)
    {
      NodeStep(i);
    }
    forall i, j | 0 <= i < j < |m|
      ensures (m[i].x, m[i].y) != (m[j].x, m[j].y)
    {
      NodeDistinct(i, j);
    }
  }

  // ---------------------------------------------------------------------------
  // Cursor

  /** The scan of the RIGHT key: from index i on, the last node of the unbroken run of
      unlocked nodes, or `ahead` if node i is locked or past the end. */
  function AheadFrom(nodes: seq<MapNode>, i: nat, ahead: nat): (a: nat)
    decreases |nodes| - i
    ensures a == ahead || (i <= a < |nodes| && forall j :: i <= j <= a ==> nodes[j].unlocked)
    ensures (i < |nodes| && nodes[i].unlocked) ==>
      i <= a < |nodes| && (forall j :: i <= j <= a ==> nodes[j].unlocked) && (a + 1 == |nodes| || !nodes[a + 1].unlocked)
    ensures (i >= |nodes| || !nodes[i].unlocked) ==> a == ahead
  {
    if i >= |nodes| then ahead
    else if nodes[i].unlocked then AheadFrom(nodes, i + 1, i)
    else ahead
  }

  /** RIGHT: one step along the path, and only onto an unlocked node. */
  function MoveRight(nodes: seq<MapNode>, sel: nat): (s: nat)
    ensures s == sel + 1 <==> sel + 1 < |nodes| && nodes[sel + 1].unlocked
    ensures s == sel || s == sel + 1
  {
    var ahead := AheadFrom(nodes, sel + 1, sel);
    if ahead != sel then Min(ahead, sel + 1) else sel
  }

  /** LEFT: one step back, never below 0. */
  function MoveLeft(sel: nat): (s: nat)
    ensures sel > 0 ==> s + 1 == sel
    ensures sel == 0 ==> s == 0
  {
    if sel > 0 then sel - 1 else sel
  }

  // ---------------------------------------------------------------------------
  // Game modes

  datatype Mode = Menu | OnMap | Playing | GameOver | GameComplete | Quit

  datatype Key = Right | Left | Enter | Escape | Restart | Other

  /** The session: mode, map, cursor, and the stage being played. */
  datatype Session = Session(mode: Mode, nodes: seq<MapNode>, sel: nat, world: int, level: int)

  /** The unlocked nodes form a non-empty prefix of the map, every cleared node is
      unlocked, the cursor is on an unlocked node, and while playing the stage is the
      selected node's. */
  predicate Inv(s: Session) {
    |s.nodes| == NODE_COUNT && s.sel < |s.nodes| && s.nodes[s.sel].unlocked && s.nodes[0].unlocked
    && (forall i, j :: 0 <= i < j < |s.nodes| && s.nodes[j].unlocked ==> s.nodes[i].unlocked)
    && (forall i :: 0 <= i < |s.nodes| && s.nodes[i].cleared ==> s.nodes[i].unlocked)
    && (s.mode == Playing ==> s.world == s.nodes[s.sel].world && s.level == s.nodes[s.sel].level)
  }

  /** A fresh game: the menu, a new map, the cursor on its first node. */
  function NewSession(): (s: Session)
    ensures Inv(s) && s.mode == Menu && s.sel == 0
  {
    var m := BuildOverworldMap();
    Session(Menu, m, 0, m[0].world, m[0].level)
  }

  /** One key press, handled in the mode current at that press. In a level, keys drive
      the player only. */
  function OnKey(s: Session, k: Key): (s': Session)
    requires s.sel < |s.nodes|
    ensures s'.sel < |s'.nodes|
    ensures s.mode == OnMap && k == Enter ==> (s'.mode == Playing <==> s.nodes[s.sel].unlocked)
    ensures s'.mode == Playing ==> s.mode == Playing || (s.mode == OnMap && k == Enter)
    ensures s.mode in {Menu, OnMap, Playing} ==> s'.nodes == s.nodes
    ensures s.mode == Menu && k == Enter ==> s' == s.(mode := OnMap)
    ensures s.mode == Menu && k == Escape ==> s' == s.(mode := Quit)
    ensures s.mode == OnMap && k == Right ==> s' == s.(sel := MoveRight(s.nodes, s.sel))
    ensures s.mode == OnMap && k == Left ==> s' == s.(sel := MoveLeft(s.sel))
    ensures s.mode == OnMap && k == Enter && s.nodes[s.sel].unlocked ==>
      s' == s.(mode := Playing, world := s.nodes[s.sel].world, level := s.nodes[s.sel].level)
    ensures s.mode == OnMap && k == Escape ==> s' == s.(mode := Menu)
    ensures s.mode in {GameOver, GameComplete} && k == Restart ==> s' == NewSession()
    ensures s.mode in {Playing, Quit} || k == Other ==> s' == s
    ensures s.mode == Menu && k !in {Enter, Escape} ==> s' == s
    ensures s.mode in {GameOver, GameComplete} && k != Restart ==> s' == s
    ensures s.mode == OnMap && (k == Restart || (k == Enter && !s.nodes[s.sel].unlocked)) ==> s' == s
  {
    match s.mode
    case Menu =>
      if k == Enter then s.(mode := OnMap)
      else if k == Escape then s.(mode := Quit)
      else s
    case OnMap =>
      if k == Right then s.(sel := MoveRight(s.nodes, s.sel))
      else if k == Left then s.(sel := MoveLeft(s.sel))
      else if k == Enter then
        var node := s.nodes[s.sel];
        if node.unlocked then s.(mode := Playing, world := node.world, level := node.level) else s
      else if k == Escape then s.(mode := Menu)
      else s
    case GameOver =>
      if k == Restart then NewSession() else s
    case GameComplete =>
      if k == Restart then NewSession() else s
    case _ => s
  }

  /** The level-clear branch: mark the node cleared; unlock and select the next node and
      return to the map, or finish the game after the last node. */
  function LevelClear(s: Session): (s': Session)
    requires s.sel < |s.nodes|
    ensures |s'.nodes| == |s.nodes| && s'.nodes[s.sel].cleared
    ensures s.sel + 1 < |s.nodes| ==>
      s'.mode == OnMap && s'.sel == s.sel + 1 && s'.nodes[s.sel + 1].unlocked
      && s'.world == s.nodes[s.sel + 1].world && s'.level == s.nodes[s.sel + 1].level
    ensures s.sel + 1 == |s.nodes| ==> s'.mode == GameComplete && s'.sel == s.sel
    ensures forall i :: 0 <= i < |s.nodes| && i != s.sel && i != s.sel + 1 ==> s'.nodes[i] == s.nodes[i]
  {
    var nodes := s.nodes[s.sel := s.nodes[s.sel].(cleared := true)];
    if s.sel + 1 < |nodes| then
      var next := nodes[s.sel + 1].(unlocked := true);
      var nodes' := nodes[s.sel + 1 := next];
      Session(OnMap, nodes', s.sel + 1, next.world, next.level)
    else s.(mode := GameComplete, nodes := nodes)
  }

  /** A death in a level (an enemy, a fall, or the clock running out): with no lives left
      the game is over, otherwise back to the map with the stage still uncleared. */
  function Death(s: Session, livesLeft: int): (s': Session)
    ensures s'.nodes == s.nodes && s'.sel == s.sel
    ensures s'.mode == GameOver <==> livesLeft <= 0
    ensures s'.mode == OnMap <==> livesLeft > 0
  {
    if livesLeft <= 0 then s.(mode := GameOver) else s.(mode := OnMap)
  }

  /** The session part of a playing frame, in the order the frame runs it: the clock
      (a time-up is a death, judged on the lives left after it), then the flag check, then
      the death check of the player update. The flag and death checks run even when the
      clock has already left the level. */
  function PlayingFrame(s: Session, timeUp: bool, livesAfterClock: int, reachedFlag: bool, died: bool, livesLeft: int): (s': Session)
    requires s.sel < |s.nodes|
    ensures s.mode == Playing && s'.mode != Playing ==> timeUp || reachedFlag || died
    ensures !timeUp && !reachedFlag && !died ==> s' == s
    ensures timeUp && !reachedFlag && !died ==> s' == Death(s, livesAfterClock)
    ensures !timeUp && reachedFlag && !died ==> s' == LevelClear(s)
    ensures !timeUp && !reachedFlag && died ==> s' == Death(s, livesLeft)
    ensures died ==> (s'.mode == GameOver <==> livesLeft <= 0) && (s'.mode == OnMap <==> livesLeft > 0)
    ensures |s'.nodes| == |s.nodes|
    ensures reachedFlag ==> s'.nodes[s.sel].cleared
    ensures !reachedFlag ==> s'.nodes == s.nodes && s'.sel == s.sel
    ensures s.mode != GameComplete && s'.mode == GameComplete ==> reachedFlag && s.sel + 1 == |s.nodes|
  {
    var s0 := if timeUp then Death(s, livesAfterClock) else s;
    var s1 := if reachedFlag then LevelClear(s0) else s0;
    if died then Death(s1, livesLeft) else s1
  }

  /** Every transition keeps the map invariant: unlocked nodes stay a prefix, the cursor
      stays on an unlocked node, and a level is only ever played on an unlocked node. */
  lemma InvPreserved(s: Session, k: Key, timeUp: bool, livesAfterClock: int, reachedFlag: bool, died: bool, livesLeft: int)
    requires Inv(s)
    ensures Inv(OnKey(s, k))
    ensures s.mode == Playing ==> Inv(PlayingFrame(s, timeUp, livesAfterClock, reachedFlag, died, livesLeft))
    ensures Inv(Death(s, livesLeft))
  {
    if s.mode == OnMap && k == Right {
      var sel := MoveRight(s.nodes, s.sel);
      assert s.nodes[sel].unlocked;
    }
    if s.mode == Playing && reachedFlag {
      LevelClearKeepsInv(if timeUp then Death(s, livesAfterClock) else s);
    }
  }

  /** Clearing the selected node keeps the invariant. */
  lemma LevelClearKeepsInv(s: Session)
    requires Inv(s)
    ensures Inv(LevelClear(s))
  {
    var s' := LevelClear(s);
    forall i, j | 0 <= i < j < |s'.nodes| && s'.nodes[j].unlocked
      ensures s'.nodes[i].unlocked
    {
      if j == s.sel + 1 {
        assert s.nodes[s.sel].unlocked;
        if i != s.sel {
          assert s.nodes[i].unlocked;
        }
      } else {
        assert s.nodes[j].unlocked;
        assert s.nodes[i].unlocked;
      }
    }
  }

  /** Progress: clearing node after node from any valid session unlocks every node up
      to the cursor, which advances one node per clear. */
  lemma {:induction false} ClearAllInOrder(s: Session, n: nat)
    requires Inv(s) && s.sel + n < NODE_COUNT
    ensures var t := ClearN(s, n);
      Inv(t) && t.sel == s.sel + n && forall i :: 0 <= i <= s.sel + n ==> t.nodes[i].unlocked
    decreases n
  {
    if n > 0 {
      ClearAllInOrder(s, n - 1);
      var t := ClearN(s, n - 1);
      LevelClearKeepsInv(t);
    }
  }

  /** n level clears in a row. */
  function ClearN(s: Session, n: nat): (t: Session)
    requires s.sel + n < |s.nodes|
    ensures |t.nodes| == |s.nodes| && t.sel == s.sel + n
    decreases n
  {
    if n == 0 then s else LevelClear(ClearN(s, n - 1))
  }
}

=== FILE: forever_player.dfy ===
/** The player of the map variant (ultra_mario_forever_1_0a.py): the integer frame
    counters (invincibility, P-meter, coyote time, jump buffer), the tier transitions,
    and the part of `Player.update` that follows the move: falling off the screen, the
    enemy contacts, the coins and the power-ups. Vertical speed is kept in hundredths of
    a pixel per frame. */
module ForeverPlayer {
  import opened Geometry
  import opened Common

  const SCREEN_HEIGHT: int := 400
  /** Where `reset_position` puts the player: x = 50, y = SCREEN_HEIGHT - 100. */
  const RESPAWN_X: int := 50
  const RESPAWN_Y: int := 300
  const SMALL_HEIGHT: nat := 16
  const BIG_HEIGHT: nat := 32
  const INVINCIBLE_FRAMES: nat := 120
  const COYOTE_FRAMES: nat := 6
  /** What a jump press stores in the buffer. */
  const JUMP_BUFFER_FRAMES: nat := 6
  const P_METER_MAX: nat := 100
  /** Vertical speeds, hundredths of a pixel per frame: stomp rebound, jump, full-meter jump. */
  const STOMP_VY: int := -800
  const JUMP_VY: int := -1250
  const RUN_JUMP_VY: int := -1500

  datatype Player = Player(
    rect: Rect, tier: Tier, vy: int, onGround: bool, invincible: nat,
    lives: int, coins: nat, score: int, pMeter: nat, coyote: nat, jumpBuffer: nat)

  // ---------------------------------------------------------------------------
  // Tier transitions

  /** `reset_position`: back to (50, 300), at rest, P-meter empty. */
  function ResetPosition(p: Player): (q: Player)
    ensures q.rect.Left() == RESPAWN_X && q.rect.Top() == RESPAWN_Y
    ensures q.rect.w == p.rect.w && q.rect.h == p.rect.h
    ensures q.vy == 0 && q.pMeter == 0
    ensures q.tier == p.tier && q.lives == p.lives && q.coins == p.coins && q.score == p.score
    ensures q.invincible == p.invincible && q.onGround == p.onGround
    ensures q.coyote == p.coyote && q.jumpBuffer == p.jumpBuffer
  {
    p.(rect := p.rect.(x := RESPAWN_X, y := RESPAWN_Y), vy := 0, pMeter := 0)
  }

  /** `die`: lose a life and respawn small; the height is set after the move, so the
      top edge stays at 300. */
  function Die(p: Player): (q: Player)
    ensures q.lives == p.lives - 1 && q.tier == Small && q.rect.h == SMALL_HEIGHT
    ensures q.rect.Left() == RESPAWN_X && q.rect.Top() == RESPAWN_Y && q.vy == 0 && q.pMeter == 0
    ensures q.coins == p.coins && q.score == p.score && q.invincible == p.invincible
  {
    var r := ResetPosition(p);
    r.(lives := p.lives - 1, tier := Small, rect := r.rect.(h := SMALL_HEIGHT))
  }

  /** `hit`: a small player dies; any bigger tier drops to small, keeping its top edge,
      and turns invincible for 120 frames. */
  function Hit(p: Player): (q: Player)
    ensures q.tier == Small && q.rect.h == SMALL_HEIGHT
    ensures p.tier == Small ==> q == Die(p)
    ensures p.tier != Small ==>
      (q.rect.Top() == p.rect.Top() && q.rect.x == p.rect.x && q.invincible == INVINCIBLE_FRAMES && q.lives == p.lives)
  {
    if p.tier == Small then Die(p)
    else p.(tier := Small, rect := p.rect.(h := SMALL_HEIGHT), invincible := INVINCIBLE_FRAMES)
  }

  /** `power_up` (only ever called on a small player): super tier, 32 tall, grown upward
      by 16 pixels, 1000 points. */
  function PowerUp(p: Player): (q: Player)
    ensures q.tier == Super && q.rect.h == BIG_HEIGHT && q.rect.Top() == p.rect.Top() - 16
    ensures q.score == p.score + 1000
    ensures p.rect.h == SMALL_HEIGHT ==> q.rect.Bottom() == p.rect.Bottom()
  {
    p.(tier := Super, rect := Rect(p.rect.x, p.rect.y - 16, p.rect.w, BIG_HEIGHT), score := p.score + 1000)
  }

  // ---------------------------------------------------------------------------
  // Frame counters

  /** The P-meter: +2 per running frame up to 100, -1 per walking frame down to 0. */
  function PMeterStep(m: nat, running: bool): (m': nat)
    ensures m <= P_METER_MAX ==> m' <= P_METER_MAX
    ensures running ==> m' == Min(m + 2, P_METER_MAX)
    ensures !running ==> m' == Max(m - 1, 0)
  {
    if running then Min(m + 2, P_METER_MAX) else Max(m - 1, 0)
  }

  /** n frames of the meter with the run button in the same state. */
  function PMeterRun(m: nat, running: bool, n: nat): nat
    decreases n
  {
    if n == 0 then m else PMeterRun(PMeterStep(m, running), running, n - 1)
  }

  /** Running fills the meter two per frame until it is full, and walking drains it one
      per frame until it is empty: from empty, 50 running frames fill it. */
  lemma {:induction false} PMeterRunFormula(m: nat, running: bool, n: nat)
    requires m <= P_METER_MAX
    ensures running ==> PMeterRun(m, running, n) == Min(m + 2 * n, P_METER_MAX)
    ensures !running ==> PMeterRun(m, running, n) == Max(m - n, 0)
    decreases n
  {
    if n > 0 {
      PMeterRunFormula(PMeterStep(m, running), running, n - 1);
    }
  }

  /** Coyote time: 6 frames after the last frame that began on the ground, counting down
      to 0 in the air. */
  function CoyoteStep(c: nat, wasOnGround: bool): (c': nat)
    ensures wasOnGround ==> c' == COYOTE_FRAMES
    ensures !wasOnGround ==> c' == Max(c - 1, 0)
  {
    if wasOnGround then COYOTE_FRAMES else if c > 0 then c - 1 else c
  }

  /** The jump buffer as written: a pending press counts down and fires (emptying the
      buffer) on a frame that ends on the ground. Coyote time is not consulted. */
  function BufferStep(b: nat, landed: bool): (r: (nat, bool))
    ensures r.1 <==> b > 0 && landed
    ensures r.0 == if r.1 then 0 else Max(b - 1, 0)
  {
    if b > 0 then (if landed then (0, true) else (b - 1, false)) else (b, false)
  }

  /** The buffer with the coyote rule `jump` itself carries (and the object-list
      variant's buffer uses): a pending press also fires within coyote time. */
  function BufferStepIntended(b: nat, landed: bool, coyote: nat): (r: (nat, bool))
    ensures r.1 <==> b > 0 && (landed || coyote > 0)
    ensures r.0 == if r.1 then 0 else Max(b - 1, 0)
  {
    if b > 0 then (if landed || coyote > 0 then (0, true) else (b - 1, false)) else (b, false)
  }

  /** Whether a press stored with b frames fires over the frames whose landing flags
      are given, one per frame. */
  function BufferFires(b: nat, landed: seq<bool>): bool
    decreases |landed|
  {
    if landed == [] then false
    else
      var r := BufferStep(b, landed[0]);
      r.1 || BufferFires(r.0, landed[1..])
  }

  /** A jump pressed up to b frames early still happens: it fires iff one of the next
      b frames ends on the ground. */
  lemma {:induction false} BufferWindow(b: nat, landed: seq<bool>)
    ensures BufferFires(b, landed) <==> exists k :: 0 <= k < |landed| && k < b && landed[k]
    decreases |landed|
  {
    if landed != [] {
      var tail := landed[1..];
      BufferWindow(BufferStep(b, landed[0]).0, tail);
      if !(b > 0 && landed[0]) {
        if exists k :: 0 <= k < |landed| && k < b && landed[k] {
          var k :| 0 <= k < |landed| && k < b && landed[k];
          assert k > 0 && tail[k - 1] == landed[k];
        }
        if exists k :: 0 <= k < |tail| && k < BufferStep(b, landed[0]).0 && tail[k] {
          var k :| 0 <= k < |tail| && k < BufferStep(b, landed[0]).0 && tail[k];
          assert landed[k + 1] == tail[k];
        }
      }
    }
  }

  /** The counters of one `Player.update` as written: invincibility down to 0, the
      P-meter, coyote time from the ground contact the frame began with, then the jump
      buffer against the ground contact the move produced. A jump that fires uses the
      full-meter speed when the meter is full. */
  function TimersAsWritten(p: Player, running: bool, landed: bool): (q: Player)
    ensures q.invincible == Max(p.invincible - 1, 0)
    ensures q.pMeter == PMeterStep(p.pMeter, running) && q.coyote == CoyoteStep(p.coyote, p.onGround)
    ensures q.onGround == landed
    ensures q.vy != p.vy ==> p.jumpBuffer > 0 && landed && q.jumpBuffer == 0
    ensures p.jumpBuffer > 0 && landed ==> q.vy == (if q.pMeter >= P_METER_MAX then RUN_JUMP_VY else JUMP_VY)
    ensures q.jumpBuffer == BufferStep(p.jumpBuffer, landed).0
    ensures q.rect == p.rect && q.tier == p.tier && q.lives == p.lives
  {
    var inv := if p.invincible > 0 then p.invincible - 1 else p.invincible;
    var pm := PMeterStep(p.pMeter, running);
    var co := CoyoteStep(p.coyote, p.onGround);
    var buf := BufferStep(p.jumpBuffer, landed);
    var vy := if buf.1 then (if pm >= P_METER_MAX then RUN_JUMP_VY else JUMP_VY) else p.vy;
    p.(invincible := inv, pMeter := pm, coyote := co, onGround := landed, jumpBuffer := buf.0, vy := vy)
  }

  /** The counters with the evidently intended buffer: a pending press fires when the
      frame ends on the ground or coyote time (just updated) is still running. */
  function Timers(p: Player, running: bool, landed: bool): (q: Player)
    ensures q.invincible == Max(p.invincible - 1, 0)
    ensures q.pMeter == PMeterStep(p.pMeter, running) && q.coyote == CoyoteStep(p.coyote, p.onGround)
    ensures q.onGround == landed
    ensures q.vy != p.vy ==> p.jumpBuffer > 0 && (landed || q.coyote > 0) && q.jumpBuffer == 0
    ensures p.jumpBuffer > 0 && (landed || q.coyote > 0) ==>
      q.vy == (if q.pMeter >= P_METER_MAX then RUN_JUMP_VY else JUMP_VY) && q.jumpBuffer == 0
    ensures q.jumpBuffer == BufferStepIntended(p.jumpBuffer, landed, q.coyote).0
    ensures q.rect == p.rect && q.tier == p.tier && q.lives == p.lives
  {
    var inv := if p.invincible > 0 then p.invincible - 1 else p.invincible;
    var pm := PMeterStep(p.pMeter, running);
    var co := CoyoteStep(p.coyote, p.onGround);
    var buf := BufferStepIntended(p.jumpBuffer, landed, co);
    var vy := if buf.1 then (if pm >= P_METER_MAX then RUN_JUMP_VY else JUMP_VY) else p.vy;
    p.(invincible := inv, pMeter := pm, coyote := co, onGround := landed, jumpBuffer := buf.0, vy := vy)
  }

  /** Coyote time never matters as written: the buffered jump depends on the landing
      flag only, whatever the coyote counter holds. */
  lemma CoyoteIgnored(p: Player, running: bool, landed: bool, c: nat)
    ensures TimersAsWritten(p.(coyote := c), running, landed).vy == TimersAsWritten(p, running, landed).vy
  {
  }

  /** Walking off a ledge and pressing jump on the first frame in the air: coyote time is
      6, yet as written no jump happens, while the intended counters jump. */
  lemma LedgeJumpLost()
    ensures var p := Player(Rect(100, 200, 16, 16), Small, 0, true, 0, 5, 0, 0, 0, 0, JUMP_BUFFER_FRAMES);
      var q := TimersAsWritten(p, false, false);
      q.coyote == COYOTE_FRAMES && q.vy == 0 && q.jumpBuffer == JUMP_BUFFER_FRAMES - 1
      && Timers(p, false, false).vy == JUMP_VY && Timers(p, false, false).jumpBuffer == 0
  {
  }

  /** The two agree whenever the frame ends on the ground or coyote time has run out:
      the correction only adds the coyote jumps. */
  lemma TimersAgreeOffCoyote(p: Player, running: bool, landed: bool)
    requires landed || CoyoteStep(p.coyote, p.onGround) == 0
    ensures Timers(p, running, landed) == TimersAsWritten(p, running, landed)
  {
  }

  // ---------------------------------------------------------------------------
  // After the move

  /** `bottom > SCREEN_HEIGHT`: fell off the screen. */
  function FallCheck(p: Player): (q: Player)
    ensures p.rect.Bottom() > SCREEN_HEIGHT ==> q == Die(p)
    ensures p.rect.Bottom() <= SCREEN_HEIGHT ==> q == p
  {
    if p.rect.Bottom() > SCREEN_HEIGHT then Die(p) else p
  }

  /** The stomp test: falling, with the feet less than 10 pixels below the enemy's top. */
  predicate Stomps(p: Player, e: Rect) {
    p.vy > 0 && p.rect.Bottom() - 10 < e.Top()
  }

  datatype Contact = Contact(player: Player, enemies: seq<Rect>)

  /** The enemy loop: an overlapping enemy is stomped (removed at once, rebound, 100
      points) or hurts the player unless invincible. */
  function EnemyPass(p: Player, es: seq<Rect>): (r: Contact)
    decreases |es|
    ensures |r.enemies| <= |es| <= |r.enemies| + 1
    ensures forall e :: e in r.enemies ==> e in es
    ensures |r.enemies| < |es| ==> r.player.score == p.score + 100 && r.player.vy <= 0
    ensures |r.enemies| == |es| ==> r.enemies == es && r.player.score == p.score
    ensures p.vy <= 0 ==> r.enemies == es && r.player.vy <= 0
    ensures p.invincible > 0 ==> r.player.tier == p.tier && r.player.lives == p.lives && r.player.rect == p.rect
    ensures r.player.coins == p.coins && r.player.lives <= p.lives
    ensures r.player.rect.x == p.rect.x || r.player.rect.x == RESPAWN_X
  {
    if es == [] then Contact(p, [])
    else
      var e := es[0];
      assert forall x :: x in es <==> x == e || x in es[1..];
      if !Overlaps(p.rect, e) then
        var rest := EnemyPass(p, es[1..]);
        Contact(rest.player, [e] + rest.enemies)
      else if Stomps(p, e) then
        EnemyPass(p.(vy := STOMP_VY, score := p.score + 100), es[1..])
      else if p.invincible == 0 then
        var rest := EnemyPass(Hit(p), es[1..]);
        Contact(rest.player, [e] + rest.enemies)
      else
        var rest := EnemyPass(p, es[1..]);
        Contact(rest.player, [e] + rest.enemies)
  }

  /** Meeting one enemy: out of reach it stays; stomped from above it is removed at once,
      the player rebounds at -8 and scores 100; met otherwise it stays and costs a tier
      (or a life) unless the player is invincible. */
  lemma SingleEnemy(p: Player, e: Rect)
    ensures !Overlaps(p.rect, e) ==> EnemyPass(p, [e]) == Contact(p, [e])
    ensures Overlaps(p.rect, e) && Stomps(p, e) ==> EnemyPass(p, [e]) == Contact(p.(vy := STOMP_VY, score := p.score + 100), [])
    ensures Overlaps(p.rect, e) && !Stomps(p, e) && p.invincible == 0 ==> EnemyPass(p, [e]) == Contact(Hit(p), [e])
    ensures Overlaps(p.rect, e) && !Stomps(p, e) && p.invincible > 0 ==> EnemyPass(p, [e]) == Contact(p, [e])
  {
  }

  /** The pass over a list is the pass over its front followed by the pass over its back,
      started from the player the front left: with `SingleEnemy` this fixes the result of
      every pass, one enemy at a time in list order. */
  lemma {:induction false} EnemyPassAppend(p: Player, a: seq<Rect>, b: seq<Rect>)
    decreases |a|, 1
    ensures var front := EnemyPass(p, a); var back := EnemyPass(front.player, b);
      EnemyPass(p, a + b) == Contact(back.player, front.enemies + back.enemies)
  {
    if a == [] {
      assert a + b == b;
    } else {
      var e, tail := a[0], a[1..];
      assert (a + b)[0] == e && (a + b)[1..] == tail + b;
      if !Overlaps(p.rect, e) {
        EnemyPassAppendStep(p, [e], tail, b);
      } else if Stomps(p, e) {
        EnemyPassAppendStep(p.(vy := STOMP_VY, score := p.score + 100), [], tail, b);
      } else if p.invincible == 0 {
        EnemyPassAppendStep(Hit(p), [e], tail, b);
      } else {
        EnemyPassAppendStep(p, [e], tail, b);
      }
    }
  }

  /** One step of `EnemyPassAppend`: the front's first enemy left `head` behind and the
      player `q`. */
  lemma {:induction false} EnemyPassAppendStep(q: Player, head: seq<Rect>, tail: seq<Rect>, b: seq<Rect>)
    decreases |tail| + 1, 0
    ensures var front := EnemyPass(q, tail); var back := EnemyPass(front.player, b);
      var whole := EnemyPass(q, tail + b);
      whole == Contact(back.player, front.enemies + back.enemies)
      && head + whole.enemies == (head + front.enemies) + back.enemies
  {
    EnemyPassAppend(q, tail, b);
  }

  /** One coin: +50 score, and the coin counter with its rollover into lives. */
  function TakeCoin(p: Player): (q: Player)
    ensures q.score == p.score + 50 && q.rect == p.rect && q.tier == p.tier
    ensures Purse(q.coins, q.lives) == AddCoin(Purse(p.coins, p.lives))
  {
    var purse := AddCoin(Purse(p.coins, p.lives));
    p.(coins := purse.coins, lives := purse.lives, score := p.score + 50)
  }

  datatype CoinResult = CoinResult(player: Player, coins: seq<Rect>)

  /** The coin loop: every touched coin is counted (with the rollover), scores 50 and
      is removed; the others stay in order. */
  function CoinPass(p: Player, cs: seq<Rect>): (r: CoinResult)
    decreases |cs|
    ensures r.player.rect == p.rect && r.player.tier == p.tier
    ensures forall c :: c in r.coins <==> c in cs && !Overlaps(p.rect, c)
  {
    if cs == [] then CoinResult(p, [])
    else
      var c := cs[0];
      assert forall x :: x in cs <==> x == c || x in cs[1..];
      if Overlaps(p.rect, c) then CoinPass(TakeCoin(p), cs[1..])
      else
        var rest := CoinPass(p, cs[1..]);
        CoinResult(rest.player, [c] + rest.coins)
  }

  /** The coin loop is n coins in a row, n the number the player touches: from a count
      below 100 the count ends at the sum modulo 100 and every completed hundred is a life. */
  lemma {:induction false} CoinPassRollover(p: Player, cs: seq<Rect>)
    requires p.coins < COINS_PER_LIFE
    ensures var q := CoinPass(p, cs).player; var n := Touching(p.rect, cs);
      q.coins == (p.coins + n) % COINS_PER_LIFE && q.lives == p.lives + (p.coins + n) / COINS_PER_LIFE
      && q.score == p.score + 50 * n && |CoinPass(p, cs).coins| + n == |cs|
  {
    CoinPassAddsCoins(p, cs);
    Rollover(Purse(p.coins, p.lives), Touching(p.rect, cs));
  }

  /** The coin loop adds the touched coins one by one. */
  lemma CoinPassAddsCoins(p: Player, cs: seq<Rect>)
    ensures var q := CoinPass(p, cs).player; var n := Touching(p.rect, cs);
      Purse(q.coins, q.lives) == AddCoins(Purse(p.coins, p.lives), n)
      && q.score == p.score + 50 * n && |CoinPass(p, cs).coins| + n == |cs|
  {
    CoinPassPurse(p, cs);
    CoinPassScore(p, cs);
    CoinPassLength(p, cs);
  }

  /** The counter half of `CoinPassAddsCoins`. */
  lemma {:induction false} CoinPassPurse(p: Player, cs: seq<Rect>)
    ensures var q := CoinPass(p, cs).player;
      Purse(q.coins, q.lives) == AddCoins(Purse(p.coins, p.lives), Touching(p.rect, cs))
    decreases |cs|
  {
    if cs != [] {
      TouchingFront(p.rect, cs);
      if Overlaps(p.rect, cs[0]) {
        CoinPassPurse(TakeCoin(p), cs[1..]);
      } else {
        CoinPassPurse(p, cs[1..]);
      }
    }
  }

  /** The score half of `CoinPassAddsCoins`. */
  lemma {:induction false} CoinPassScore(p: Player, cs: seq<Rect>)
    ensures CoinPass(p, cs).player.score == p.score + 50 * Touching(p.rect, cs)
    decreases |cs|
  {
    if cs != [] {
      TouchingFront(p.rect, cs);
      if Overlaps(p.rect, cs[0]) {
        CoinPassScore(TakeCoin(p), cs[1..]);
      } else {
        CoinPassScore(p, cs[1..]);
      }
    }
  }

  /** The length half of `CoinPassAddsCoins`. */
  lemma {:induction false} CoinPassLength(p: Player, cs: seq<Rect>)
    ensures |CoinPass(p, cs).coins| + Touching(p.rect, cs) == |cs|
    decreases |cs|
  {
    if cs != [] {
      TouchingFront(p.rect, cs);
      if Overlaps(p.rect, cs[0]) {
        CoinPassLength(TakeCoin(p), cs[1..]);
      } else {
        CoinPassLength(p, cs[1..]);
      }
    }
  }

  datatype ItemKind = Mushroom | Flower

  /** A 16x16 power-up. */
  datatype Item = Item(kind: ItemKind, rect: Rect)

  datatype ItemResult = ItemResult(player: Player, items: seq<Item>)

  /** The item loop: a touched mushroom is used up (power-up) only by a small player; a
      touched flower is used up only when not already fire, and sets the fire tier without
      resizing or scoring. Anything else stays in the list. */
  function ItemPass(p: Player, its: seq<Item>): (r: ItemResult)
    decreases |its|
    ensures |r.items| <= |its|
    ensures forall it :: it in r.items ==> it in its
    ensures r.player.tier.Rank() >= p.tier.Rank()
    ensures r.player.score == p.score || (r.player.score == p.score + 1000 && p.tier == Small)
    ensures r.player.lives == p.lives && r.player.coins == p.coins
    ensures p.tier == Fire ==> r == ItemResult(p, its)
    ensures p.tier != Small ==> forall it :: it in its && it.kind == Mushroom ==> it in r.items
  {
    if its == [] then ItemResult(p, [])
    else
      var it := its[0];
      assert forall x :: x in its <==> x == it || x in its[1..];
      if Overlaps(p.rect, it.rect) && it.kind == Mushroom && p.tier == Small then
        ItemPass(PowerUp(p), its[1..])
      else if Overlaps(p.rect, it.rect) && it.kind == Flower && p.tier != Fire then
        ItemPass(p.(tier := Fire), its[1..])
      else
        var rest := ItemPass(p, its[1..]);
        ItemResult(rest.player, [it] + rest.items)
  }

  /** A small player taking a flower becomes fire tier but keeps its small body. */
  lemma FlowerKeepsBody(p: Player, f: Item)
    requires p.tier == Small && f.kind == Flower && Overlaps(p.rect, f.rect)
    ensures ItemPass(p, [f]) == ItemResult(p.(tier := Fire), [])
  {
  }

  /** One item: a touched mushroom powers a small player up, a touched flower turns any
      player below fire into fire; either is then gone. Anything else stays. */
  lemma SingleItem(p: Player, it: Item)
    ensures Overlaps(p.rect, it.rect) && it.kind == Mushroom && p.tier == Small ==>
      ItemPass(p, [it]) == ItemResult(PowerUp(p), [])
    ensures Overlaps(p.rect, it.rect) && it.kind == Flower && p.tier != Fire ==>
      ItemPass(p, [it]) == ItemResult(p.(tier := Fire), [])
    ensures !Overlaps(p.rect, it.rect) || (it.kind == Mushroom && p.tier != Small) || (it.kind == Flower && p.tier == Fire) ==>
      ItemPass(p, [it]) == ItemResult(p, [it])
  {
  }

  /** A small player 16 pixels tall only grows upward around its old rect. */
  lemma {:induction false} ItemPassGrows(p: Player, its: seq<Item>)
    requires p.tier == Small ==> p.rect.h == SMALL_HEIGHT
    decreases |its|
    ensures Contains(ItemPass(p, its).player.rect, p.rect)
  {
    if its != [] {
      var it := its[0];
      if Overlaps(p.rect, it.rect) && it.kind == Mushroom && p.tier == Small {
        ItemPassGrows(PowerUp(p), its[1..]);
      } else if Overlaps(p.rect, it.rect) && it.kind == Flower && p.tier != Fire {
        ItemPassGrows(p.(tier := Fire), its[1..]);
      } else {
        ItemPassGrows(p, its[1..]);
      }
    }
  }

  /** What the item pass does to a player whose small body is 16 pixels tall: touching a
      flower makes it fire tier; a small player touching a mushroom ends up at least super;
      and an item the final rect does not touch is still there. */
  lemma {:induction false} ItemPassOutcome(p: Player, its: seq<Item>)
    requires p.tier == Small ==> p.rect.h == SMALL_HEIGHT
    decreases |its|
    ensures var r := ItemPass(p, its);
      ((exists it :: it in its && it.kind == Flower && Overlaps(p.rect, it.rect)) ==> r.player.tier == Fire)
      && (p.tier == Small && (exists it :: it in its && it.kind == Mushroom && Overlaps(p.rect, it.rect)) ==>
            r.player.tier != Small)
      && (forall it :: it in its && !Overlaps(r.player.rect, it.rect) ==> it in r.items)
  {
    if its != [] {
      var it, tail := its[0], its[1..];
      assert forall x :: x in its <==> x == it || x in tail;
      var q := if Overlaps(p.rect, it.rect) && it.kind == Mushroom && p.tier == Small then PowerUp(p)
        else if Overlaps(p.rect, it.rect) && it.kind == Flower && p.tier != Fire then p.(tier := Fire)
        else p;
      assert Contains(q.rect, p.rect);
      ItemPassOutcome(q, tail);
      ItemPassGrows(q, tail);
      var r := ItemPass(p, its);
      var rest := ItemPass(q, tail);
      assert r.player == rest.player;
      assert forall x: Item :: Overlaps(p.rect, x.rect) ==> Overlaps(q.rect, x.rect);
      assert forall x: Item :: !Overlaps(r.player.rect, x.rect) ==> !Overlaps(q.rect, x.rect);
    }
  }

  /** What follows the move in `Player.update`: the fall check, then enemies, coins and
      items, each against the rect the previous rule left. */
  datatype Frame = Frame(player: Player, enemies: seq<Rect>, coins: seq<Rect>, items: seq<Item>)

  function AfterMove(p: Player, es: seq<Rect>, cs: seq<Rect>, its: seq<Item>): (f: Frame)
    ensures |f.enemies| <= |es| <= |f.enemies| + 1 && |f.coins| <= |cs| && |f.items| <= |its|
    ensures p.rect.Bottom() > SCREEN_HEIGHT ==>
      f.player.lives <= p.lives - 1 + (|cs| - |f.coins|) && f.player.rect.x == RESPAWN_X
    ensures p.rect.Bottom() <= SCREEN_HEIGHT && p.invincible > 0 ==> f.player.lives >= p.lives && f.player.rect.x == p.rect.x
  {
    var p1 := FallCheck(p);
    var e := EnemyPass(p1, es);
    var c := CoinPass(e.player, cs);
    CoinPassAddsCoins(e.player, cs);
    AddCoinsLives(Purse(e.player.coins, e.player.lives), Touching(e.player.rect, cs));
    var i := ItemPass(c.player, its);
    ItemPassKeepsX(c.player, its);
    Frame(i.player, e.enemies, c.coins, i.items)
  }

  /** Power-ups only grow the player upward. */
  lemma {:induction false} ItemPassKeepsX(p: Player, its: seq<Item>)
    ensures ItemPass(p, its).player.rect.x == p.rect.x
    decreases |its|
  {
    if its != [] {
      ItemPassKeepsX(PowerUp(p), its[1..]);
      ItemPassKeepsX(p.(tier := Fire), its[1..]);
      ItemPassKeepsX(p, its[1..]);
    }
  }

  /** Each coin adds at most one life. */
  lemma {:induction false} AddCoinsLives(p: Purse, n: nat)
    ensures p.lives <= AddCoins(p, n).lives <= p.lives + n
    decreases n
  {
    if n > 0 {
      AddCoinsLives(AddCoin(p), n - 1);
    }
  }
}

=== FILE: gemini_player.dfy ===
/** The player of the object-list variant (geminiultramario1.x.py): power tiers and
    the size each implies, the hit/die/power-up transitions, the enemy-contact pass and
    the coin and item pickups. Vertical speed is kept in hundredths of a pixel per frame,
    so the stomp rebound `JUMP_VELOCITY * 0.6` is -780. */
module GeminiPlayer {
  import opened Geometry
  import opened Common

  /** Where `reset_position` puts the player: x = 100, y = SCREEN_HEIGHT - 150. */
  const RESPAWN_X: int := 100
  const RESPAWN_Y: int := 330
  /** Vertical speed after a stomp, in hundredths of a pixel per frame. */
  const STOMP_VY: int := -780
  /** Frames of invincibility after losing a tier. */
  const INVINCIBLE_FRAMES: nat := 120
  /** `set_size`: 20x20 when small, 20x40 otherwise. Only the height reaches the rect. */
  function Height(t: Tier): nat {
    if t == Small then 20 else 40
  }

  datatype Player = Player(rect: Rect, tier: Tier, vy: int, invincible: nat, lives: int, coins: nat, score: int) {
    /** The rect is as tall as the tier says. */
    predicate Sized() {
      rect.h == Height(tier)
    }
  }

  /** `die`: lose a life, respawn at (100, 330) at rest, back to small. The height is set
      after the move, so the top edge stays at 330. */
  function Die(p: Player): (q: Player)
    ensures q.Sized() && q.tier == Small && q.lives == p.lives - 1
    ensures q.rect.Left() == RESPAWN_X && q.rect.Top() == RESPAWN_Y && q.vy == 0
    ensures q.coins == p.coins && q.score == p.score && q.invincible == p.invincible
  {
    p.(rect := Rect(RESPAWN_X, RESPAWN_Y, p.rect.w, Height(Small)), vy := 0, tier := Small, lives := p.lives - 1)
  }

  /** `hit`: a small player dies; any bigger tier drops straight to small, feet kept in
      place, and becomes invincible for 120 frames. */
  function Hit(p: Player): (q: Player)
    ensures q.Sized() && q.tier == Small
    ensures p.tier == Small ==> q == Die(p)
    ensures p.tier != Small ==> q.rect.Bottom() == p.rect.Bottom() && q.invincible == INVINCIBLE_FRAMES && q.lives == p.lives
  {
    if p.tier == Small then Die(p)
    else p.(tier := Small, rect := p.rect.ResizeKeepBottom(Height(Small)), invincible := INVINCIBLE_FRAMES)
  }

  /** `power_up`: only a strictly higher tier takes effect; the player grows upward from
      the same feet and scores 1000. */
  function PowerUp(p: Player, t: Tier): (q: Player)
    ensures q.tier.Rank() == Max(p.tier.Rank(), t.Rank())
    ensures q.rect.Bottom() == p.rect.Bottom() && q.rect.x == p.rect.x
    ensures q.score == p.score + (if p.tier.Rank() < t.Rank() then 1000 else 0)
    ensures p.tier.Rank() >= t.Rank() ==> q == p
    ensures p.tier.Rank() < t.Rank() ==> q.Sized()
  {
    if p.tier.Rank() < t.Rank() then
      p.(tier := t, rect := p.rect.ResizeKeepBottom(Height(t)), score := p.score + 1000)
    else p
  }

  /** Every tier transition keeps the rect as tall as the tier. */
  lemma TransitionsKeepSize(p: Player, t: Tier)
    requires p.Sized()
    ensures Die(p).Sized() && Hit(p).Sized() && PowerUp(p, t).Sized()
  {
  }

  /** Power-ups never lower the tier, repeat harmlessly, and a hit undoes any of them. */
  lemma PowerUpLaws(p: Player, t: Tier)
    ensures PowerUp(p, t).tier.Rank() >= p.tier.Rank()
    ensures PowerUp(PowerUp(p, t), t) == PowerUp(p, t)
    ensures p.tier != Small || t != Small ==> Hit(PowerUp(p, t)).tier == Small && Hit(PowerUp(p, t)).lives == p.lives
  {
  }

  // ---------------------------------------------------------------------------
  // Enemies

  /** A 22x22 walker; once stomped it only counts down `stompTimer` (starting at 20). */
  datatype Enemy = Enemy(rect: Rect, stomped: bool, stompTimer: int)

  /** The stomp test: falling, with the feet above the enemy's vertical centre. */
  predicate Stomps(p: Player, e: Enemy) {
    p.vy > 0 && p.rect.Bottom() < e.rect.CenterY()
  }

  datatype Contact = Contact(player: Player, enemies: seq<Enemy>)

  /** `handle_enemy_collisions`: each enemy the player overlaps (as the earlier ones left
      it) is stomped, rebounding the player and scoring 100, or hits the player unless it
      is invincible. Already stomped enemies still take part. */
  function EnemyPass(p: Player, es: seq<Enemy>): (r: Contact)
    decreases |es|
    ensures |r.enemies| == |es|
    ensures forall i :: 0 <= i < |es| ==> r.enemies[i] == es[i] || r.enemies[i] == es[i].(stomped := true)
    ensures r.player.coins == p.coins
    ensures r.player.score == p.score || r.player.score == p.score + 100
    ensures r.player.score == p.score + 100 ==> r.player.vy <= 0
    ensures p.vy <= 0 ==> r.player.score == p.score && r.enemies == es && r.player.vy <= 0
    ensures p.invincible > 0 ==> r.player.tier == p.tier && r.player.lives == p.lives && r.player.rect == p.rect
    ensures p.Sized() ==> r.player.Sized()
    ensures r.player.tier.Rank() <= p.tier.Rank() && r.player.lives <= p.lives
  {
    if es == [] then Contact(p, [])
    else
      var e := es[0];
      var tail := es[1..];
      assert forall i :: 1 <= i < |es| ==> es[i] == tail[i - 1];
      if !Overlaps(p.rect, e.rect) then
        var rest := EnemyPass(p, tail);
        Contact(rest.player, [e] + rest.enemies)
      else if Stomps(p, e) then
        var rest := EnemyPass(p.(vy := STOMP_VY, score := p.score + 100), tail);
        Contact(rest.player, [e.(stomped := true)] + rest.enemies)
      else if p.invincible == 0 then
        var rest := EnemyPass(Hit(p), tail);
        Contact(rest.player, [e] + rest.enemies)
      else
        var rest := EnemyPass(p, tail);
        Contact(rest.player, [e] + rest.enemies)
  }

  /** Meeting one enemy: an enemy out of reach changes nothing; stomped from above it is
      marked and the player rebounds; met otherwise it costs a tier (or a life) unless the
      player is invincible. */
  lemma SingleEnemy(p: Player, e: Enemy)
    ensures !Overlaps(p.rect, e.rect) ==> EnemyPass(p, [e]) == Contact(p, [e])
    ensures Overlaps(p.rect, e.rect) && Stomps(p, e) ==> EnemyPass(p, [e]) == Contact(p.(vy := STOMP_VY, score := p.score + 100), [e.(stomped := true)])
    ensures Overlaps(p.rect, e.rect) && !Stomps(p, e) && p.invincible == 0 ==> EnemyPass(p, [e]) == Contact(Hit(p), [e])
    ensures Overlaps(p.rect, e.rect) && !Stomps(p, e) && p.invincible > 0 ==> EnemyPass(p, [e]) == Contact(p, [e])
  {
  }

  /** The pass over a list is the pass over its front followed by the pass over its back,
      started from the player the front left: together with `SingleEnemy` this fixes the
      result of every pass, one enemy at a time in list order. */
  lemma {:induction false} EnemyPassAppend(p: Player, a: seq<Enemy>, b: seq<Enemy>)
    decreases |a|, 1
    ensures var front := EnemyPass(p, a); var back := EnemyPass(front.player, b);
      EnemyPass(p, a + b) == Contact(back.player, front.enemies + back.enemies)
  {
    if a == [] {
      assert a + b == b;
    } else {
      var e, tail := a[0], a[1..];
      assert (a + b)[0] == e && (a + b)[1..] == tail + b;
      if !Overlaps(p.rect, e.rect) {
        EnemyPassAppendStep(p, [e], tail, b);
      } else if Stomps(p, e) {
        EnemyPassAppendStep(p.(vy := STOMP_VY, score := p.score + 100), [e.(stomped := true)], tail, b);
      } else if p.invincible == 0 {
        EnemyPassAppendStep(Hit(p), [e], tail, b);
      } else {
        EnemyPassAppendStep(p, [e], tail, b);
      }
    }
  }

  /** One step of `EnemyPassAppend`: the front's first enemy left `head` behind and the
      player `q`. */
  lemma {:induction false} EnemyPassAppendStep(q: Player, head: seq<Enemy>, tail: seq<Enemy>, b: seq<Enemy>)
    decreases |tail| + 1, 0
    ensures var front := EnemyPass(q, tail); var back := EnemyPass(front.player, b);
      var whole := EnemyPass(q, tail + b);
      whole == Contact(back.player, front.enemies + back.enemies)
      && head + whole.enemies == (head + front.enemies) + back.enemies
  {
    EnemyPassAppend(q, tail, b);
  }

  // ---------------------------------------------------------------------------
  // Coins and items

  /** One coin: +50 score, and the coin counter with its rollover into lives. */
  function TakeCoin(p: Player): (q: Player)
    ensures q.score == p.score + 50 && q.rect == p.rect && q.tier == p.tier
    ensures Purse(q.coins, q.lives) == AddCoin(Purse(p.coins, p.lives))
  {
    var purse := AddCoin(Purse(p.coins, p.lives));
    p.(coins := purse.coins, lives := purse.lives, score := p.score + 50)
  }

  datatype CoinResult = CoinResult(player: Player, coins: seq<Rect>)

  /** The coin loop of `handle_item_collection`: every coin the player touches is taken
      and removed; the others stay in order. */
  function CoinPass(p: Player, cs: seq<Rect>): (r: CoinResult)
    decreases |cs|
    ensures r.player.rect == p.rect && r.player.tier == p.tier
    ensures forall c :: c in r.coins <==> c in cs && !Overlaps(p.rect, c)
  {
    if cs == [] then CoinResult(p, [])
    else
      var c := cs[0];
      assert forall x :: x in cs <==> x == c || x in cs[1..];
      if Overlaps(p.rect, c) then CoinPass(TakeCoin(p), cs[1..])
      else
        var rest := CoinPass(p, cs[1..]);
        CoinResult(rest.player, [c] + rest.coins)
  }

  /** The coin loop is n coins in a row, n the number the player touches: from a count
      below 100 the count ends at the sum modulo 100, every completed hundred is a life,
      each coin scores 50, and exactly the touched coins are gone. */
  lemma {:induction false} CoinPassRollover(p: Player, cs: seq<Rect>)
    requires p.coins < COINS_PER_LIFE
    ensures var q := CoinPass(p, cs).player; var n := Touching(p.rect, cs);
      q.coins == (p.coins + n) % COINS_PER_LIFE
      && q.lives == p.lives + (p.coins + n) / COINS_PER_LIFE
      && q.score == p.score + 50 * n
      && |CoinPass(p, cs).coins| + n == |cs|
  {
    CoinPassAddsCoins(p, cs);
    Rollover(Purse(p.coins, p.lives), Touching(p.rect, cs));
  }

  /** The coin loop adds the touched coins one by one. */
  lemma {:induction false} CoinPassAddsCoins(p: Player, cs: seq<Rect>)
    ensures var q := CoinPass(p, cs).player; var n := Touching(p.rect, cs);
      Purse(q.coins, q.lives) == AddCoins(Purse(p.coins, p.lives), n)
      && q.score == p.score + 50 * n
      && |CoinPass(p, cs).coins| + n == |cs|
    decreases |cs|
  {
    if cs != [] {
      TouchingFront(p.rect, cs);
      if Overlaps(p.rect, cs[0]) {
        CoinPassAddsCoins(TakeCoin(p), cs[1..]);
      } else {
        CoinPassAddsCoins(p, cs[1..]);
      }
    }
  }

  /** What a pickup block or a power-up can hold. */
  datatype ItemKind = Mushroom | Flower

  /** A 20x20 power-up. */
  datatype Item = Item(kind: ItemKind, rect: Rect)

  datatype ItemResult = ItemResult(player: Player, items: seq<Item>)

  /** The item loop of `handle_item_collection`: a touched mushroom is used up only by a
      small player, a touched flower always is; each is a power-up. Growing changes the
      rect the later items are tested against. */
  function ItemPass(p: Player, its: seq<Item>): (r: ItemResult)
    decreases |its|
    ensures |r.items| <= |its|
    ensures forall it :: it in r.items ==> it in its
    ensures r.player.tier.Rank() >= p.tier.Rank()
    ensures r.player.coins == p.coins && r.player.lives == p.lives
    ensures p.Sized() ==> r.player.Sized()
    ensures p.tier != Small ==> forall it :: it in its && it.kind == Mushroom ==> it in r.items
    ensures r.player.tier == p.tier <==> r.player.score == p.score
    ensures p.score <= r.player.score <= p.score + 1000 * (2 - p.tier.Rank())
  {
    if its == [] then ItemResult(p, [])
    else
      var it := its[0];
      assert forall x :: x in its <==> x == it || x in its[1..];
      if Overlaps(p.rect, it.rect) && it.kind == Mushroom && p.tier == Small then
        ItemPass(PowerUp(p, Super), its[1..])
      else if Overlaps(p.rect, it.rect) && it.kind == Flower then
        ItemPass(PowerUp(p, Fire), its[1..])
      else
        var rest := ItemPass(p, its[1..]);
        ItemResult(rest.player, [it] + rest.items)
  }

  /** A fire-tier player cannot change any more: the item pass only removes the flowers
      it touches, and keeps everything else in order. */
  lemma {:induction false} FireTierOnlyEatsFlowers(p: Player, its: seq<Item>)
    requires p.tier == Fire
    ensures ItemPass(p, its).player == p
    ensures forall it :: it in ItemPass(p, its).items <==> it in its && !(it.kind == Flower && Overlaps(p.rect, it.rect))
  {
    if its != [] {
      FireTierOnlyEatsFlowers(p, its[1..]);
      assert forall x :: x in its <==> x == its[0] || x in its[1..];
    }
  }

  /** One item: a touched mushroom powers a small player up to super, a touched flower
      powers anyone up to fire; either is then gone. Anything else stays. */
  lemma SingleItem(p: Player, it: Item)
    ensures Overlaps(p.rect, it.rect) && it.kind == Mushroom && p.tier == Small ==>
      ItemPass(p, [it]) == ItemResult(PowerUp(p, Super), [])
    ensures Overlaps(p.rect, it.rect) && it.kind == Flower ==> ItemPass(p, [it]) == ItemResult(PowerUp(p, Fire), [])
    ensures !Overlaps(p.rect, it.rect) || (it.kind == Mushroom && p.tier != Small) ==>
      ItemPass(p, [it]) == ItemResult(p, [it])
  {
  }

  /** A power-up of a correctly sized player only grows its rect around the old one. */
  lemma {:induction false} ItemPassGrows(p: Player, its: seq<Item>)
    requires p.Sized()
    decreases |its|
    ensures Contains(ItemPass(p, its).player.rect, p.rect)
  {
    if its != [] {
      var it := its[0];
      if Overlaps(p.rect, it.rect) && it.kind == Mushroom && p.tier == Small {
        ItemPassGrows(PowerUp(p, Super), its[1..]);
      } else if Overlaps(p.rect, it.rect) && it.kind == Flower {
        ItemPassGrows(PowerUp(p, Fire), its[1..]);
      } else {
        ItemPassGrows(p, its[1..]);
      }
    }
  }

  /** What the item pass does to a correctly sized player: every flower it touches is
      eaten and leaves it at fire tier; a small player touching a mushroom ends up at
      least super; and an item the final rect does not touch is still there. */
  lemma {:induction false} ItemPassOutcome(p: Player, its: seq<Item>)
    requires p.Sized()
    decreases |its|
    ensures var r := ItemPass(p, its);
      (forall it :: it in its && it.kind == Flower && Overlaps(p.rect, it.rect) ==> it !in r.items)
      && ((exists it :: it in its && it.kind == Flower && Overlaps(p.rect, it.rect)) ==> r.player.tier == Fire)
      && (p.tier == Small && (exists it :: it in its && it.kind == Mushroom && Overlaps(p.rect, it.rect)) ==>
            r.player.tier != Small)
      && (forall it :: it in its && !Overlaps(r.player.rect, it.rect) ==> it in r.items)
  {
    if its != [] {
      var it, tail := its[0], its[1..];
      assert forall x :: x in its <==> x == it || x in tail;
      var q := if Overlaps(p.rect, it.rect) && it.kind == Mushroom && p.tier == Small then PowerUp(p, Super)
        else if Overlaps(p.rect, it.rect) && it.kind == Flower then PowerUp(p, Fire)
        else p;
      assert Contains(q.rect, p.rect);
      ItemPassOutcome(q, tail);
      ItemPassGrows(q, tail);
      var r := ItemPass(p, its);
      var rest := ItemPass(q, tail);
      assert r.player == rest.player;
      assert forall x: Item :: Overlaps(p.rect, x.rect) ==> Overlaps(q.rect, x.rect);
      assert forall x: Item :: !Overlaps(r.player.rect, x.rect) ==> !Overlaps(q.rect, x.rect);
    }
  }

  /** `handle_item_collection`: coins first, then items. */
  function CollectItems(p: Player, cs: seq<Rect>, its: seq<Item>): (r: (Player, seq<Rect>, seq<Item>))
    ensures r.0.tier.Rank() >= p.tier.Rank() && r.0.score >= p.score
    ensures p.Sized() ==> r.0.Sized()
    ensures |r.1| <= |cs| && |r.2| <= |its|
  {
    var c := CoinPass(p, cs);
    CoinPassMonotone(p, cs);
    var i := ItemPass(c.player, its);
    (i.player, c.coins, i.items)
  }

  /** The coin loop never lowers the score and keeps at most the coins it was given. */
  lemma {:induction false} CoinPassMonotone(p: Player, cs: seq<Rect>)
    decreases |cs|
    ensures CoinPass(p, cs).player.score >= p.score
    ensures |CoinPass(p, cs).coins| <= |cs|
    ensures CoinPass(p, cs).player.lives >= p.lives
  {
    if cs != [] {
      if Overlaps(p.rect, cs[0]) {
        CoinPassMonotone(TakeCoin(p), cs[1..]);
      } else {
        CoinPassMonotone(p, cs[1..]);
      }
    }
  }
}

=== FILE: gemini_world.dfy ===
/** The world side of the object-list variant (geminiultramario1.x.py): bumpable
    blocks and the one-shot spawning of their contents, the countdown and removal of
    stomped enemies, the camera offset, the end-of-frame outcome of `LevelManager.update`,
    and the overworld cursor of `OverworldManager.update`. */
module GeminiWorld {
  import opened Geometry
  import opened GeminiPlayer

  const SCREEN_WIDTH: int := 640
  /** Frames a bumped block bounces for. */
  const BUMP_FRAMES: int := 6
  /** Frames the overworld cursor waits after a move. */
  const MOVE_DELAY: nat := 15

  // ---------------------------------------------------------------------------
  // Blocks

  datatype BlockType = Ground | Brick | Question | Pipe | Cloud | Used

  /** What a block releases once used: a coin or a power-up. */
  datatype Loot = CoinLoot | ItemLoot(kind: ItemKind)

  datatype Option<T> = None | Some(value: T)

  /** A 24x24 block. The bounce offset of the drawing is not modelled, so the rect stays
      where the block was built. */
  datatype Block = Block(rect: Rect, kind: BlockType, bumped: bool, bumpTimer: int, item: Option<Loot>)

  /** `Block.hit`: a used block ignores hits; a brick breaks into a used block under a
      big player and only bounces under a small one; a question block bounces and is used
      up. Every other kind is left alone. */
  function BlockHit(b: Block, isSuper: bool): (b': Block)
    ensures b'.rect == b.rect && b'.item == b.item
    ensures b.kind == Used ==> b' == b
    ensures b.kind == Brick && isSuper ==> b'.kind == Used && b'.bumped == b.bumped && b'.bumpTimer == b.bumpTimer
    ensures b.kind == Brick && !isSuper ==> b'.kind == Brick && b'.bumped && b'.bumpTimer == BUMP_FRAMES
    ensures b.kind == Question ==> b'.kind == Used && b'.bumped && b'.bumpTimer == BUMP_FRAMES
    ensures b.kind !in {Brick, Question} ==> b' == b
  {
    match b.kind
    case Used => b
    case Brick => if isSuper then b.(kind := Used) else b.(bumped := true, bumpTimer := BUMP_FRAMES)
    case Question => b.(bumped := true, bumpTimer := BUMP_FRAMES, kind := Used)
    case _ => b
  }

  /** A question block pays out once: a second hit, big or small, changes nothing, and a
      small player can bump a brick forever without breaking it. */
  lemma BlockHitOnce(b: Block, s1: bool, s2: bool)
    requires b.kind == Question || (b.kind == Brick && s1)
    ensures BlockHit(BlockHit(b, s1), s2) == BlockHit(b, s1)
  {
  }

  /** `Block.update` without the drawing offset: a bumped block counts its timer down
      and stops bouncing when the timer reaches zero. */
  function BlockTick(b: Block): (b': Block)
    ensures b'.kind == b.kind && b'.item == b.item && b'.rect == b.rect
    ensures !b.bumped ==> b' == b
    ensures b.bumped ==> b'.bumpTimer == b.bumpTimer - 1 && (b'.bumped <==> b'.bumpTimer > 0)
  {
    if b.bumped then
      var t := b.bumpTimer - 1;
      b.(bumpTimer := t, bumped := !(t <= 0))
    else b
  }

  /** A bump started with timer 6 lasts exactly 6 ticks. */
  lemma {:induction false} BumpLasts(b: Block, n: nat)
    requires b.bumped && 0 < b.bumpTimer && n <= b.bumpTimer
    ensures TickN(b, n).bumped <==> n < b.bumpTimer
    ensures TickN(b, n).bumpTimer == b.bumpTimer - n
    decreases n
  {
    if n > 0 {
      BumpLasts(b, n - 1);
    }
  }

  /** n ticks of a block. */
  function TickN(b: Block, n: nat): Block
    decreases n
  {
    if n == 0 then b else BlockTick(TickN(b, n - 1))
  }

  /** A freshly spawned coin, 16x20. */
  function SpawnedCoin(b: Block): Rect {
    Rect(b.rect.x, b.rect.y - 30, 16, 20)
  }

  /** A freshly spawned power-up, 20x20. */
  function SpawnedItem(b: Block, k: ItemKind): Item {
    Item(k, Rect(b.rect.x, b.rect.y - 25, 20, 20))
  }

  predicate Loaded(b: Block) {
    b.kind == Used && b.item.Some?
  }

  datatype World = World(blocks: seq<Block>, coins: seq<Rect>, items: seq<Item>)

  /** Number of used blocks still holding their contents. */
  function CountLoaded(bs: seq<Block>): (n: nat)
    ensures n <= |bs|
  {
    if bs == [] then 0 else (if Loaded(bs[0]) then 1 else 0) + CountLoaded(bs[1..])
  }

  /** The block loop of `LevelManager.update`: tick every block, and let every used block
      that still holds something release it (coin 30 pixels up, item 25 pixels up) and
      become empty. Spawned things are appended in block order. */
  function SpawnPass(bs: seq<Block>, coins: seq<Rect>, items: seq<Item>): (w: World)
    decreases |bs|
    ensures |w.blocks| == |bs|
    ensures forall i :: 0 <= i < |bs| ==> w.blocks[i].kind == bs[i].kind && w.blocks[i].rect == bs[i].rect
    ensures forall i :: 0 <= i < |bs| ==> !Loaded(w.blocks[i])
    ensures forall i :: 0 <= i < |bs| ==> bs[i].kind != Used ==> w.blocks[i].item == bs[i].item
    ensures |w.coins| + |w.items| == |coins| + |items| + CountLoaded(bs)
    ensures coins <= w.coins && items <= w.items
  {
    if bs == [] then World([], coins, items)
    else
      var b := BlockTick(bs[0]);
      var tail := bs[1..];
      assert forall i :: 1 <= i < |bs| ==> bs[i] == tail[i - 1];
      if Loaded(b) then
        var b' := b.(item := None);
        var rest :=
          match b.item.value
          case CoinLoot => SpawnPass(tail, coins + [SpawnedCoin(b)], items)
          case ItemLoot(k) => SpawnPass(tail, coins, items + [SpawnedItem(b, k)]);
        World([b'] + rest.blocks, rest.coins, rest.items)
      else
        var rest := SpawnPass(tail, coins, items);
        World([b] + rest.blocks, rest.coins, rest.items)
  }

  /** Contents spawn once: a second pass over the blocks it left spawns nothing. */
  lemma {:induction false} SpawnOnce(bs: seq<Block>, coins: seq<Rect>, items: seq<Item>)
    ensures var w := SpawnPass(bs, coins, items);
      var w2 := SpawnPass(w.blocks, w.coins, w.items);
      w2.coins == w.coins && w2.items == w.items
  {
    var w := SpawnPass(bs, coins, items);
    NothingLoadedSpawnsNothing(w.blocks, w.coins, w.items);
  }

  /** With no loaded block, the pass only ticks. */
  lemma {:induction false} NothingLoadedSpawnsNothing(bs: seq<Block>, coins: seq<Rect>, items: seq<Item>)
    requires forall i :: 0 <= i < |bs| ==> !Loaded(bs[i])
    ensures SpawnPass(bs, coins, items).coins == coins && SpawnPass(bs, coins, items).items == items
    decreases |bs|
  {
    if bs != [] {
      var tail := bs[1..];
      assert forall i :: 0 <= i < |tail| ==> tail[i] == bs[i + 1];
      NothingLoadedSpawnsNothing(tail, coins, items);
    }
  }

  /** Bumping a question block that holds a coin, then one pass, yields exactly that
      coin above the block, and the block is left empty. */
  lemma QuestionCoinAppears(b: Block, isSuper: bool)
    requires b.kind == Question && b.item == Some(CoinLoot)
    ensures var w := SpawnPass([BlockHit(b, isSuper)], [], []);
      w.coins == [Rect(b.rect.x, b.rect.y - 30, 16, 20)] && w.items == [] && w.blocks[0].item == None
  {
  }

  // ---------------------------------------------------------------------------
  // Enemies

  /** `Enemy.update` for a stomped enemy: count down and do nothing else. The walking of
      a live enemy is float motion and is not modelled; it keeps its timer. */
  function EnemyTick(e: Enemy): (e': Enemy)
    ensures e'.stomped == e.stomped && e'.rect == e.rect
    ensures e.stomped ==> e'.stompTimer == e.stompTimer - 1
    ensures !e.stomped ==> e' == e
  {
    if e.stomped then e.(stompTimer := e.stompTimer - 1) else e
  }

  /** The enemy loop: tick each enemy and drop those whose timer has run out. */
  function EnemyPassTick(es: seq<Enemy>): (out: seq<Enemy>)
    ensures |out| <= |es|
    ensures forall e :: e in out ==> e.stompTimer > 0
    ensures forall e :: e in es && !e.stomped && e.stompTimer > 0 ==> e in out
    ensures forall e :: e in es && EnemyTick(e).stompTimer > 0 ==> EnemyTick(e) in out
    ensures forall x :: x in out ==> exists e :: e in es && x == EnemyTick(e)
  {
    if es == [] then []
    else
      var e := EnemyTick(es[0]);
      var rest := EnemyPassTick(es[1..]);
      assert forall x :: x in es <==> x == es[0] || x in es[1..];
      if e.stompTimer <= 0 then rest else [e] + rest
  }

  /** n frames of the enemy loop. */
  function EnemyFrames(es: seq<Enemy>, n: nat): seq<Enemy>
    decreases n
  {
    if n == 0 then es else EnemyPassTick(EnemyFrames(es, n - 1))
  }

  /** A lone enemy stomped with its timer at t > 0 survives t - 1 frames and is gone
      after the t-th. */
  lemma {:induction false} StompedEnemyLifetime(e: Enemy, n: nat)
    requires e.stomped && 0 < e.stompTimer && n <= e.stompTimer
    ensures n < e.stompTimer ==> EnemyFrames([e], n) == [e.(stompTimer := e.stompTimer - n)]
    ensures n == e.stompTimer ==> EnemyFrames([e], n) == []
    decreases n
  {
    if n > 0 {
      StompedEnemyLifetime(e, n - 1);
      var e1 := e.(stompTimer := e.stompTimer - (n - 1));
      assert EnemyFrames([e], n) == EnemyPassTick([e1]);
      assert [e1][1..] == [];
    }
  }

  // ---------------------------------------------------------------------------
  // Camera

  /** `Camera.update`: centre the target, then stop at the left edge and at the right edge
      of a level `width` pixels wide; the right-edge rule wins. */
  function CameraX(centerX: int, width: int): (x: int)
    ensures width >= SCREEN_WIDTH ==> -(width - SCREEN_WIDTH) <= x <= 0
    ensures width >= SCREEN_WIDTH && SCREEN_WIDTH / 2 <= centerX <= width - SCREEN_WIDTH / 2 ==> x + centerX == SCREEN_WIDTH / 2
    ensures centerX < SCREEN_WIDTH / 2 ==> x == Max(-(width - SCREEN_WIDTH), 0)
  {
    var x0 := -centerX + SCREEN_WIDTH / 2;
    var x1 := Min(0, x0);
    Max(-(width - SCREEN_WIDTH), x1)
  }

  /** The camera never moves left as the target moves right. */
  lemma CameraMonotone(c1: int, c2: int, width: int)
    requires c1 <= c2
    ensures CameraX(c2, width) <= CameraX(c1, width)
  {
  }

  // ---------------------------------------------------------------------------
  // Level outcome

  datatype GameState = Overworld | InLevel | GameOver | GameComplete

  /** The end of `LevelManager.update`: past 60 pixels before the end the level is done;
      otherwise no lives or no time left is game over. `timeUp` stands for the float
      clock having reached zero. */
  function LevelOutcome(playerX: int, width: int, lives: int, timeUp: bool): (g: GameState)
    ensures g != GameComplete
    ensures g == Overworld <==> playerX > width - 60
    ensures g == GameOver <==> playerX <= width - 60 && (lives <= 0 || timeUp)
  {
    if playerX > width - 60 then Overworld
    else if lives <= 0 || timeUp then GameOver
    else InLevel
  }

  // ---------------------------------------------------------------------------
  // Overworld

  datatype Node = Node(world: int, level: int, right: Option<nat>, left: Option<nat>)

  /** Every exit leads to a node of the map. */
  predicate ExitsValid(nodes: seq<Node>) {
    forall i :: 0 <= i < |nodes| ==>
      (nodes[i].right.Some? ==> nodes[i].right.value < |nodes|) &&
      (nodes[i].left.Some? ==> nodes[i].left.value < |nodes|)
  }

  datatype Key = Right | Left | Confirm | Other

  datatype Cursor = Cursor(current: nat, moveTimer: nat)

  /** The frame's result: stay on the map, or enter (world, level). */
  datatype MapResult = Stay(cursor: Cursor) | Enter(cursor: Cursor, world: int, level: int)

  /** `OverworldManager.update`: while the move delay runs, the frame only counts it
      down. Otherwise the key presses are handled in order: an arrow follows its exit
      when there is one and restarts the delay (later presses of the same frame are still
      handled), and a confirm key enters the current node's level at once. */
  function MapUpdate(nodes: seq<Node>, c: Cursor, keys: seq<Key>): (r: MapResult)
    requires ExitsValid(nodes) && c.current < |nodes|
    ensures r.cursor.current < |nodes|
    ensures c.moveTimer > 0 ==> r == Stay(Cursor(c.current, c.moveTimer - 1))
    ensures r.Enter? ==>
      (c.moveTimer == 0 && Confirm in keys && r.world == nodes[r.cursor.current].world && r.level == nodes[r.cursor.current].level)
    ensures c.moveTimer == 0 ==> (r.Enter? <==> Confirm in keys)
    ensures c.moveTimer == 0 ==> r == HandleKeys(nodes, c, keys)
    ensures c.moveTimer == 0 ==> r.cursor.moveTimer == c.moveTimer || r.cursor.moveTimer == MOVE_DELAY
  {
    if c.moveTimer > 0 then Stay(Cursor(c.current, c.moveTimer - 1))
    else HandleKeys(nodes, c, keys)
  }

  /** The key loop of `OverworldManager.update`. */
  function HandleKeys(nodes: seq<Node>, c: Cursor, keys: seq<Key>): (r: MapResult)
    requires ExitsValid(nodes) && c.current < |nodes|
    decreases |keys|
    ensures r.cursor.current < |nodes|
    ensures r.Enter? ==>
      (Confirm in keys && r.world == nodes[r.cursor.current].world && r.level == nodes[r.cursor.current].level)
    ensures r.Enter? <==> Confirm in keys
    ensures r.cursor.moveTimer == c.moveTimer || r.cursor.moveTimer == MOVE_DELAY
    ensures (forall k :: k in keys ==> k == Other) ==> r == Stay(c)
  {
    if keys == [] then Stay(c)
    else
      var k := keys[0];
      assert k in keys;
      assert forall x :: x in keys <==> x == k || x in keys[1..];
      var node := nodes[c.current];
      if k == Right && node.right.Some? then HandleKeys(nodes, Cursor(node.right.value, MOVE_DELAY), keys[1..])
      else if k == Left && node.left.Some? then HandleKeys(nodes, Cursor(node.left.value, MOVE_DELAY), keys[1..])
      else if k == Confirm then Enter(c, node.world, node.level)
      else HandleKeys(nodes, c, keys[1..])
  }

  /** One key press: an arrow with an exit moves the cursor there and restarts the move
      delay, a confirm key enters the current node's level, and anything else (an arrow
      with no exit that way, another key) leaves the cursor alone. */
  lemma SingleKey(nodes: seq<Node>, c: Cursor, k: Key)
    requires ExitsValid(nodes) && c.current < |nodes|
    ensures var node := nodes[c.current]; var r := HandleKeys(nodes, c, [k]);
      (k == Right && node.right.Some? ==> r == Stay(Cursor(node.right.value, MOVE_DELAY)))
      && (k == Left && node.left.Some? ==> r == Stay(Cursor(node.left.value, MOVE_DELAY)))
      && (k == Confirm ==> r == Enter(c, node.world, node.level))
      && (k == Other || (k == Right && node.right.None?) || (k == Left && node.left.None?) ==> r == Stay(c))
  {
  }

  /** The presses of one frame are handled one after another: the keys after a confirm
      are ignored, and otherwise the later keys start from the cursor the earlier ones
      left. With `SingleKey` this fixes the result of every key sequence. */
  lemma {:induction false} HandleKeysAppend(nodes: seq<Node>, c: Cursor, a: seq<Key>, b: seq<Key>)
    requires ExitsValid(nodes) && c.current < |nodes|
    decreases |a|
    ensures var front := HandleKeys(nodes, c, a);
      HandleKeys(nodes, c, a + b) == if front.Enter? then front else HandleKeys(nodes, front.cursor, b)
  {
    if a == [] {
      assert a + b == b;
    } else {
      var k := a[0];
      assert (a + b)[0] == k && (a + b)[1..] == a[1..] + b;
      var node := nodes[c.current];
      if k == Right && node.right.Some? {
        HandleKeysAppend(nodes, Cursor(node.right.value, MOVE_DELAY), a[1..], b);
      } else if k == Left && node.left.Some? {
        HandleKeysAppend(nodes, Cursor(node.left.value, MOVE_DELAY), a[1..], b);
      } else if k != Confirm {
        HandleKeysAppend(nodes, c, a[1..], b);
      }
    }
  }

  /** Confirming first enters the level under the cursor without moving it. */
  lemma ConfirmEntersCurrent(nodes: seq<Node>, c: Cursor, keys: seq<Key>)
    requires ExitsValid(nodes) && c.current < |nodes| && c.moveTimer == 0
    requires keys != [] && keys[0] == Confirm
    ensures MapUpdate(nodes, c, keys) == Enter(c, nodes[c.current].world, nodes[c.current].level)
  {
  }
}

=== FILE: geometry.dfy ===
/** Integer rectangles with the pygame.Rect conventions every variant relies on,
    and the small numeric helpers of the tile-grid variant (ultrasmb4k.py). */
module Geometry {

  /** A rectangle with top-left corner (x, y), width w and height h.
      Every rectangle the games build has a non-negative size. */
  datatype Rect = Rect(x: int, y: int, w: nat, h: nat) {

    function Left(): int { x }
    function Right(): int { x + w }
    function Top(): int { y }
    function Bottom(): int { y + h }

    /** pygame computes the centre with C integer division; w and h are non-negative. */
    function CenterX(): int { x + w / 2 }
    function CenterY(): int { y + h / 2 }

    /** `rect.right = v`: moves the rectangle, keeping its size. */
    function WithRight(v: int): (r: Rect)
      ensures r.Right() == v && r.y == y && r.w == w && r.h == h
    {
      Rect(v - w, y, w, h)
    }

    /** `rect.left = v`. */
    function WithLeft(v: int): (r: Rect)
      ensures r.Left() == v && r.y == y && r.w == w && r.h == h
    {
      Rect(v, y, w, h)
    }

    /** `rect.bottom = v`. */
    function WithBottom(v: int): (r: Rect)
      ensures r.Bottom() == v && r.x == x && r.w == w && r.h == h
    {
      Rect(x, v - h, w, h)
    }

    /** `rect.top = v`. */
    function WithTop(v: int): (r: Rect)
      ensures r.Top() == v && r.x == x && r.w == w && r.h == h
    {
      Rect(x, v, w, h)
    }

    /** `rect.height = v; rect.bottom = old bottom`: resize keeping the feet in place. */
    function ResizeKeepBottom(v: nat): (r: Rect)
      ensures r.Bottom() == Bottom() && r.h == v && r.x == x && r.w == w
    {
      Rect(x, y + h - v, w, v)
    }
  }

  /** `colliderect`: the open intervals of the two rectangles overlap on both axes. */
  predicate Overlaps(a: Rect, b: Rect) {
    a.Left() < b.Right() && b.Left() < a.Right() && a.Top() < b.Bottom() && b.Top() < a.Bottom()
  }

  /** `outer.contains(inner)`: every pixel of `inner` is a pixel of `outer`. */
  predicate Contains(outer: Rect, inner: Rect) {
    outer.Left() <= inner.Left() && inner.Right() <= outer.Right()
    && outer.Top() <= inner.Top() && inner.Bottom() <= outer.Bottom()
  }

  /** How many of the rectangles `r` overlaps, counted from the back so that a loop
      over a prefix can keep it as an invariant. */
  function Touching(r: Rect, cs: seq<Rect>): (n: nat)
    ensures n <= |cs|
  {
    if cs == [] then 0
    else Touching(r, cs[..|cs| - 1]) + (if Overlaps(r, cs[|cs| - 1]) then 1 else 0)
  }

  /** The same count taken from the front: the first rectangle adds one exactly when it
      is touched. */
  lemma {:induction false} TouchingFront(r: Rect, cs: seq<Rect>)
    requires cs != []
    ensures Touching(r, cs) == (if Overlaps(r, cs[0]) then 1 else 0) + Touching(r, cs[1..])
    decreases |cs|
  {
    if |cs| == 1 {
      assert cs[..0] == [] && cs[1..] == [];
    } else {
      var init := cs[..|cs| - 1];
      TouchingFront(r, init);
      assert init[0] == cs[0];
      assert init[1..] == cs[1..][..|cs[1..]| - 1];
      assert cs[1..][|cs[1..]| - 1] == cs[|cs| - 1];
    }
  }

  function Max(a: int, b: int): int { if a < b then b else a }
  function Min(a: int, b: int): int { if a < b then a else b }
  function Abs(a: int): nat { if a < 0 then -a else a }

  /** `clamp` of the tile-grid variant: tests the lower bound first. */
  function Clamp(v: int, lo: int, hi: int): (r: int)
    ensures lo <= hi ==> lo <= r <= hi
    ensures lo <= v <= hi ==> r == v
    ensures v < lo ==> r == lo
    ensures lo <= v && hi < v ==> r == hi
  {
    if v < lo then lo else if v > hi then hi else v
  }

  /** `sign`: -1, 0 or 1 with the sign of x. */
  function Sign(x: int): (s: int)
    ensures -1 <= s <= 1
    ensures s < 0 <==> x < 0
    ensures s > 0 <==> x > 0
  {
    if x < 0 then -1 else if x > 0 then 1 else 0
  }
}

=== FILE: mario4k.dfy ===
/** The stage-select variant (ultramario4k1.x.py): the clamp, the theme and width of a
    stage, the camera, the world/stage selection screen, the death test, the two
    debounce counters of a level frame and the successor stage after a clear.
    Mario's own motion is not modelled: a level frame receives his rectangle after
    `Mario.update` as an input. */
module Mario4k {
  import opened Geometry

  const SCREEN_W: int := 640
  const SCREEN_H: int := 480
  const TILE: int := 16
  const WORLDS: int := 8
  const STAGES: int := 4
  /** Stages in one full tour of the game. */
  const TOUR: int := WORLDS * STAGES
  /** `int(SCREEN_W * 0.4)`: how far right of the camera's left edge Mario is kept. */
  const CAMERA_LEAD: int := 256
  /** `SCREEN_H + 50`: below this top edge Mario has fallen out of the level. */
  const DEATH_LINE: int := SCREEN_H + 50
  /** `FPS * 0.5` and `FPS * 0.3` at 60 frames per second: a counter fires once it
      exceeds these, that is on the 31st and the 19th consecutive frame. */
  const VICTORY_FRAMES: nat := 30
  const DEATH_FRAMES: nat := 18

  // ---------------------------------------------------------------------------
  // Clamp

  /** `clamp`: applies the upper bound first, then the lower bound, so an empty
      range [lo, hi] yields lo. */
  function ClampUpperFirst(v: int, lo: int, hi: int): (r: int)
    ensures lo <= hi ==> lo <= r <= hi
    ensures lo <= v <= hi ==> r == v
    ensures hi < lo ==> r == lo
  {
    Max(lo, Min(v, hi))
  }

  /** On a non-empty range this clamp and the tile-grid variant's agree. */
  lemma ClampsAgree(v: int, lo: int, hi: int)
    requires lo <= hi
    ensures ClampUpperFirst(v, lo, hi) == Clamp(v, lo, hi)
  {
  }

  // ---------------------------------------------------------------------------
  // Stage layout

  datatype Theme = Overworld | Underground | Night | Castle

  /** `choose_theme`: the four themes in turn by stage number; the world plays no part. */
  function ChooseTheme(world: int, stage: int): (t: Theme)
    ensures t == Overworld <==> stage % 4 == 1
    ensures t == Castle <==> stage % 4 == 0
  {
    [Overworld, Underground, Night, Castle][(stage - 1) % 4]
  }

  /** The theme repeats every four stages, in every world alike. */
  lemma ThemePeriodic(world: int, world': int, stage: int)
    ensures ChooseTheme(world, stage) == ChooseTheme(world', stage + 4)
  {
    assert (stage + 4 - 1) % 4 == (stage - 1) % 4;
  }

  /** The four stages of a world get four different themes. */
  lemma ThemesDistinct(world: int, s1: int, s2: int)
    requires 1 <= s1 <= STAGES && 1 <= s2 <= STAGES && s1 != s2
    ensures ChooseTheme(world, s1) != ChooseTheme(world, s2)
  {
  }

  /** The level width in pixels from `build_level`. */
  function WidthPx(world: int, stage: int): (px: int)
    ensures px % TILE == 0
    ensures InRange(world, stage) ==> SCREEN_W < px
  {
    (120 + world * 8 + (stage - 1) * 4) * TILE
  }

  /** Every selectable stage is between 128 and 196 tiles wide, so wider than the screen. */
  lemma WidthBounds(world: int, stage: int)
    requires 1 <= world <= WORLDS && 1 <= stage <= STAGES
    ensures 128 * TILE <= WidthPx(world, stage) <= 196 * TILE
    ensures WidthPx(world, stage) > SCREEN_W
  {
  }

  /** Later worlds and later stages are never narrower. */
  lemma WidthMonotone(w1: int, s1: int, w2: int, s2: int)
    requires w1 <= w2 && s1 <= s2
    ensures WidthPx(w1, s1) <= WidthPx(w2, s2)
  {
  }

  // ---------------------------------------------------------------------------
  // Camera

  /** `Camera.update`: keep Mario's centre CAMERA_LEAD pixels right of the left edge,
      within the level. A level narrower than the screen pins the camera at 0. */
  function CameraX(centerX: int, levelWidth: int): (camx: int)
    ensures levelWidth >= SCREEN_W ==> 0 <= camx <= levelWidth - SCREEN_W
    ensures levelWidth < SCREEN_W ==> camx == 0
    ensures 0 <= centerX - CAMERA_LEAD <= levelWidth - SCREEN_W ==> camx == centerX - CAMERA_LEAD
  {
    ClampUpperFirst(centerX - CAMERA_LEAD, 0, levelWidth - SCREEN_W)
  }

  /** The camera never moves left as Mario moves right. */
  lemma CameraMonotone(c1: int, c2: int, levelWidth: int)
    requires c1 <= c2
    ensures CameraX(c1, levelWidth) <= CameraX(c2, levelWidth)
  {
  }

  // ---------------------------------------------------------------------------
  // Death test and debounce counters

  /** Mario overlaps one of the hazards. */
  function HitsHazard(player: Rect, hazards: seq<Rect>): (b: bool)
    ensures b <==> exists i :: 0 <= i < |hazards| && Overlaps(player, hazards[i])
  {
    if |hazards| == 0 then false
    else Overlaps(player, hazards[0]) || HitsHazard(player, hazards[1..])
  }

  /** `check_death`: fallen below the screen, or touching lava. */
  function CheckDeath(player: Rect, hazards: seq<Rect>): (dead: bool)
    ensures dead <==> player.Top() > DEATH_LINE || exists i :: 0 <= i < |hazards| && Overlaps(player, hazards[i])
  {
    player.Top() > DEATH_LINE || HitsHazard(player, hazards)
  }

  /** A counter after one frame, and whether it fired on that frame. */
  datatype Tick = Tick(timer: nat, fired: bool)

  /** One frame of `victory_timer` or `death_timer`: count a frame with contact, fire
      and reset once the count exceeds `limit`, reset on a frame without contact. */
  function Debounce(timer: nat, hit: bool, limit: nat): (r: Tick)
    ensures r.fired <==> hit && timer >= limit
    ensures r.fired || !hit ==> r.timer == 0
    ensures hit && !r.fired ==> r.timer == timer + 1 <= limit
  {
    if hit then (if timer + 1 > limit then Tick(0, true) else Tick(timer + 1, false))
    else Tick(0, false)
  }

  /** How many frames at the end of `hits` had contact without a break. */
  function Trailing(hits: seq<bool>): (n: nat)
    ensures n <= |hits|
    ensures forall i :: |hits| - n <= i < |hits| ==> hits[i]
    ensures n < |hits| ==> !hits[|hits| - 1 - n]
  {
    if |hits| == 0 || !hits[|hits| - 1] then 0 else Trailing(hits[..|hits| - 1]) + 1
  }

  /** A counter started at 0 by `start_level` over the frames `hits`, held once it has
      fired (the game then leaves the level). */
  function Run(hits: seq<bool>, limit: nat): Tick
  {
    if |hits| == 0 then Tick(0, false)
    else
      var before := Run(hits[..|hits| - 1], limit);
      if before.fired then before else Debounce(before.timer, hits[|hits| - 1], limit)
  }

  /** Until it fires, the counter equals the length of the current unbroken contact run. */
  lemma {:induction false} RunCountsTrailing(hits: seq<bool>, limit: nat)
    requires !Run(hits, limit).fired
    ensures Run(hits, limit).timer == Trailing(hits) <= limit
  {
    if |hits| > 0 {
      RunCountsTrailing(hits[..|hits| - 1], limit);
    }
  }

  /** The counter fires exactly on the (limit + 1)-th consecutive frame of contact. */
  lemma FiresOnConsecutiveFrame(hits: seq<bool>, hit: bool, limit: nat)
    requires !Run(hits, limit).fired
    ensures Run(hits + [hit], limit).fired <==> hit && Trailing(hits) == limit
    ensures Run(hits + [hit], limit).fired ==> Trailing(hits + [hit]) == limit + 1
  {
    assert (hits + [hit])[..|hits|] == hits;
    RunCountsTrailing(hits, limit);
  }

  // ---------------------------------------------------------------------------
  // Successor stage

  /** The position of a stage in the tour 1-1, 1-2, ..., 8-4. */
  function TourIndex(world: int, stage: int): int {
    (world - 1) * STAGES + (stage - 1)
  }

  predicate InRange(world: int, stage: int) {
    1 <= world <= WORLDS && 1 <= stage <= STAGES
  }

  /** ENTER on the victory screen: the next stage, wrapping into the next world, and from
      the last world back to the first. */
  function Next(world: int, stage: int): (r: (int, int))
    ensures InRange(world, stage) ==> InRange(r.0, r.1)
  {
    var ns := stage % STAGES + 1;
    var nw := if ns == 1 then world % WORLDS + 1 else world;
    (nw, ns)
  }

  /** The successor is one step along the tour of 32 stages, cyclically. */
  lemma NextIsTourStep(world: int, stage: int)
    requires InRange(world, stage)
    ensures TourIndex(Next(world, stage).0, Next(world, stage).1) == (TourIndex(world, stage) + 1) % TOUR
  {
  }

  /** After 8-4 comes 1-1. */
  lemma LastStageWraps()
    ensures Next(WORLDS, STAGES) == (1, 1)
  {
  }

  // ---------------------------------------------------------------------------
  // Game states and screens

  datatype State = Menu | MapScreen | InLevel | Victory | Dead

  /** Key presses the screens react to; QUIT and `q` end the process and are not modelled. */
  datatype Key = ArrowLeft | ArrowRight | ArrowUp | ArrowDown | Enter | Escape | KeyR | OtherKey

  /** The stage `self.level` was built for, if any. */
  datatype Built = NoLevel | Built(world: int, stage: int)

  /** The game's bookkeeping: the selected world and stage, the built level, the camera
      offset and the two counters. */
  datatype Game = Game(state: State, world: int, stage: int, level: Built, camx: int,
                       deathTimer: nat, victoryTimer: nat)

  /** `Game.__init__`; the camera does not exist yet, its offset reads 0. */
  function NewGame(): (g: Game)
    ensures g.state == Menu && g.world == 1 && g.stage == 1 && g.level == NoLevel
    ensures g.camx == 0 && g.deathTimer == 0 && g.victoryTimer == 0
  {
    Game(Menu, 1, 1, NoLevel, 0, 0, 0)
  }

  /** `start_level`: select and build the stage, new camera, counters cleared. */
  function StartLevel(world: int, stage: int): (g: Game)
    ensures g.state == InLevel && g.level == Built(world, stage)
    ensures g.world == world && g.stage == stage && g.camx == 0
    ensures g.deathTimer == 0 && g.victoryTimer == 0
  {
    Game(InLevel, world, stage, Built(world, stage), 0, 0, 0)
  }

  /** What every reachable game satisfies: a selectable stage, a built level while one is
      being played or has just ended, the camera inside it, counters below their limits. */
  predicate Inv(g: Game) {
    && InRange(g.world, g.stage)
    && (g.state == InLevel || g.state == Victory || g.state == Dead ==> g.level.Built?)
    && (g.level.Built? ==> (
          && InRange(g.level.world, g.level.stage)
          && 0 <= g.camx <= WidthPx(g.level.world, g.level.stage) - SCREEN_W))
    && g.victoryTimer <= VICTORY_FRAMES
    && g.deathTimer <= DEATH_FRAMES
  }

  lemma NewGameInv()
    ensures Inv(NewGame())
  {
  }

  lemma StartLevelInv(world: int, stage: int)
    requires InRange(world, stage)
    ensures Inv(StartLevel(world, stage))
  {
    WidthBounds(world, stage);
  }

  /** `update_menu`: any ENTER opens the selection screen. */
  function MenuFrame(g: Game, events: seq<Key>): (g': Game)
    ensures Inv(g) ==> Inv(g')
    ensures g'.state == g.state || g'.state == MapScreen
    ensures g'.(state := g.state) == g
    ensures Enter in events ==> g' == g.(state := MapScreen)
    ensures Enter !in events ==> g' == g
  {
    if Enter in events then g.(state := MapScreen) else g
  }

  /** One key on the selection screen. */
  function MapKey(g: Game, k: Key): (g': Game)
    ensures Inv(g) ==> Inv(g')
    ensures k != Enter ==> g'.level == g.level && g'.camx == g.camx
    ensures k == Enter ==> g' == StartLevel(g.world, g.stage)
    ensures k == Escape ==> g' == g.(state := Menu)
  {
    match k
    case ArrowLeft => g.(world := Max(1, g.world - 1))
    case ArrowRight => g.(world := Min(WORLDS, g.world + 1))
    case ArrowUp => g.(stage := Min(STAGES, g.stage + 1))
    case ArrowDown => g.(stage := Max(1, g.stage - 1))
    case Enter => StartLevel(g.world, g.stage)
    case Escape => g.(state := Menu)
    case _ => g
  }

  /** `update_map`: every key of the frame in order. ENTER starts the level without
      ending the loop, so later keys of the same frame still apply. */
  function MapFrame(g: Game, events: seq<Key>): (g': Game)
    ensures Inv(g) ==> Inv(g')
    decreases |events|
  {
    if |events| == 0 then g else MapFrame(MapKey(g, events[0]), events[1..])
  }

  lemma {:induction false} MapFrameAppend(g: Game, a: seq<Key>, b: seq<Key>)
    ensures MapFrame(g, a + b) == MapFrame(MapFrame(g, a), b)
    decreases |a|
  {
    if |a| > 0 {
      assert (a + b)[0] == a[0];
      assert (a + b)[1..] == a[1..] + b;
      MapFrameAppend(MapKey(g, a[0]), a[1..], b);
    } else {
      assert a + b == b;
    }
  }

  function Repeat(k: Key, n: nat): (ks: seq<Key>)
    ensures |ks| == n && forall i :: 0 <= i < n ==> ks[i] == k
  {
    if n == 0 then [] else [k] + Repeat(k, n - 1)
  }

  /** n presses of LEFT lower the world by n, stopping at 1. */
  lemma {:induction false} PressLeft(g: Game, n: nat)
    requires g.world >= 1
    ensures MapFrame(g, Repeat(ArrowLeft, n)) == g.(world := Max(1, g.world - n))
    decreases n
  {
    if n > 0 {
      PressLeft(MapKey(g, ArrowLeft), n - 1);
    }
  }

  /** n presses of RIGHT raise the world by n, stopping at 8. */
  lemma {:induction false} PressRight(g: Game, n: nat)
    requires g.world <= WORLDS
    ensures MapFrame(g, Repeat(ArrowRight, n)) == g.(world := Min(WORLDS, g.world + n))
    decreases n
  {
    if n > 0 {
      PressRight(MapKey(g, ArrowRight), n - 1);
    }
  }

  /** n presses of DOWN lower the stage by n, stopping at 1. */
  lemma {:induction false} PressDown(g: Game, n: nat)
    requires g.stage >= 1
    ensures MapFrame(g, Repeat(ArrowDown, n)) == g.(stage := Max(1, g.stage - n))
    decreases n
  {
    if n > 0 {
      PressDown(MapKey(g, ArrowDown), n - 1);
    }
  }

  /** n presses of UP raise the stage by n, stopping at 4. */
  lemma {:induction false} PressUp(g: Game, n: nat)
    requires g.stage <= STAGES
    ensures MapFrame(g, Repeat(ArrowUp, n)) == g.(stage := Min(STAGES, g.stage + n))
    decreases n
  {
    if n > 0 {
      PressUp(MapKey(g, ArrowUp), n - 1);
    }
  }

  /** Keys that select stage world-stage from anywhere and start it. */
  function SelectKeys(world: int, stage: int): seq<Key>
    requires InRange(world, stage)
  {
    Repeat(ArrowLeft, WORLDS - 1) + Repeat(ArrowDown, STAGES - 1)
    + Repeat(ArrowRight, world - 1) + Repeat(ArrowUp, stage - 1) + [Enter]
  }

  /** Every one of the 32 stages can be selected and started from the selection screen. */
  lemma EveryStageSelectable(g: Game, world: int, stage: int)
    requires Inv(g) && InRange(world, stage)
    ensures MapFrame(g, SelectKeys(world, stage)) == StartLevel(world, stage)
  {
    var a := Repeat(ArrowLeft, WORLDS - 1);
    var b := Repeat(ArrowDown, STAGES - 1);
    var c := Repeat(ArrowRight, world - 1);
    var d := Repeat(ArrowUp, stage - 1);
    assert SelectKeys(world, stage) == a + (b + (c + (d + [Enter])));
    MapFrameAppend(g, a, b + (c + (d + [Enter])));
    PressLeft(g, WORLDS - 1);
    var g1 := g.(world := 1);
    MapFrameAppend(g1, b, c + (d + [Enter]));
    PressDown(g1, STAGES - 1);
    var g2 := g1.(stage := 1);
    MapFrameAppend(g2, c, d + [Enter]);
    PressRight(g2, world - 1);
    var g3 := g2.(world := world);
    MapFrameAppend(g3, d, [Enter]);
    PressUp(g3, stage - 1);
    var g4 := g3.(stage := stage);
    assert MapFrame(g4, [Enter]) == MapFrame(MapKey(g4, Enter), []);
  }

  /** What `update_level` looks at after `Mario.update`: Mario's rectangle, the flagpole's
      rectangle joined with its flag, and the hazards. */
  datatype Scene = Scene(player: Rect, flag: Rect, hazards: seq<Rect>)

  /** The first R or ESC of the frame, which ends `update_level` at once; OtherKey if none. */
  function LevelCommand(events: seq<Key>): (k: Key)
    ensures k == OtherKey <==> KeyR !in events && Escape !in events
    ensures k != OtherKey ==> (
      exists i :: 0 <= i < |events| && events[i] == k && KeyR !in events[..i] && Escape !in events[..i])
  {
    if |events| == 0 then OtherKey
    else if events[0] == KeyR || events[0] == Escape then (assert events[..0] == []; events[0])
    else
      var k := LevelCommand(events[1..]);
      assert events == [events[0]] + events[1..];
      if k != OtherKey then
        var i :| 0 <= i < |events[1..]| && events[1..][i] == k && KeyR !in events[1..][..i] && Escape !in events[1..][..i];
        assert events[..i + 1] == [events[0]] + events[1..][..i];
        k
      else k
  }

  /** `update_level`: R restarts the selected stage, ESC goes back to the selection screen;
      otherwise move the camera, then the flag counter, then the death counter, so a death
      on the frame the flag counter fires still wins. */
  function LevelFrame(g: Game, events: seq<Key>, s: Scene): (g': Game)
    requires g.state == InLevel && g.level.Built?
    ensures Inv(g) ==> Inv(g')
    ensures LevelCommand(events) == KeyR ==> g' == StartLevel(g.world, g.stage)
    ensures LevelCommand(events) == Escape ==> g' == g.(state := MapScreen)
    ensures LevelCommand(events) == OtherKey ==> (
      && g'.level == g.level && g'.world == g.world && g'.stage == g.stage
      && (g'.state == Dead <==> CheckDeath(s.player, s.hazards) && g.deathTimer >= DEATH_FRAMES)
      && (g'.state == Victory <==> (
            && Overlaps(s.player, s.flag) && g.victoryTimer >= VICTORY_FRAMES
            && !(CheckDeath(s.player, s.hazards) && g.deathTimer >= DEATH_FRAMES)))
      && (g'.state == Dead || g'.state == Victory || g'.state == InLevel))
    ensures LevelCommand(events) == OtherKey ==> (
      && g'.victoryTimer == Debounce(g.victoryTimer, Overlaps(s.player, s.flag), VICTORY_FRAMES).timer
      && g'.deathTimer == Debounce(g.deathTimer, CheckDeath(s.player, s.hazards), DEATH_FRAMES).timer
      && g'.camx == CameraX(s.player.CenterX(), WidthPx(g.level.world, g.level.stage)))
  {
    var cmd := LevelCommand(events);
    if cmd == KeyR then StartLevel(g.world, g.stage)
    else if cmd == Escape then g.(state := MapScreen)
    else
      var camx := CameraX(s.player.CenterX(), WidthPx(g.level.world, g.level.stage));
      var v := Debounce(g.victoryTimer, Overlaps(s.player, s.flag), VICTORY_FRAMES);
      var d := Debounce(g.deathTimer, CheckDeath(s.player, s.hazards), DEATH_FRAMES);
      var state := if d.fired then Dead else if v.fired then Victory else InLevel;
      g.(state := state, camx := camx, victoryTimer := v.timer, deathTimer := d.timer)
  }

  /** One key on the victory screen: ENTER starts the successor stage, ESC returns to the
      selection screen. */
  function VictoryKey(g: Game, k: Key): (g': Game)
    ensures Inv(g) ==> Inv(g')
    ensures k == Enter ==> g' == StartLevel(Next(g.world, g.stage).0, Next(g.world, g.stage).1)
    ensures k == Escape ==> g' == g.(state := MapScreen)
    ensures k != Enter && k != Escape ==> g' == g
  {
    if k == Enter then StartLevel(Next(g.world, g.stage).0, Next(g.world, g.stage).1)
    else if k == Escape then g.(state := MapScreen)
    else g
  }

  /** `update_victory`: every key of the frame in order; a second ENTER in the same frame
      advances once more. */
  function VictoryFrame(g: Game, events: seq<Key>): (g': Game)
    ensures Inv(g) ==> Inv(g')
    decreases |events|
  {
    if |events| == 0 then g else VictoryFrame(VictoryKey(g, events[0]), events[1..])
  }

  /** One key on the death screen: ENTER retries the selected stage, ESC returns to the
      selection screen. */
  function DeadKey(g: Game, k: Key): (g': Game)
    ensures Inv(g) ==> Inv(g')
    ensures k == Enter ==> g' == StartLevel(g.world, g.stage)
    ensures k == Escape ==> g' == g.(state := MapScreen)
    ensures k != Enter && k != Escape ==> g' == g
  {
    if k == Enter then StartLevel(g.world, g.stage)
    else if k == Escape then g.(state := MapScreen)
    else g
  }

  /** `update_dead`: every key of the frame in order. */
  function DeadFrame(g: Game, events: seq<Key>): (g': Game)
    ensures Inv(g) ==> Inv(g')
    decreases |events|
  {
    if |events| == 0 then g else DeadFrame(DeadKey(g, events[0]), events[1..])
  }

  /** One pass of `Game.run`: the screen of the state the frame starts in handles all of
      the frame's keys. */
  function Frame(g: Game, events: seq<Key>, s: Scene): (g': Game)
    requires Inv(g)
    ensures Inv(g')
  {
    match g.state
    case Menu => MenuFrame(g, events)
    case MapScreen => MapFrame(g, events)
    case InLevel => LevelFrame(g, events, s)
    case Victory => VictoryFrame(g, events)
    case Dead => DeadFrame(g, events)
  }

  /** From a clear, ENTER alone moves the selection one step along the tour. */
  lemma ClearAdvancesTour(g: Game)
    requires Inv(g) && g.state == Victory
    ensures Frame(g, [Enter], Scene(Rect(0, 0, 0, 0), Rect(0, 0, 0, 0), [])) == StartLevel(Next(g.world, g.stage).0, Next(g.world, g.stage).1)
    ensures TourIndex(Frame(g, [Enter], Scene(Rect(0, 0, 0, 0), Rect(0, 0, 0, 0), [])).world,
                      Frame(g, [Enter], Scene(Rect(0, 0, 0, 0), Rect(0, 0, 0, 0), [])).stage)
            == (TourIndex(g.world, g.stage) + 1) % TOUR
  {
    assert VictoryFrame(g, [Enter]) == VictoryFrame(VictoryKey(g, Enter), []);
    NextIsTourStep(g.world, g.stage);
  }
}

=== FILE: smb4k_play.dfy ===
/** The per-step player rules of the tile-grid variant (ultrasmb4k.py): the move of
    `Player.update` from `move_and_collide` on (coin collection, death by falling), and the
    stomp-or-hurt pass of the main step loop followed by the removal of dead enemies.
    Velocities are whole pixels per second; the float integration that produces them is
    not part of this model. */
module Smb4kPlay {
  import opened Geometry
  import opened TileGrid
  import opened Collision

  /** Upward speed given by a stomp, pixels per second. */
  const STOMP_BOUNCE: int := 360
  /** A body dies once its top edge is this far below the grid's bottom edge. */
  const FALL_MARGIN: int := 200

  datatype Player = Player(rect: Rect, vy: int, onGround: bool, alive: bool, coins: nat)

  /** `stomp_bounce`: launch upward and leave the ground. Position, coins and life are
      untouched, and a body on its way up cannot stomp again (see `Stomps`). */
  function StompBounce(p: Player): (b: Player)
    ensures b.vy < 0 && !b.onGround
    ensures b.rect == p.rect && b.alive == p.alive && b.coins == p.coins
    ensures forall e :: !Stomps(b, e)
  {
    p.(vy := -STOMP_BOUNCE, onGround := false)
  }

  // ---------------------------------------------------------------------------
  // Coin collection

  /** The coins the body does not touch, in their original order. */
  function Kept(r: Rect, cs: seq<Rect>): (k: seq<Rect>)
    ensures |k| <= |cs|
  {
    if cs == [] then []
    else
      var k0 := Kept(r, cs[..|cs| - 1]);
      if Overlaps(r, cs[|cs| - 1]) then k0 else k0 + [cs[|cs| - 1]]
  }

  /** `collect_coins`: one pass over the level's coins, counting the touched ones and
      keeping the others. */
  method CollectCoins(p: Player, coins: seq<Rect>) returns (p': Player, keep: seq<Rect>)
    ensures p' == p.(coins := p.coins + Touching(p.rect, coins))
    ensures keep == Kept(p.rect, coins)
  {
    p' := p;
    keep := [];
    var i := 0;
    while i < |coins|
      invariant 0 <= i <= |coins|
      invariant p' == p.(coins := p.coins + Touching(p.rect, coins[..i]))
      invariant keep == Kept(p.rect, coins[..i])
    {
      var r := coins[i];
      assert coins[..i + 1][..i] == coins[..i];
      if Overlaps(p'.rect, r) {
        p' := p'.(coins := p'.coins + 1);
      } else {
        keep := keep + [r];
      }
      i := i + 1;
    }
    assert coins[..i] == coins;
  }

  /** Touched and kept coins partition the list. */
  lemma {:induction false} KeptAndTouchingPartition(r: Rect, cs: seq<Rect>)
    ensures |Kept(r, cs)| + Touching(r, cs) == |cs|
  {
    if cs != [] {
      KeptAndTouchingPartition(r, cs[..|cs| - 1]);
    }
  }

  /** A coin survives collection exactly when it is in the list and the body does not
      touch it. */
  lemma {:induction false} KeptExactly(r: Rect, cs: seq<Rect>, c: Rect)
    ensures c in Kept(r, cs) <==> c in cs && !Overlaps(r, c)
  {
    if cs != [] {
      var init := cs[..|cs| - 1];
      KeptExactly(r, init, c);
      assert cs == init + [cs[|cs| - 1]];
    }
  }

  /** Collection keeps the order of the coins: filtering a concatenation filters each part. */
  lemma {:induction false} KeptAppend(r: Rect, a: seq<Rect>, b: seq<Rect>)
    ensures Kept(r, a + b) == Kept(r, a) + Kept(r, b)
    ensures Touching(r, a + b) == Touching(r, a) + Touching(r, b)
    decreases |b|
  {
    if b == [] {
      assert a + b == a;
    } else {
      var b0 := b[..|b| - 1];
      assert (a + b)[..|a + b| - 1] == a + b0;
      assert (a + b)[|a + b| - 1] == b[|b| - 1];
      KeptAppend(r, a, b0);
    }
  }

  /** Collecting twice from the same place finds nothing the second time. */
  lemma {:induction false} CollectIdempotent(r: Rect, cs: seq<Rect>)
    ensures Touching(r, Kept(r, cs)) == 0
    ensures Kept(r, Kept(r, cs)) == Kept(r, cs)
  {
    if cs != [] {
      var init := cs[..|cs| - 1];
      CollectIdempotent(r, init);
      if !Overlaps(r, cs[|cs| - 1]) {
        KeptAppend(r, Kept(r, init), [cs[|cs| - 1]]);
        assert [cs[|cs| - 1]][..0] == [];
      }
    }
  }

  // ---------------------------------------------------------------------------
  // The player's move

  /** Result of a player step: the level (question blocks and coins may change) and the player. */
  datatype Step = Step(level: Level, player: Player)

  /** The rest of `Player.update` once the move is known: collect the coins of the moved
      level the body touches, and die when the top edge is more than FALL_MARGIN below
      the grid. */
  function CollectAndFall(l: Level, p: Player, m: Moved): Step {
    var gained := Touching(m.rect, m.level.coins);
    var p1 := p.(rect := m.rect, onGround := m.onGround, coins := p.coins + gained,
                 alive := !(m.rect.Top() > l.ht * TILE + FALL_MARGIN));
    Step(m.level.(coins := Kept(m.rect, m.level.coins)), p1)
  }

  /** `Player.update` from the move on, as written: `move_and_collide` (with its
      head-bump lookup one row low), coin collection, death by falling. The player's vy is
      the velocity already integrated for this step, and dx, dy are its rounded moves. A
      dead player does nothing. */
  function PlayerStep(l: Level, p: Player, dx: Delta, dy: Delta): (s: Step)
    requires l.Valid() && dx.Valid() && dy.Valid()
    ensures s.level.Valid() && s.level.wt == l.wt && s.level.ht == l.ht
    ensures !p.alive ==> s == Step(l, p)
  {
    if !p.alive then Step(l, p) else CollectAndFall(l, p, MoveAndCollide(l, p.rect, dx, dy))
  }

  /** The same step with the corrected head-bump lookup of MoveAndCollideIntended. */
  function PlayerStepIntended(l: Level, p: Player, dx: Delta, dy: Delta): (s: Step)
    requires l.Valid() && dx.Valid() && dy.Valid()
    ensures s.level.Valid() && s.level.wt == l.wt && s.level.ht == l.ht
    ensures !p.alive ==> s == Step(l, p)
  {
    if !p.alive then Step(l, p) else CollectAndFall(l, p, MoveAndCollideIntended(l, p.rect, dx, dy))
  }

  /** What the tail of the step does with any move of a live player: the coin count rises
      by exactly the number of coins removed, no remaining coin touches the player, the
      grid is the move's, and the player is alive iff it has not fallen past the margin. */
  lemma CollectAndFallOutcome(l: Level, p: Player, m: Moved)
    requires p.alive
    ensures var s := CollectAndFall(l, p, m);
      s.player.rect == m.rect && s.player.onGround == m.onGround && s.player.vy == p.vy
      && s.player.coins == p.coins + (|m.level.coins| - |s.level.coins|)
      && s.level.grid == m.level.grid
      && (forall c :: c in s.level.coins ==> c in m.level.coins && !Overlaps(s.player.rect, c))
      && (forall c :: c in m.level.coins && !Overlaps(s.player.rect, c) ==> c in s.level.coins)
      && (s.player.alive <==> s.player.rect.Top() <= l.ht * TILE + FALL_MARGIN)
  {
    KeptAndTouchingPartition(m.rect, m.level.coins);
    forall c
      ensures c in Kept(m.rect, m.level.coins) <==> c in m.level.coins && !Overlaps(m.rect, c)
    {
      KeptExactly(m.rect, m.level.coins, c);
    }
  }

  /** After the step of a live player, as written: the player has the moved rectangle
      and ground contact, its coin count rises by exactly the coins removed, the coins
      left are exactly those of the moved level it does not touch, the grid is the move's,
      and it is alive iff it has not fallen past the margin. */
  lemma PlayerStepOutcome(l: Level, p: Player, dx: Delta, dy: Delta)
    requires l.Valid() && dx.Valid() && dy.Valid() && p.alive
    ensures var m := MoveAndCollide(l, p.rect, dx, dy);
      var s := PlayerStep(l, p, dx, dy);
      s.player.rect == m.rect && s.player.onGround == m.onGround && s.player.vy == p.vy
      && s.player.coins == p.coins + (|m.level.coins| - |s.level.coins|)
      && s.level.grid == m.level.grid
      && (forall c :: c in s.level.coins <==> c in m.level.coins && !Overlaps(s.player.rect, c))
      && (s.player.alive <==> s.player.rect.Top() <= l.ht * TILE + FALL_MARGIN)
  {
    CollectAndFallOutcome(l, p, MoveAndCollide(l, p.rect, dx, dy));
  }

  /** The two steps differ only after a head bump. */
  lemma PlayerStepsAgreeWithoutBump(l: Level, p: Player, dx: Delta, dy: Delta)
    requires l.Valid() && dx.Valid() && dy.Valid()
    requires !Resolve(l, p.rect, dx, dy).hitAbove
    ensures PlayerStep(l, p, dx, dy) == PlayerStepIntended(l, p, dx, dy)
  {
    MovesAgreeWithoutBump(l, p.rect, dx, dy);
  }

  /** The head bump of the finding, seen from the player: as written the step leaves the
      grid alone, while the corrected step turns the question block into a brick. */
  lemma PlayerStepMissesQuestionBlock(l: Level, p: Player)
    requires l == BumpDemoLevel() && p == Player(Rect(20, 25, 14, 18), -600, false, true, 0)
    ensures PlayerStep(l, p, Delta(0, 0), Delta(-1, -10)).level.grid == l.grid
    ensures PlayerStepIntended(l, p, Delta(0, 0), Delta(-1, -10)).level.grid == [" B ", "   ", "   "]
  {
    BumpFromBelowMissesQuestionBlock(l, p.rect);
    BumpFromBelowPopsIntended(l, p.rect);
  }

  // ---------------------------------------------------------------------------
  // Stomp or hurt

  /** The stomp test: moving down faster than 50 px/s with the feet at most 10 pixels
      below the enemy's top edge. */
  predicate Stomps(p: Player, e: Goomba) {
    StompsAt(p.rect, p.vy, e)
  }

  /** The stomp test for a body `r` moving at vertical speed `vy`. */
  predicate StompsAt(r: Rect, vy: int, e: Goomba) {
    vy > 50 && r.Bottom() - e.Box().Top() <= 10
  }

  /** The index of the first live enemy that the body `r`, moving at `vy`, touches and
      would stomp, or |es| when there is none. */
  function FirstStomp(r: Rect, vy: int, es: seq<Goomba>): (k: nat)
    decreases |es|
    ensures k <= |es|
    ensures k < |es| ==> es[k].alive && Overlaps(r, es[k].Box()) && StompsAt(r, vy, es[k])
    ensures forall j :: 0 <= j < k ==> !(es[j].alive && Overlaps(r, es[j].Box()) && StompsAt(r, vy, es[j]))
    ensures vy <= 50 ==> k == |es|
  {
    if es == [] then 0
    else if es[0].alive && Overlaps(r, es[0].Box()) && StompsAt(r, vy, es[0]) then 0
    else
      var tail := es[1..];
      assert forall j :: 1 <= j < |es| ==> es[j] == tail[j - 1];
      1 + FirstStomp(r, vy, tail)
  }

  /** State of the contact pass: the player and the enemy list as updated so far. */
  datatype Pass = Pass(player: Player, enemies: seq<Goomba>)

  /** Number of live enemies. */
  function CountAlive(es: seq<Goomba>): (n: nat)
    ensures n <= |es|
  {
    if es == [] then 0 else (if es[0].alive then 1 else 0) + CountAlive(es[1..])
  }

  /** The player after meeting one enemy, and the enemy after it. */
  datatype Meeting = Meeting(player: Player, enemy: Goomba)

  /** One enemy of the contact loop: a dead or untouched enemy is skipped; a touched live
      one is stomped, killing it and bouncing the player, or else kills the player. */
  function Meet(p: Player, e: Goomba): (m: Meeting)
    ensures m.player.rect == p.rect && m.player.coins == p.coins
    ensures m.player.alive ==> p.alive
    ensures m.enemy == e || (e.alive && Overlaps(p.rect, e.Box()) && m.enemy == e.(alive := false))
    ensures m.enemy.alive == e.alive ==> m.player.vy == p.vy && m.player.onGround == p.onGround
    ensures m.enemy.alive != e.alive ==> m.player.vy == -STOMP_BOUNCE && !m.player.onGround
    ensures p.vy <= 50 ==> m.enemy == e
    ensures !(e.alive && Overlaps(p.rect, e.Box())) ==> m == Meeting(p, e)
    ensures e.alive && Overlaps(p.rect, e.Box()) ==>
      (!m.enemy.alive <==> Stomps(p, e)) && (m.player.alive <==> p.alive && Stomps(p, e))
  {
    if !e.alive || !Overlaps(p.rect, e.Box()) then Meeting(p, e)
    else if Stomps(p, e) then Meeting(StompBounce(p), e.(alive := false))
    else Meeting(p.(alive := false), e)
  }

  /** The contact loop of the step: every enemy in order meets the player as the earlier
      enemies left it; a dead player keeps going. A bounce makes vy negative, so at most
      one enemy is stomped per pass. */
  function ContactPass(p: Player, es: seq<Goomba>): (r: Pass)
    decreases |es|
    ensures |r.enemies| == |es|
    ensures r.player.rect == p.rect && r.player.coins == p.coins
    ensures r.player.alive ==> p.alive
    ensures forall i :: 0 <= i < |es| ==>
      r.enemies[i] == es[i] || (es[i].alive && Overlaps(p.rect, es[i].Box()) && r.enemies[i] == es[i].(alive := false))
    ensures p.vy <= 50 ==> r.enemies == es && r.player.vy == p.vy && r.player.onGround == p.onGround
    ensures CountAlive(r.enemies) == CountAlive(es) ==> r.player.vy == p.vy && r.player.onGround == p.onGround
    ensures CountAlive(r.enemies) != CountAlive(es) ==>
      CountAlive(r.enemies) + 1 == CountAlive(es) && r.player.vy == -STOMP_BOUNCE && !r.player.onGround
  {
    if es == [] then Pass(p, [])
    else
      var m := Meet(p, es[0]);
      var rest := ContactPass(m.player, es[1..]);
      var r := Pass(rest.player, [m.enemy] + rest.enemies);
      assert forall i :: 1 <= i < |es| ==> r.enemies[i] == rest.enemies[i - 1] && es[i] == es[1..][i - 1];
      CountAliveCons(es[0], es[1..]);
      CountAliveCons(m.enemy, rest.enemies);
      assert [es[0]] + es[1..] == es;
      r
  }

  lemma CountAliveCons(e: Goomba, es: seq<Goomba>)
    ensures CountAlive([e] + es) == (if e.alive then 1 else 0) + CountAlive(es)
  {
    assert ([e] + es)[1..] == es;
  }

  /** The whole contact loop for every list: only the first touched live enemy that the
      player would stomp dies, and then the player bounces; every other touched live
      enemy stays alive and kills the player, even one met after the bounce. Rectangle
      and coins never change. */
  lemma ContactPassExact(p: Player, es: seq<Goomba>)
    ensures var r := ContactPass(p, es); var k := FirstStomp(p.rect, p.vy, es);
      (forall i :: 0 <= i < |es| ==> r.enemies[i] == if i == k then es[i].(alive := false) else es[i])
      && (k < |es| ==> r.player == p.(vy := -STOMP_BOUNCE, onGround := false, alive := r.player.alive))
      && (k == |es| ==> r.player == p.(alive := r.player.alive))
      && (r.player.alive <==> p.alive && OnlyTouched(p.rect, es, k))
  {
    ContactEnemiesExact(p, es);
    ContactPlayerExact(p, es);
    ContactAliveExact(p, es);
  }

  /** The enemy half: exactly the first stompable touched live enemy dies. */
  lemma {:induction false} ContactEnemiesExact(p: Player, es: seq<Goomba>)
    decreases |es|
    ensures var r := ContactPass(p, es); var k := FirstStomp(p.rect, p.vy, es);
      forall i :: 0 <= i < |es| ==> r.enemies[i] == if i == k then es[i].(alive := false) else es[i]
  {
    if es != [] {
      var e, tail := es[0], es[1..];
      var m := Meet(p, e);
      ContactEnemiesExact(m.player, tail);
      var rest := ContactPass(m.player, tail);
      assert ContactPass(p, es) == Pass(rest.player, [m.enemy] + rest.enemies);
      var k := FirstStomp(p.rect, p.vy, es);
      var kt := FirstStomp(m.player.rect, m.player.vy, tail);
      if e.alive && Overlaps(p.rect, e.Box()) && Stomps(p, e) {
        assert k == 0 && kt == |tail|;
      } else {
        assert k == 1 + kt;
      }
      forall i | 1 <= i < |es|
        ensures ContactPass(p, es).enemies[i] == if i == k then es[i].(alive := false) else es[i]
      {
        assert es[i] == tail[i - 1];
      }
    }
  }

  /** The player half: a bounce exactly when some enemy is stomped; rectangle and coins
      unchanged. */
  lemma {:induction false} ContactPlayerExact(p: Player, es: seq<Goomba>)
    decreases |es|
    ensures var r := ContactPass(p, es); var k := FirstStomp(p.rect, p.vy, es);
      (k < |es| ==> r.player == p.(vy := -STOMP_BOUNCE, onGround := false, alive := r.player.alive))
      && (k == |es| ==> r.player == p.(alive := r.player.alive))
  {
    if es != [] {
      var e, tail := es[0], es[1..];
      var m := Meet(p, e);
      ContactPlayerExact(m.player, tail);
      var rest := ContactPass(m.player, tail);
      assert ContactPass(p, es) == Pass(rest.player, [m.enemy] + rest.enemies);
      if e.alive && Overlaps(p.rect, e.Box()) && Stomps(p, e) {
        assert FirstStomp(m.player.rect, m.player.vy, tail) == |tail|;
      } else {
        assert FirstStomp(p.rect, p.vy, es) == 1 + FirstStomp(m.player.rect, m.player.vy, tail);
      }
    }
  }

  /** A live enemy the body overlaps. */
  predicate Touches(r: Rect, e: Goomba) {
    e.alive && Overlaps(r, e.Box())
  }

  /** Every enemy of the list the body touches sits at index k. */
  predicate OnlyTouched(r: Rect, es: seq<Goomba>, k: int) {
    forall i :: 0 <= i < |es| && Touches(r, es[i]) ==> i == k
  }

  /** Splitting the first enemy off the list. */
  lemma OnlyTouchedCons(r: Rect, es: seq<Goomba>, k: int)
    requires es != []
    ensures OnlyTouched(r, es, k) <==> (Touches(r, es[0]) ==> k == 0) && OnlyTouched(r, es[1..], k - 1)
  {
    var tail := es[1..];
    assert forall i :: 1 <= i < |es| ==> es[i] == tail[i - 1];
    if (Touches(r, es[0]) ==> k == 0) && OnlyTouched(r, tail, k - 1) {
      forall i | 0 <= i < |es| && Touches(r, es[i])
        ensures i == k
      {
        if i > 0 {
          assert Touches(r, tail[i - 1]);
        }
      }
    }
  }

  /** The survival half: the player lives iff it was alive and the only touched live enemy,
      if any, is the one it stomps. */
  lemma {:induction false} ContactAliveExact(p: Player, es: seq<Goomba>)
    decreases |es|
    ensures ContactPass(p, es).player.alive <==> p.alive && OnlyTouched(p.rect, es, FirstStomp(p.rect, p.vy, es))
  {
    if es != [] {
      var e, tail := es[0], es[1..];
      var m := Meet(p, e);
      ContactAliveExact(m.player, tail);
      var rest := ContactPass(m.player, tail);
      assert ContactPass(p, es) == Pass(rest.player, [m.enemy] + rest.enemies);
      var k := FirstStomp(p.rect, p.vy, es);
      var kt := FirstStomp(m.player.rect, m.player.vy, tail);
      OnlyTouchedCons(p.rect, es, k);
      if !Touches(p.rect, e) {
        assert k == 1 + kt;
      } else if Stomps(p, e) {
        assert k == 0 && kt == |tail|;
        assert OnlyTouched(p.rect, tail, kt) <==> OnlyTouched(p.rect, tail, -1);
      } else {
        assert k == 1 + kt;
        assert !m.player.alive;
      }
    }
  }

  /** `lvl.enemies = [e for e in lvl.enemies if e.alive]`. */
  function Survivors(es: seq<Goomba>): (s: seq<Goomba>)
    ensures |s| == CountAlive(es)
    ensures forall e :: e in s <==> e in es && e.alive
  {
    if es == [] then []
    else
      var rest := Survivors(es[1..]);
      assert forall e :: e in es <==> e == es[0] || e in es[1..];
      if es[0].alive then [es[0]] + rest else rest
  }

  /** The stomp-or-hurt pass followed by the removal of dead enemies. */
  function StompPhase(p: Player, es: seq<Goomba>): (r: Pass)
    ensures forall e :: e in r.enemies ==> e.alive
  {
    var c := ContactPass(p, es);
    Pass(c.player, Survivors(c.enemies))
  }

  /** The phase removes at most one live enemy, and it does so exactly when a stomp
      bounced the player. */
  lemma StompPhaseRemovesAtMostOne(p: Player, es: seq<Goomba>)
    ensures var r := StompPhase(p, es);
      |r.enemies| == CountAlive(es) || (|r.enemies| + 1 == CountAlive(es) && r.player.vy == -STOMP_BOUNCE && !r.player.onGround)
  {
  }

  /** Without downward speed above 50 px/s nothing is stomped: the player survives
      exactly when it was alive and touched no live enemy. */
  lemma {:induction false} NoStompWhenSlow(p: Player, es: seq<Goomba>)
    requires p.vy <= 50
    decreases |es|
    ensures ContactPass(p, es).player.alive <==>
      p.alive && forall i :: 0 <= i < |es| ==> !(es[i].alive && Overlaps(p.rect, es[i].Box()))
  {
    if es != [] {
      var tail := es[1..];
      assert forall i :: 1 <= i < |es| ==> es[i] == tail[i - 1];
      var e := es[0];
      if !e.alive || !Overlaps(p.rect, e.Box()) {
        NoStompWhenSlow(p, tail);
      } else {
        NoStompWhenSlow(p.(alive := false), tail);
      }
    }
  }

  /** With no live enemy touching the player the pass changes nothing. */
  lemma {:induction false} NoContactNoChange(p: Player, es: seq<Goomba>)
    requires forall i :: 0 <= i < |es| ==> !(es[i].alive && Overlaps(p.rect, es[i].Box()))
    decreases |es|
    ensures ContactPass(p, es) == Pass(p, es)
  {
    if es != [] {
      var tail := es[1..];
      assert forall i :: 1 <= i < |es| ==> es[i] == tail[i - 1];
      NoContactNoChange(p, tail);
      assert [es[0]] + tail == es;
    }
  }

  /** A single contact: a live enemy met feet-first while falling fast is removed and the
      player bounces; met any other way, the player dies and the enemy stays. */
  lemma SingleContact(p: Player, e: Goomba)
    requires e.alive && Overlaps(p.rect, e.Box())
    ensures Stomps(p, e) ==> StompPhase(p, [e]) == Pass(p.(vy := -STOMP_BOUNCE, onGround := false), [])
    ensures !Stomps(p, e) ==> StompPhase(p, [e]) == Pass(p.(alive := false), [e])
  {
    var m := Meet(p, e);
    assert [e][1..] == [];
    assert ContactPass(p, [e]) == Pass(m.player, [m.enemy]);
  }
}

=== FILE: tile_grid.dfy ===
/** The character-coded tile grid of the tile-grid variant (class Level of ultrasmb4k.py):
    bounds-safe reads and writes, solidity, tile rectangles, the enumeration of the cells
    a rectangle covers, and the coin list that question blocks append to. */
module TileGrid {
  import opened Geometry

  /** Side of one square tile, in pixels. */
  const TILE: int := 20

  /** The blocking codes: ground, brick, question block, hard block, pipe. */
  const SolidCodes: set<char> := {'X', 'B', '?', 'H', 'L'}

  /** A cell coordinate (tx, ty), column first. */
  type Cell = (int, int)

  /** A level: `wt` x `ht` tiles stored row by row, plus the loose coins. */
  datatype Level = Level(wt: nat, ht: nat, grid: seq<seq<char>>, coins: seq<Rect>) {

    /** The grid has `ht` rows of `wt` codes each, as the constructor builds it. */
    predicate Valid() {
      |grid| == ht && forall ty :: 0 <= ty < |grid| ==> |grid[ty]| == wt
    }

    predicate InBounds(tx: int, ty: int) {
      0 <= tx < wt && 0 <= ty < ht
    }

    /** The code at (tx, ty); a blank outside the grid. */
    function Get(tx: int, ty: int): (c: char)
      requires Valid()
      ensures !InBounds(tx, ty) ==> c == ' '
      ensures InBounds(tx, ty) ==> c == grid[ty][tx]
    {
      if InBounds(tx, ty) then grid[ty][tx] else ' '
    }

    /** Writes one code; a write outside the grid is ignored. */
    function Set(tx: int, ty: int, ch: char): (l: Level)
      requires Valid()
      ensures l.Valid() && l.wt == wt && l.ht == ht && l.coins == coins
      ensures !InBounds(tx, ty) ==> l == this
      ensures forall a, b :: l.Get(a, b) == if a == tx && b == ty && InBounds(tx, ty) then ch else Get(a, b)
    {
      if InBounds(tx, ty) then this.(grid := grid[ty := grid[ty][tx := ch]]) else this
    }

    /** `is_solid`: the code read there blocks. Only a cell of the grid can block, since
        a read outside it yields a blank. */
    predicate IsSolid(tx: int, ty: int)
      requires Valid()
      ensures IsSolid(tx, ty) <==> InBounds(tx, ty) && grid[ty][tx] in SolidCodes
    {
      Get(tx, ty) in SolidCodes
    }

    /** Appends a coin occupying the tile (tx, ty) shrunk by 3 pixels on every side
        (`tile_rect(tx, ty).inflate(-6, -6)`). */
    function AddCoin(tx: int, ty: int): (l: Level)
      ensures l.wt == wt && l.ht == ht && l.grid == grid
      ensures l.coins == coins + [CoinRect(tx, ty)]
    {
      this.(coins := coins + [CoinRect(tx, ty)])
    }

    /** `tiles_in_rect`: the cells from the rectangle's first to last covered column and
        row, clipped to the grid, in row-major order. The bounds are fixed on entry. */
    function TilesInRect(r: Rect): (cells: seq<Cell>)
      requires Valid()
      ensures forall c :: c in cells ==> InBounds(c.0, c.1)
      ensures RowMajor(cells)
    {
      var left := Max(r.Left() / TILE, 0);
      var right := Min((r.Right() - 1) / TILE, wt - 1);
      var top := Max(r.Top() / TILE, 0);
      var bottom := Min((r.Bottom() - 1) / TILE, ht - 1);
      Rows(top, bottom, left, right)
    }
  }

  /** A fresh level of blanks with no coins. */
  function EmptyLevel(wt: nat, ht: nat): (l: Level)
    ensures l.Valid() && l.wt == wt && l.ht == ht && l.coins == []
    ensures forall tx, ty :: l.Get(tx, ty) == ' '
  {
    Level(wt, ht, seq(ht, _ => seq(wt, _ => ' ')), [])
  }

  /** `tile_rect`: the square of the grid cell (tx, ty). */
  function TileRect(tx: int, ty: int): (t: Rect)
    ensures t.w == TILE && t.h == TILE
    ensures t.Left() == tx * TILE && t.Top() == ty * TILE
  {
    Rect(tx * TILE, ty * TILE, TILE, TILE)
  }

  function CoinRect(tx: int, ty: int): Rect {
    Rect(tx * TILE + 3, ty * TILE + 3, TILE - 6, TILE - 6)
  }

  /** Cell a comes strictly before cell b in row-major order. */
  predicate Before(a: Cell, b: Cell) {
    a.1 < b.1 || (a.1 == b.1 && a.0 < b.0)
  }

  predicate RowMajor(cells: seq<Cell>) {
    forall i, j :: 0 <= i < j < |cells| ==> Before(cells[i], cells[j])
  }

  /** The cells (tx, ty) .. (right, ty) of one row, left to right. */
  function Span(ty: int, tx: int, right: int): (cells: seq<Cell>)
    decreases right - tx
    ensures forall c :: c in cells <==> c.1 == ty && tx <= c.0 <= right
    ensures RowMajor(cells)
  {
    if tx > right then []
    else
      var rest := Span(ty, tx + 1, right);
      assert forall j :: 0 <= j < |rest| ==> rest[j] in rest;
      [(tx, ty)] + rest
  }

  /** Rows top .. bottom of the columns left .. right, row by row. */
  function Rows(top: int, bottom: int, left: int, right: int): (cells: seq<Cell>)
    decreases bottom - top
    ensures forall c :: c in cells <==> top <= c.1 <= bottom && left <= c.0 <= right
    ensures RowMajor(cells)
  {
    if top > bottom then []
    else
      var row := Span(top, left, right);
      var rest := Rows(top + 1, bottom, left, right);
      assert forall i :: 0 <= i < |row| ==> row[i] in row;
      assert forall j :: 0 <= j < |rest| ==> rest[j] in rest;
      row + rest
  }

  /** Floor division by the tile size picks exactly the tiles whose pixel span
      [t * TILE, (t + 1) * TILE) meets the half-open span [lo, hi). */
  lemma TileSpan(lo: int, hi: int, t: int)
    ensures (lo / TILE <= t && t <= (hi - 1) / TILE) <==> (lo < (t + 1) * TILE && t * TILE < hi)
  {
    var q, p := lo / TILE, (hi - 1) / TILE;
    assert lo == q * TILE + lo % TILE && 0 <= lo % TILE < TILE;
    assert hi - 1 == p * TILE + (hi - 1) % TILE && 0 <= (hi - 1) % TILE < TILE;
    if q <= t {
      assert q * TILE <= t * TILE;
    } else {
      assert (t + 1) * TILE <= q * TILE;
    }
    if t <= p {
      assert t * TILE <= p * TILE;
    } else {
      assert (p + 1) * TILE <= t * TILE;
    }
  }

  /** A cell is enumerated for a rectangle exactly when it lies in the grid and its
      tile overlaps the rectangle, so collision resolution sees every tile it touches. */
  lemma TilesInRectExact(l: Level, r: Rect, c: Cell)
    requires l.Valid()
    ensures c in l.TilesInRect(r) <==> l.InBounds(c.0, c.1) && Overlaps(r, TileRect(c.0, c.1))
  {
    var left := Max(r.Left() / TILE, 0);
    var right := Min((r.Right() - 1) / TILE, l.wt - 1);
    var top := Max(r.Top() / TILE, 0);
    var bottom := Min((r.Bottom() - 1) / TILE, l.ht - 1);
    assert l.TilesInRect(r) == Rows(top, bottom, left, right);
    assert c in l.TilesInRect(r) <==> top <= c.1 <= bottom && left <= c.0 <= right;
    TileSpan(r.Left(), r.Right(), c.0);
    TileSpan(r.Top(), r.Bottom(), c.1);
    var t := TileRect(c.0, c.1);
    assert t.Left() == c.0 * TILE && t.Right() == (c.0 + 1) * TILE;
    assert t.Top() == c.1 * TILE && t.Bottom() == (c.1 + 1) * TILE;
  }

  /** A pixel lies in the square of cell (tx, ty) exactly when flooring its coordinates by
      the tile size gives that cell, so the cells of `TilesInRect` and the squares of
      `TileRect` describe the same pixels. */
  lemma TileRectCells(tx: int, ty: int, px: int, py: int)
    ensures var t := TileRect(tx, ty);
      (t.Left() <= px < t.Right() && t.Top() <= py < t.Bottom()) <==> (px / TILE == tx && py / TILE == ty)
  {
    TileSpan(px, px + 1, tx);
    TileSpan(py, py + 1, ty);
  }

  /** Solidity is a function of the code alone: exactly X B ? H L block, so the flag pole,
      coins and blanks never do, and nothing outside the grid does. */
  lemma SolidityByCode(l: Level, tx: int, ty: int)
    requires l.Valid()
    ensures l.IsSolid(tx, ty) <==> l.InBounds(tx, ty) && l.grid[ty][tx] in "XB?HL"
    ensures !l.InBounds(tx, ty) ==> !l.IsSolid(tx, ty)
    ensures l.Get(tx, ty) in " |C" ==> !l.IsSolid(tx, ty)
  {
  }
}
